=== FILE: README.md ===
# Applied Information Economics engine, modelled in Dafny

This project models the evaluation engine of AppliedInformationEconomics. The engine runs Monte-Carlo value-of-information analyses over quantities that are uncertain and carry units. The model covers:

- **Unit algebra** (`Unit`, `units.dfy`). A unit is a sorted numerator list and a sorted denominator list of symbols. Multiplication and division concatenate the lists and cancel pairwise. Equality of units is equality of every symbol's net exponent.
- **Quantities** (`quantities.dfy`). Addition, subtraction and comparison require equal units. Multiplication and division compose units.
- **Per-run memoisation** (`SimulationRun`, `runs.dfy`). A run is a write-once map of persisted values, plus an overwritable map of auxiliary objects.
- **Random variables** (`variables.dfy`, `evaluator.dfy`).
  - Variables form a closed datatype with one `Observe` per class.
  - The random source is an explicit position on a stream of draws, backed by an oracle: uniform draws in [0, 1), bounded integer draws, child streams, and the external samplers of the transcendental families.
  - Every observation threads the source position and the simulation run.
- **Samples** (`samples.dfy`): `RandomVariable.sample` and `mean`, and the sorted `Sample` with its mean, median and quartiles.
- **Models and instances** (`models.dfy`).
  - Producers are registered under ids. A producer lambda is a `Recipe`: the ids it fetches with `get`, combined by the library's combinators and factories.
  - `Instance.get` resolves ids lazily and remembers every variable it produced.
  - The time series are evaluated by the same recursion: concrete, delayed, differential, exponential and linear growth, combined, transformed, conditional, collapse, and the accrual of deals over time.
- **Distribution factories** (`distributions.dfy`, `unknown_dists.dfy`): the parameter checks, and the unknown-distribution factory with its persistent index variable.
- **The analyser** (`analysis.dfy`): the batches of `createSamples`, the best choice, the loss against it, the reduced instance, and the accumulation of mean losses in `analyze`.

The `*_laws.dfy` files hold the properties: what each variable class observes and how many draws it uses, the persistence state machine, unit agreement of observations, the time-series identities, and the deal-accrual algorithm proved against an independent closed form, `DealsLaws.Final`.

Failures are values (`Result`), not exceptions. A Java `assert` is a checked `AssertionFailed`, as with `-ea`. An index out of range is `IndexOutOfRange`. A unit mismatch is `IncompatibleUnits`. A duplicate registration is `AlreadyContained`.

## Model

| member | source | states |
|---|---|---|
| Units.CancelCounts | src/de/set/aie/base/Unit.java:28-36 | the constructor's cancellation loop leaves in the numerator exactly the numerator symbols not matched in the denominator, and in the denominator the rest, counted with multiplicity |
| Units.Make | src/de/set/aie/base/Unit.java:28-41 | the unit of a numerator and a denominator list: cancelled, sorted lists whose symbol exponents are the count differences (Units.MakeCounts, Units.FromContents) |
| Units.MakeCounts | src/de/set/aie/base/Unit.java:28-41 | a constructed unit holds the multiset differences of the given lists; each symbol's net exponent is its numerator count minus its denominator count |
| Units.Extensional | src/de/set/aie/base/Unit.java:56-63 | two units are equal (equal sorted lists) exactly when every symbol has the same net exponent in both |
| Units.FromExponents | src/de/set/aie/base/Unit.java:28-41 | sorted, disjoint lists are the one unit with the exponents they count |
| Units.Of | src/de/set/aie/base/Unit.java:43-45 | `Unit.of(name)` has the name as its only numerator symbol and an empty denominator |
| Units.Scalar | src/de/set/aie/base/Unit.java:47-49 | the scalar unit has empty lists, so every symbol has exponent zero |
| Units.Render | src/de/set/aie/base/Unit.java:65-78 | `toString` prints nothing for the scalar unit, `1/` before the denominator when the numerator is empty, and the numerator alone when the denominator is empty, symbols joined by `*` |
| Units.HashCode | src/de/set/aie/base/Unit.java:51-54 | the hash is a 32-bit value; the scalar unit hashes to 1 + 23 * 1 = 24 |
| Units.Times | src/de/set/aie/base/Unit.java:80-84 | the product unit: exponents add (Units.TimesExponent), commutative and associative (Units.TimesCommutative, Units.TimesAssociative) |
| Units.Div | src/de/set/aie/base/Unit.java:86-90 | the quotient unit: exponents subtract (Units.DivExponent) and it undoes `times` (Units.DivUndoesTimes, Units.TimesUndoesDiv) |
| Units.TimesExponent | src/de/set/aie/base/Unit.java:80-84 | multiplying units adds the exponents of every symbol |
| Units.DivExponent | src/de/set/aie/base/Unit.java:86-90 | dividing units subtracts the exponents of every symbol |
| Units.TimesCommutative | src/de/set/aie/base/Unit.java:80-84 | `u.times(v)` equals `v.times(u)` |
| Units.TimesAssociative | src/de/set/aie/base/Unit.java:80-84 | `(u.times(v)).times(w)` equals `u.times(v.times(w))` |
| Units.ScalarIdentity | src/de/set/aie/base/Unit.java:47-49 | the scalar unit is a two-sided identity of `times` and a right identity of `div` |
| Units.DivSelf | src/de/set/aie/base/Unit.java:86-90 | a unit divided by itself is the scalar unit |
| Units.DivUndoesTimes | src/de/set/aie/base/Unit.java:80-90 | `u.times(v).div(v)` is `u` |
| Units.TimesUndoesDiv | src/de/set/aie/base/Unit.java:80-90 | `u.div(v).times(v)` is `u` |
| Units.DivIsTimesInverse | src/de/set/aie/base/Unit.java:80-90 | dividing by `v` is multiplying by the inverse `scalar().div(v)` |
| Units.RenderOrderFree | src/de/set/aie/base/Unit.java:28-41 | lists with the same symbols in any order construct the same unit and print the same text |
| Units.RenderTimesCommutes | src/de/set/aie/base/Unit.java:65-84 | the printed form of a product does not depend on the order of the factors |
| Strings.Le | src/de/set/aie/base/Unit.java:37-38 | the lexicographic string order the unit lists are sorted by, a total order (Strings.LeReflexive, Strings.LeAntisymmetric, Strings.LeTransitive, Strings.LeTotal) |
| Strings.LeTotal | src/de/set/aie/base/Unit.java:37-38 | the string order the lists are sorted by is total (with `LeReflexive`, `LeAntisymmetric` and `LeTransitive`, a total order) |
| Strings.LeAntisymmetric | src/de/set/aie/base/Unit.java:37-38 | two strings each at most the other are equal |
| Strings.LeTransitive | src/de/set/aie/base/Unit.java:37-38 | the string order is transitive |
| Strings.Join | src/de/set/aie/base/Unit.java:71 | joining no parts gives the empty string, joining one part gives that part |
| Strings.Hash | src/de/set/aie/base/Unit.java:53 | `String.hashCode` is a 32-bit value and 0 for the empty string |
| UnitExamples.RenderSymbol | test/de/set/aie/base/UnitTest.java:25-29 | `of("EUR")` prints `EUR` |
| UnitExamples.RenderProductSorted | test/de/set/aie/base/UnitTest.java:31-36 | `EUR` times `cm` prints `EUR*cm` |
| UnitExamples.RenderSquare | test/de/set/aie/base/UnitTest.java:38-42 | `EUR` times itself prints `EUR*EUR` |
| UnitExamples.TimesOfSymbols | src/de/set/aie/base/Unit.java:80-84 | the product of two symbols in string order has both, in that order, in the numerator |
| UnitExamples.RenderSelfQuotient | test/de/set/aie/base/UnitTest.java:44-48 | `EUR/EUR` prints the empty string |
| UnitExamples.RenderQuotient | test/de/set/aie/base/UnitTest.java:50-55 | `EUR` divided by `h` prints `EUR/h` |
| UnitExamples.RenderInverse | test/de/set/aie/base/UnitTest.java:57-61 | `EUR/EUR/EUR` prints `1/EUR` |
| UnitExamples.RenderCancelled | test/de/set/aie/base/UnitTest.java:63-73 | `EUR*EUR/EUR` and `EUR/EUR*EUR` both print `EUR` |
| UnitExamples.EqualityExamples | test/de/set/aie/base/UnitTest.java:75-82 | `of("EUR")` equals another `of("EUR")` but neither its square nor `EUR/EUR` |
| Quantities.Of | src/de/set/aie/base/Quantity.java:34-36 | `Quantity.of(value, unit)` keeps both |
| Quantities.OfSymbol | src/de/set/aie/base/Quantity.java:30-32 | `Quantity.of(value, "sym")` is in the unit with the one numerator symbol |
| Quantities.Plus | src/de/set/aie/base/Quantity.java:38-43 | `plus` succeeds exactly when the units are equal, adding the values and keeping the unit; otherwise it fails with the incompatible-units error naming both units |
| Quantities.Minus | src/de/set/aie/base/Quantity.java:45-50 | `minus` succeeds exactly when the units are equal, subtracting the values; otherwise the incompatible-units error |
| Quantities.Times | src/de/set/aie/base/Quantity.java:52-54 | `times` multiplies the values and the units and never fails |
| Quantities.Div | src/de/set/aie/base/Quantity.java:56-58 | `div` divides the values and the units, and succeeds exactly when the divisor is non-zero |
| Quantities.Compare | src/de/set/aie/base/Quantity.java:74-80 | `compareTo` succeeds exactly for equal units and its sign is the sign of the value difference |
| Quantities.PlusMinusRoundTrip | src/de/set/aie/base/Quantity.java:38-50 | adding and then subtracting `b` gives back `a` |
| Quantities.PlusCommutative | src/de/set/aie/base/Quantity.java:38-43 | `a.plus(b)` and `b.plus(a)` fail together and are equal when they succeed |
| Quantities.CompareAntisymmetric | src/de/set/aie/base/Quantity.java:74-80 | swapping the operands of `compareTo` negates the result |
| Quantities.TimesScalarKeepsUnit | test/de/set/aie/base/QuantityTest.java:50-54 | multiplying by a scalar quantity keeps the unit and scales the value |
| Quantities.DivTimesRoundTrip | src/de/set/aie/base/Quantity.java:52-58 | dividing by a non-zero quantity and multiplying back gives the dividend, unit included |
| Quantities.TimesDivRoundTrip | src/de/set/aie/base/Quantity.java:52-58 | multiplying by a non-zero quantity and dividing by it again gives the first factor |
| VarIds.ToString | src/de/set/aie/base/StringId.java:13-15 | the string form of an id: equal exactly for equal ids (VarIds.StringFormFaithful) and the basis of `subvar` (VarIds.Subvar) |
| VarIds.Of | src/de/set/aie/base/VarId.java:10-12 | `VarId.of(s)` is a string id whose string form is `s` |
| VarIds.Subvar | src/de/set/aie/base/VarId.java:18-20 | `subvar(suffix)` is the string id spelled as the id, an underscore and the suffix |
| VarIds.HashCode | src/de/set/aie/base/StringId.java:17-19 | a string id hashes as its string |
| VarIds.NamedEquality | src/de/set/aie/base/StringId.java:21-26 | string ids are equal exactly when their strings are, and never equal a unique id |
| VarIds.StringFormFaithful | src/de/set/aie/base/VarId.java:3-8 | equal string ids have equal string forms and conversely |
| VarIds.SubvarInjective | src/de/set/aie/base/VarId.java:18-20 | different suffixes give different sub-ids, and a sub-id never equals its base |
| JavaNumbers.Wrap32 | src/de/set/aie/base/UncertainDistributionVariable.java:30 | the `(int)` cast keeps a 32-bit value congruent to its input modulo 2^32, and leaves values already in range alone |
| JavaNumbers.Round | src/de/set/aie/base/BinomRandomVariable.java:31 | `Math.round` gives the integer `r` with `r <= x + 0.5 < r + 1`, saturated to the long range, and leaves whole numbers alone |
| JavaNumbers.RoundToInt | src/de/set/aie/base/UncertainDistributionVariable.java:30 | `(int) Math.round(x)` is a 32-bit value, the rounded number whenever that fits |
| JavaNumbers.Quot | src/de/set/aie/base/Sample.java:38 | Java's `/` on ints with a positive divisor truncates toward zero, also for a negative dividend |
| Means.Sum | src/de/set/aie/base/Mean.java:28-34 | the left-to-right sum behind `Mean.of`: independent of order (Means.SumPermutation), additive over concatenation (Means.OfConcat), non-negative for non-negative numbers (Means.SumNonNegative) |
| Means.Of | src/de/set/aie/base/Mean.java:28-34 | `Mean.of` holds the left-to-right sum of the numbers and their count |
| Means.Undefined | src/de/set/aie/base/Mean.java:36-38 | `Mean.undefined()` has sum 0 and count 0 |
| Means.Get | src/de/set/aie/base/Mean.java:40-42 | `get` has a value exactly when the count is non-zero, and that value times the count is the sum |
| Means.Add | src/de/set/aie/base/Mean.java:44-46 | `add(other)` adds the sums and the counts |
| Means.AddRaw | src/de/set/aie/base/Mean.java:48-50 | `add(sum, count)` is `add` of the mean with that sum and count |
| Means.OfConcat | src/de/set/aie/base/Mean.java:28-46 | the mean of a concatenation is the `add` of the two means |
| Means.AddLaws | src/de/set/aie/base/Mean.java:36-46 | `undefined()` is an identity of `add`, and `add` is commutative and associative |
| Means.SumPermutation | src/de/set/aie/base/Mean.java:28-34 | the sum does not depend on the order of the numbers |
| Means.SumNonNegative | src/de/set/aie/base/Mean.java:28-34 | numbers that are all non-negative have a non-negative sum |
| Sorting.Sort | src/de/set/aie/base/Sample.java:28 | `Arrays.sort`: a sorted permutation (Sorting.SortPermutes, Sorting.SortSorted) that depends only on the multiset of its input (Sorting.SortByMultiset) |
| Sorting.SortPermutes | src/de/set/aie/base/Unit.java:37-38 | sorting returns a permutation of its input |
| Sorting.SortSorted | src/de/set/aie/base/Unit.java:37-38 | sorting by a total, transitive order returns a sorted sequence |
| Sorting.SortedUnique | src/de/set/aie/base/Unit.java:37-38 | two sorted permutations of the same elements are the same sequence, so the sorted lists identify the unit |
| Sorting.SortByMultiset | src/de/set/aie/base/Sample.java:25-29 | the sorted result depends on the multiset of the input only |
| Sorting.SortOfSorted | src/de/set/aie/base/Sample.java:25-29 | sorting a sorted sequence leaves it unchanged |
| SimulationRuns.HasValue | src/de/set/aie/base/SimulationRun.java:27-29 | `hasPersistentValue`: true exactly for the names `persist` has stored (SimulationRuns.Persist, SimulationRuns.PersistAllHas) |
| SimulationRuns.HasObject | src/de/set/aie/base/SimulationRun.java:44-46 | `hasPersistentObject`: true exactly for the names `getPersistentObject` succeeds on (SimulationRuns.GetObject, SimulationRuns.PersistObject) |
| SimulationRuns.Fresh | src/de/set/aie/base/SimulationRun.java:22-25 | a new run holds no values and no objects |
| SimulationRuns.Persist | src/de/set/aie/base/SimulationRun.java:31-34 | `persist` succeeds exactly when the name holds no value yet (the assertion), then stores the value, changes no other name and appends the name to the value names |
| SimulationRuns.PersistKeepsValid | src/de/set/aie/base/SimulationRun.java:24-34 | after `persist` the value names still list every stored name once |
| SimulationRuns.GetValue | src/de/set/aie/base/SimulationRun.java:36-42 | `getPersistentValue` succeeds exactly for a persisted name and otherwise fails with the not-persisted error |
| SimulationRuns.PersistObject | src/de/set/aie/base/SimulationRun.java:48-51 | `persistObject` checks the value store only, stores the object and leaves the values alone |
| SimulationRuns.GetObject | src/de/set/aie/base/SimulationRun.java:53-59 | `getPersistentObject` succeeds exactly for a stored object and otherwise fails with the not-persisted error |
| SimulationRuns.ValueNames | src/de/set/aie/base/SimulationRun.java:61-63 | the value names are exactly the names holding a value |
| SimulationRuns.PersistAllSucceeds | src/de/set/aie/base/SimulationRun.java:31-34 | a sequence of `persist` calls succeeds exactly when its names are distinct and none held a value |
| SimulationRuns.PersistAllNames | src/de/set/aie/base/SimulationRun.java:24-63 | after a sequence of writes the value names are the old ones followed by the written ones in write order (the `LinkedHashMap` order) |
| SimulationRuns.PersistAllHas | src/de/set/aie/base/SimulationRun.java:27-34 | after a sequence of writes a name holds a value exactly when it did before or was written |
| SimulationRuns.PersistAllValid | src/de/set/aie/base/SimulationRun.java:24-34 | a sequence of writes keeps the value names listing every stored name once |
| SimulationRuns.PersistAllValues | src/de/set/aie/base/SimulationRun.java:31-42 | every written name reads back the value written under it |
| SimulationRuns.GetUntouched | src/de/set/aie/base/SimulationRun.java:31-42 | writes under other names leave a name's value as it was |
| Samples.Make | src/de/set/aie/base/Sample.java:25-29 | the constructor: a sorted permutation of the numbers in the given unit (Samples.MakeSorts), independent of draw order (Samples.MakeOrderFree) |
| Samples.MakeSorts | src/de/set/aie/base/Sample.java:25-29 | a new sample holds a sorted permutation of the numbers, in the given unit |
| Samples.MakeOrderFree | src/de/set/aie/base/Sample.java:25-29 | the sample depends on the multiset of the numbers, not on the order they were drawn in |
| Samples.MeanQ | src/de/set/aie/base/Sample.java:47-53 | `meanQ` has a value exactly for a non-empty sample, in the sample's unit, equal to `mean()` |
| Samples.MeanOfObservations | src/de/set/aie/base/Sample.java:25-53 | on reals, sorting does not change the mean: the sample's mean is the mean of the numbers as drawn |
| Samples.At | src/de/set/aie/base/Sample.java:35-39 | reading the sorted array succeeds exactly for an index inside it and otherwise fails with the index-out-of-range error |
| Samples.Median | src/de/set/aie/base/Sample.java:55-57 | the middle element of the sorted numbers, failing for an empty sample (Samples.EmptyHasNoMedian, Samples.SummaryOrdered) |
| Samples.Summarize | src/de/set/aie/base/Sample.java:31-41 | `toString`: min, quartiles, median and max in order for lengths whose triple fits an int, failing beyond (Samples.SummaryOrdered, Samples.SummaryOverflows) |
| Samples.SummaryOrdered | src/de/set/aie/base/Sample.java:31-57 | for a non-empty sample whose length times 3 fits an int, min, lower quartile, median, upper quartile and max all exist and are ordered, and the median is one of the numbers with the lower half at or below it and the upper half at or above it |
| Samples.UpperIndexWithin | src/de/set/aie/base/Sample.java:38 | for such a length the upper-quartile index `length * 3 / 4` lies between the median index and the last index |
| Samples.SummaryOverflows | src/de/set/aie/base/Sample.java:38 | one element more and `length * 3` wraps to a negative index, so `toString` fails |
| Samples.EmptyHasNoMedian | src/de/set/aie/base/Sample.java:51-57 | an empty sample has no median (index 0 of an empty array) and no mean (0/0) |
| Samples.SampleOf | src/de/set/aie/base/RandomVariable.java:82-89 | `sample(seed, n)`: `n` draws from fresh runs (Samples.Draws) sorted into a sample whose mean `mean(seed, n)` reproduces (Samples.MeanAgreesWithSample) |
| Samples.MeanOf | src/de/set/aie/base/RandomVariable.java:95-102 | `mean(seed, n)`: the sum and count of the same draws as `sample` (Samples.MeanAgreesWithSample) |
| Samples.Draws | src/de/set/aie/base/RandomVariable.java:82-93 | `n` draws give `n` numbers, each observed in a fresh simulation run |
| Samples.MeanAgreesWithSample | src/de/set/aie/base/RandomVariable.java:82-102 | whenever `sample(seed, n)` succeeds, `mean(seed, n)` succeeds with the sample's mean, and `mean` is `Mean.of` the same draws |
| Samples.DrawsOfPersistent | src/de/set/aie/base/PersistentRandomVariable.java:35-46 | since every draw starts from a fresh run, a persistent variable draws the same numbers as its base, not the first one repeated |
| Variables.Skip | src/de/set/aie/base/RandomSource.java:43-45 | each draw moves the source one position forward on the same stream |
| Variables.SpawnChild | src/de/set/aie/base/RandomSource.java:37-39 | `spawnChild` consumes one draw of the parent and starts a new source at the beginning of the stream that draw names |
| Variables.Kind | src/de/set/aie/base/FixedRandomVariable.java:39-40 | `getType`: a fixed variable is F, the uncertain one U, the combinators C, the plain distributions D; bounding and persisting keep the base's type, and only these three can be F |
| Variables.UnitOf | src/de/set/aie/base/RandomVariableProduct.java:34-35 | `getUnit`: fixed, empirical, block and external variables report their own unit, the product composes its operands' units, and an uncertain variable without candidates fails like `dists[0]` |
| Variables.MakeConditional | src/de/set/aie/base/ConditionalDistribution.java:28-33 | the constructor succeeds exactly when both branches have the same unit and the probability is scalar, and then keeps its arguments |
| Variables.MakeConditionalWithProbability | src/de/set/aie/base/ConditionalDistribution.java:24-25 | a plain probability becomes a fixed scalar, so only the branches' units are checked |
| Variables.MakeConditionalOrZero | src/de/set/aie/base/Distributions.java:157-159 | the second branch is a fixed zero in the first branch's unit; this succeeds exactly when that unit exists and the probability is scalar |
| Variables.MakeCondValue | src/de/set/aie/base/ConditionalValue.java:26-30 | the constructor succeeds exactly when the two quantities share a unit |
| Variables.MakeCondValueOrZero | src/de/set/aie/base/ConditionalValue.java:33-34 | the two-argument form always succeeds, with a zero of the first value's unit as the second value |
| Variables.MakeEmpirical | src/de/set/aie/base/EmpiricalRandomVariable.java:23-26 | the constructor succeeds exactly when there is at least one value |
| Variables.MakeBinom | src/de/set/aie/base/BinomRandomVariable.java:23-26 | the constructor succeeds exactly when the probability is scalar |
| Variables.EnsurePersistent | src/de/set/aie/base/PersistentRandomVariable.java:53-60 | a plain variable is wrapped under the name, a persistent one of the same name is returned as is, one of another name is rejected, and every result is persistent under the name |
| Variables.TimesQuantity | src/de/set/aie/base/RandomVariable.java:50-52 | `times(Quantity)` is the product with a fixed variable holding the factor |
| Variables.TimesFactor | src/de/set/aie/base/RandomVariable.java:54-56 | `times(double)` multiplies by a fixed scalar and so keeps the variable's unit |
| Variables.ScalarFactorUnit | src/de/set/aie/base/RandomVariableProduct.java:34-35 | a product with a scalar operand has the other operand's unit |
| Variables.SumOfNTimes | src/de/set/aie/base/RandomVariable.java:62-64 | `sumOfN(int)` uses a fixed scalar count and so keeps the term's unit |
| Variables.Bound | src/de/set/aie/base/RandomVariable.java:70-72 | bounding keeps the base, its type and its unit |
| Variables.NonNegative | src/de/set/aie/base/RandomVariable.java:74-76 | `nonNegative()` bounds below by zero and not above |
| Evaluator.Successes | src/de/set/aie/base/BinomRandomVariable.java:33-38 | the number of successful trials is at most the number of trials |
| Evaluator.Clamp | src/de/set/aie/base/RangeBoundRandomVariable.java:31-39 | a value below the lower bound becomes the lower bound, one above the upper bound becomes the upper bound, one within both is kept, and the unit never changes |
| Evaluator.Observe | src/de/set/aie/base/RandomVariable.java:25 | one observation never draws backwards or from another stream, and never changes or removes a persisted value |
| Evaluator.ObserveBinom | src/de/set/aie/base/BinomRandomVariable.java:30-39 | observing a binomial variable only moves the source forward and only adds persisted values |
| Evaluator.ObserveConditional | src/de/set/aie/base/ConditionalDistribution.java:37-41 | observing a conditional only moves the source forward and only adds persisted values |
| Evaluator.ObserveUncertain | src/de/set/aie/base/UncertainDistributionVariable.java:29-31 | observing an uncertain variable only moves the source forward and only adds persisted values |
| Evaluator.ObserveSum | src/de/set/aie/base/RandomVariableSum.java:29-30 | observing a sum only moves the source forward and only adds persisted values |
| Evaluator.ObserveDifference | src/de/set/aie/base/RandomVariable.java:42-44 | observing a difference only moves the source forward and only adds persisted values |
| Evaluator.ObserveProduct | src/de/set/aie/base/RandomVariableProduct.java:29-30 | observing a product only moves the source forward and only adds persisted values |
| Evaluator.ObserveQuotient | src/de/set/aie/base/RandomVariable.java:66-68 | observing a quotient only moves the source forward and only adds persisted values |
| Evaluator.ObserveSumOfN | src/de/set/aie/base/RandomVariableSumOfN.java:31-38 | observing a sum of `n` terms only moves the source forward and only adds persisted values |
| Evaluator.ObserveRangeBound | src/de/set/aie/base/RangeBoundRandomVariable.java:31-39 | observing a bounded variable only moves the source forward and only adds persisted values |
| Evaluator.ObservePersistent | src/de/set/aie/base/PersistentRandomVariable.java:28-41 | observing a persistent variable only moves the source forward and only adds persisted values |
| Evaluator.SumTerms | src/de/set/aie/base/RandomVariableSumOfN.java:33-37 | the loop over the terms only moves the source forward and only adds persisted values |
| PrimitiveLaws.FixedObserve | src/de/set/aie/base/FixedRandomVariable.java:29-35 | a fixed variable yields its quantity without drawing and reports its unit and type F |
| PrimitiveLaws.EmpiricalObserve | src/de/set/aie/base/EmpiricalRandomVariable.java:30-32 | an empirical variable yields one of its values in its unit, using exactly one draw |
| PrimitiveLaws.ScaledDraw | src/de/set/aie/base/BlockDistributedRandomVariable.java:33-39 | a uniform draw scaled by a positive width lies in [0, width) |
| PrimitiveLaws.BlockSegments | src/de/set/aie/base/BlockDistributedRandomVariable.java:31-39 | the three segments: below 0.05 lands in [lower - width, lower), below 0.95 in [lower, upper), otherwise in [upper, upper + width) |
| PrimitiveLaws.BlockObserve | src/de/set/aie/base/BlockDistributedRandomVariable.java:31-39 | a block variable with lower < upper always succeeds, uses two draws, and lands in the segment the first draw picks |
| PrimitiveLaws.SuccessesExtremes | src/de/set/aie/base/BinomRandomVariable.java:33-38 | with draws in [0, 1) a probability of at most 0 gives no successes and one of at least 1 gives all |
| PrimitiveLaws.BinomObserve | src/de/set/aie/base/BinomRandomVariable.java:30-39 | a binomial variable observes the count, then the probability, then one draw per trial, and yields the successes in the count's unit |
| PrimitiveLaws.BinomExamples | test/de/set/aie/base/BinomRandomVariableTest.java:38-60 | 99 trials give 0 with probability 0 and 99 with probability 1 |
| PrimitiveLaws.CondValueObserve | src/de/set/aie/base/ConditionalValue.java:38-42 | a conditional value makes one draw and yields the first quantity exactly when the draw is below the probability |
| PersistenceLaws.PersistentRepeat | src/de/set/aie/base/PersistentRandomVariable.java:35-37 | a name already holding a value yields it without drawing and without changing the run |
| PersistenceLaws.PersistentFirst | src/de/set/aie/base/PersistentRandomVariable.java:31-34 | the first observation is the base's, with its draws, and stores the value under the name |
| PersistenceLaws.PersistentBaseFails | src/de/set/aie/base/PersistentRandomVariable.java:38-40 | a failing base is reported as a problem with the named variable |
| PersistenceLaws.PersistentSelfReference | src/de/set/aie/base/SimulationRun.java:31-34 | a base that itself stores the name makes the second store fail, reported for the named variable |
| PersistenceLaws.PersistentRecords | src/de/set/aie/base/PersistentRandomVariable.java:28-41 | after any successful observation the run holds the observed value under the name |
| PersistenceLaws.PersistentStable | src/de/set/aie/base/PersistentRandomVariable.java:28-41 | once observed, the variable yields the same value in every later state of the run, without drawing |
| PersistenceLaws.PersistentTwiceInSum | src/de/set/aie/base/RandomVariableSum.java:29-30 | a persistent variable added to itself counts one observation twice |
| Evaluator.ObserveDealsYear | src/de/set/aie/base/DealsOverTimeSeries.java:66-72 | observing a year of accrued deals only moves the source forward and only adds persisted values |
| Evaluator.FillYears | src/de/set/aie/base/DealsOverTimeSeries.java:74-97 | simulating the years up to the variable's own only moves the source forward and only adds persisted values |
| Evaluator.FillYear | src/de/set/aie/base/DealsOverTimeSeries.java:82-95 | one year's pass only moves the source forward and only adds persisted values |
| Evaluator.Deals | src/de/set/aie/base/DealsOverTimeSeries.java:84-93 | the deals of a year only move the source forward and only add persisted values |
| Evaluator.Deal | src/de/set/aie/base/DealsOverTimeSeries.java:85-92 | one deal only moves the source forward and only adds persisted values |
| Evaluator.AddMaintenance | src/de/set/aie/base/DealsOverTimeSeries.java:90-92 | adding maintenance to the following years never changes a persisted value |
| Evaluator.AddToYear | src/de/set/aie/base/DealsOverTimeSeries.java:99-101 | `addToYear` stores a running total as the year's object and leaves the persisted values alone |
| Evaluator.YearTotal | src/de/set/aie/base/DealsOverTimeSeries.java:103-106 | `getForYear` is the stored running total, or else zero in the series' unit, which fails only when that unit does |
| CombinatorLaws.BinaryLeftFailure | src/de/set/aie/base/RandomVariableSum.java:29-30 | a sum, difference, product or quotient fails when its left operand fails |
| CombinatorLaws.SumSucceeds | src/de/set/aie/base/RandomVariableSum.java:29-30 | a sum observes the right operand from where the left stopped and succeeds exactly when that succeeds in the left one's unit |
| CombinatorLaws.SumValue | src/de/set/aie/base/RandomVariableSum.java:29-30 | a successful sum adds the numbers, keeps the unit, and continues where the right operand stopped |
| CombinatorLaws.DifferenceSucceeds | src/de/set/aie/base/RandomVariable.java:42-44 | a difference succeeds exactly when the sum of the same operands would |
| CombinatorLaws.DifferenceValue | src/de/set/aie/base/RandomVariable.java:42-44 | a successful difference subtracts the numbers |
| CombinatorLaws.ProductSucceeds | src/de/set/aie/base/RandomVariableProduct.java:29-30 | a product never fails on units: once the left operand succeeds it fails only when the right one does |
| CombinatorLaws.ProductValue | src/de/set/aie/base/RandomVariableProduct.java:29-35 | a successful product multiplies the numbers and composes the units |
| CombinatorLaws.QuotientSucceeds | src/de/set/aie/base/RandomVariable.java:66-68 | a quotient fails on a zero divisor and otherwise only when an operand fails |
| CombinatorLaws.ConditionalNever | src/de/set/aie/base/ConditionalDistribution.java:37-41 | with a probability of at most 0 a conditional always yields the second branch, observed after the uniform draw and the probability |
| CombinatorLaws.ConditionalAlways | src/de/set/aie/base/ConditionalDistribution.java:37-41 | with a probability of at least 1 a conditional always yields the first branch |
| CombinatorLaws.UncertainPicks | src/de/set/aie/base/UncertainDistributionVariable.java:29-31 | an index observing the whole number `k` in range yields the `k`-th candidate's observation, from where the index stopped |
| CombinatorLaws.UncertainOutOfRange | src/de/set/aie/base/UncertainDistributionVariable.java:29-31 | an index rounding outside the candidates fails |
| CombinatorLaws.Multiple | src/de/set/aie/base/RandomVariableSumOfN.java:34-37 | `n` copies of `x` added up are zero for no copies and grow by `x` per copy |
| CombinatorLaws.MultipleIsProduct | src/de/set/aie/base/RandomVariableSumOfN.java:34-37 | repeated addition is multiplication |
| CombinatorLaws.SumTermsFixed | src/de/set/aie/base/RandomVariableSumOfN.java:34-37 | summing `n` observations of a fixed quantity adds `n` times its number, without drawing |
| CombinatorLaws.SumOfNObserve | src/de/set/aie/base/RandomVariableSumOfN.java:31-38 | a sum of `n` terms observes the count, rounds it, and yields the scalar sum of that many terms in the count's unit times the term's unit |
| CombinatorLaws.SumOfNFixed | src/de/set/aie/base/RandomVariableSumOfN.java:31-43 | with a fixed count and term the result is max(n, 0) times the term's number, in the composed unit, without drawing |
| CombinatorLaws.RangeBoundWithin | src/de/set/aie/base/RangeBoundRandomVariable.java:31-39 | with lower <= upper the bounded value lies in [lower, upper] and keeps the base's unit |
| CombinatorLaws.NonNegativeObserve | src/de/set/aie/base/RandomVariable.java:74-76 | `nonNegative()` never yields a negative number |
| CombinatorLaws.NonNegativeKeeps | src/de/set/aie/base/RandomVariable.java:74-76 | `nonNegative()` keeps every non-negative observation of its base |
| CombinatorLaws.ObservedUnit | src/de/set/aie/base/RandomVariable.java:25-45 | a variable whose constructor assertions hold observes a quantity in exactly the unit `getUnit` reports, and keeps every persisted value in its declared unit |
| CombinatorLaws.ConditionalUnit | src/de/set/aie/base/ConditionalDistribution.java:28-47 | a conditional yields its declared unit whichever branch is taken |
| CombinatorLaws.UncertainUnit | src/de/set/aie/base/UncertainDistributionVariable.java:29-36 | an uncertain variable yields the unit of its first candidate whichever candidate is picked |
| CombinatorLaws.BinaryUnit | src/de/set/aie/base/RandomVariableProduct.java:29-35 | the four arithmetic combinators yield their declared units |
| CombinatorLaws.SumOfNUnit | src/de/set/aie/base/RandomVariableSumOfN.java:31-43 | a sum of `n` terms yields its declared unit and keeps the run's values in their units |
| CombinatorLaws.TermsAgree | src/de/set/aie/base/RandomVariableSumOfN.java:34-37 | the loop over the terms keeps every persisted value in its declared unit |
| CombinatorLaws.PersistentUnit | src/de/set/aie/base/PersistentRandomVariable.java:28-46 | a persistent variable yields the unit of its name, whether it reads the stored value or observes and stores its base's |
| CombinatorLaws.WellFormedSumChecksPass | src/de/set/aie/base/Quantity.java:38-43 | a sum whose operands declare the same unit never fails the unit check of `plus` |
| Models.Empty | src/de/set/aie/base/Model.java:100-101 | a new model registers nothing and its registration order is consistent |
| Models.Instantiate | src/de/set/aie/base/Model.java:141-143 | a new instance holds no variable and no object |
| Models.AddRaw | src/de/set/aie/base/Model.java:111-116 | registration succeeds exactly when the id is new, stores the producer under it, keeps every other registration and appends the id to the order; a repeated id fails with "already contained" |
| Models.Add | src/de/set/aie/base/Model.java:118-120 | `add` registers the producer wrapped by `ensurePersistent` under the same id |
| Models.AddAllRaw | src/de/set/aie/base/Model.java:122-126 | registering a factory's entries registers every entry and keeps every earlier registration |
| Models.AddAll | src/de/set/aie/base/Model.java:128-132 | `add` of a factory registers every entry wrapped for persistence and keeps every earlier registration |
| Models.AddObject | src/de/set/aie/base/Model.java:134-139 | an object name is registered exactly when it is new; the variables are left alone |
| Models.Get | src/de/set/aie/base/Model.java:39-50 | `get` returns a held variable unchanged; an id without definition fails with "no definition"; otherwise the produced variable is remembered under the id, and resolving only adds variables and leaves the objects alone |
| Models.Produce | src/de/set/aie/base/Model.java:44-49 | applying a producer only adds variables to the instance |
| Models.Build | src/de/set/aie/base/Model.java:111-120 | a producer lambda fetches its ids through `get` in argument order and combines them; afterwards every id it fetched is remembered and nothing else was replaced |
| Models.GetFor | src/de/set/aie/base/TimeSeries.java:93 | `getFor(time).apply(inst)` of every kind of series only adds variables to the instance |
| Models.GetForComposite | src/de/set/aie/base/CombinedTimeSeries.java:22-27 | the series built from other series only add variables to the instance |
| Models.GetRange | src/de/set/aie/base/TimeSeries.java:24-30 | the series' variables over a period, one per time, resolved in order |
| Models.Collapse | src/de/set/aie/base/TimeSeries.java:22-23 | `collapse` requires `fromTime <= toTime` |
| Models.GetObject | src/de/set/aie/base/Model.java:52-63 | `getObject` returns a held object unchanged, fails for an unregistered name, otherwise remembers the registered object; the variables are left alone |
| ModelLaws.GetStable | src/de/set/aie/base/Model.java:39-43 | once resolved, an id answers with the same variable on every grown instance, changing nothing |
| ModelLaws.GetStoresProduced | src/de/set/aie/base/Model.java:44-49 | resolving an unresolved id runs its producer once and remembers what it produced |
| ModelLaws.AddedIsPersistent | src/de/set/aie/base/Model.java:118-120 | an id registered with `add` always resolves to a persistent variable of that name |
| ModelLaws.UndefinedFails | src/de/set/aie/base/Model.java:44-47 | resolving an unregistered id in a new instance fails with "no definition" |
| ModelLaws.SelfReferenceFails | src/de/set/aie/base/Model.java:44-49 | an id whose producer needs the id itself fails rather than recursing |
| ModelLaws.BuildMemo | src/de/set/aie/base/Model.java:39-48 | a lambda whose ids are all resolved consults no definition: it gives the same variable under any model and leaves the instance unchanged |
| ModelLaws.ConditionalLambda | src/de/set/aie/models/TestModel.java:46-49 | the demonstration model's `play` lambda resolves to a conditional on `p` between fixed 12 EUR and -12 EUR, remembering `p` and `play` |
| ModelLaws.AddAllRawSucceeds | src/de/set/aie/base/Model.java:122-126 | registering a factory's entries succeeds exactly when their ids are pairwise distinct and none is registered yet |
| SeriesLaws.ConcreteWithin | src/de/set/aie/base/ConcreteTimeSeries.java:42-44 | inside the list, time `t` resolves the `t`-th id |
| SeriesLaws.ConcreteBeyond | src/de/set/aie/base/ConcreteTimeSeries.java:31-41 | beyond the list NONE fails and LAST resolves the last id; a negative time fails |
| SeriesLaws.DelayedPads | src/de/set/aie/base/DelayedTimeSeries.java:19-21 | before the delay the series is a fixed zero in the unit of the base at time 0 |
| SeriesLaws.DelayedShifts | src/de/set/aie/base/DelayedTimeSeries.java:22-24 | from the delay on, the delayed series at `t + delay` is the base at `t` |
| SeriesLaws.DelayZero | src/de/set/aie/base/DelayedTimeSeries.java:18-25 | a delay of zero changes nothing at any time from 0 on |
| SeriesLaws.DifferentialStart | src/de/set/aie/base/DifferentialTimeSeries.java:18-20 | at time 0 the slope is the base at 0 times a scalar zero, in the base's unit |
| SeriesLaws.TimesZeroObservesZero | src/de/set/aie/base/DifferentialTimeSeries.java:18-20 | that slope observes to zero in the base's unit |
| SeriesLaws.DifferentialStep | src/de/set/aie/base/DifferentialTimeSeries.java:21-25 | after time 0 the slope is the base at `t` minus the base at `t - 1`, resolved in that order |
| SeriesLaws.GrowIsPower | src/de/set/aie/base/ExponentialGrowthSeries.java:20-24 | growing `t` times by a rate multiplies by the rate's `t`-th power |
| SeriesLaws.ExpGrowthChain | src/de/set/aie/base/ExponentialGrowthSeries.java:18-25 | once base and rate are resolved, time `t` resolves to base times `t` factors of the rate, multiplied from the left, and the instance stays as it is |
| SeriesLaws.ExpGrowthNegative | src/de/set/aie/base/ExponentialGrowthSeries.java:19 | a negative time fails the assertion |
| SeriesLaws.SettledObserve | src/de/set/aie/base/PersistentRandomVariable.java:35-37 | a fixed variable, or a persistent one holding a value, observes to it without drawing |
| SeriesLaws.ProductSettled | src/de/set/aie/base/RandomVariableProduct.java:29-30 | a product with a settled factor draws nothing more than its left operand |
| SeriesLaws.TimesByScalar | src/de/set/aie/base/Quantity.java:52-54 | times a scalar multiplies the number and keeps the unit |
| SeriesLaws.ChainObserve | src/de/set/aie/base/ExponentialGrowthSeries.java:18-25 | with base and scalar rate settled, time `t` observes to base times rate to the `t`, in the base's unit, without drawing, so the same run observes it again to the same value |
| SeriesLaws.ExpGrowthFirstRun | test/de/set/aie/base/ExponentialGrowthSeriesTest.java:46-49 | with base 10 and rate 2 times 1, 2 and 3 observe 20, 40 and 80 |
| SeriesLaws.ExpGrowthSecondRun | test/de/set/aie/base/ExponentialGrowthSeriesTest.java:50-53 | with base 6 and rate 3 times 1, 2 and 3 observe 18, 54 and 162 |
| SeriesLaws.LinearGrowthResolves | src/de/set/aie/base/LinearGrowthSeries.java:18-20 | once base and growth are resolved, time `t` is base plus growth times `t` and the instance stays as it is |
| SeriesLaws.ScaledSettled | src/de/set/aie/base/RandomVariable.java:54-56 | a settled variable times a number draws nothing and scales the number |
| SeriesLaws.SumMismatch | src/de/set/aie/base/Quantity.java:38-43 | a sum of quantities in different units fails, naming both units |
| SeriesLaws.LinearObserve | src/de/set/aie/base/LinearGrowthSeries.java:18-20 | with base and growth settled, time `t` observes to base plus growth times `t`, and fails exactly when their units differ |
| SeriesLaws.LinearAtZero | src/de/set/aie/base/LinearGrowthSeries.java:18-20 | at time 0 the linear series observes to its base |
| Models.Combine | src/de/set/aie/base/TimeSeries.java:36-65 | the point-wise combiner of series: `plus` observes to the sum under the unit check (SeriesLaws.CombinedPlusObserve) and a combined series combines its parts at each time (SeriesLaws.CombinedPointwise) |
| SeriesLaws.CombinedPointwise | src/de/set/aie/base/CombinedTimeSeries.java:22-27 | a combined series at `t` combines the first series at `t`, on the left, with the second at `t`, resolved in that order |
| SeriesLaws.CombinedPlusObserve | src/de/set/aie/base/TimeSeries.java:36-38 | `plus` on series observes to the point-wise sum under the unit check |
| SeriesLaws.TransformedSharesVariable | src/de/set/aie/base/TransformedTimeSeriesVar.java:23-28 | the named operand is the same remembered variable at every time |
| SeriesLaws.ConditionalSharesProbability | src/de/set/aie/base/ConditionalTimeSeries.java:21-30 | the probability of a conditional series is the same remembered variable at every time |
| SeriesLaws.CondSeriesResolves | src/de/set/aie/base/ConditionalTimeSeries.java:24-29 | a conditional series conditions on the variable the instance holds under the probability's id |
| SeriesLaws.ConditionalPersistedCertain | src/de/set/aie/base/ConditionalTimeSeries.java:22-23 | a persisted probability of 0 or 1 takes the same side at every time and source position |
| SeriesLaws.ConditionalPersistedMixes | src/de/set/aie/base/ConditionalTimeSeries.java:22-23 | a persisted probability of 0.5 can mix the two series: series (1, 2) and (100, 200) collapse to 201 over times 0 and 1 |
| SeriesLaws.CollapseSingle | src/de/set/aie/base/TimeSeries.java:22-31 | `collapse(t, t)` is `getFor(t)`, failures included |
| Models.SumAll | src/de/set/aie/base/TimeSeries.java:24-30 | the left fold of `plus` in `collapse`: for settled values in one unit it observes to their sum (SeriesLaws.SumAllObserve) |
| SeriesLaws.SumAllObserve | src/de/set/aie/base/TimeSeries.java:24-30 | the collapse of settled values in one unit observes to the sum of their numbers without drawing |
| DealsLaws.Trials | src/de/set/aie/base/DealsOverTimeSeries.java:82-84 | a whole, non-negative deal count within the long range is used as it is |
| DealsLaws.AccruedSettles | src/de/set/aie/base/DealsOverTimeSeries.java:94-95 | deals closed after a year add nothing to it, so a year's total is final once the year itself is simulated |
| DealsLaws.AccruedBeforeStart | src/de/set/aie/base/DealsOverTimeSeries.java:76 | no deal is closed before year 0, so negative years accrue nothing |
| DealsLaws.ExampleTotals | test/de/set/aie/base/DealsOverTimeSeriesTest.java:37-55 | counts 0, 1, 2, 0, 1, 1, size 100, factor 0.11 and duration 2 give the totals 0, 100, 211, 33, 122, 111 |
| DealsLaws.FreshIsUnfilled | src/de/set/aie/base/SimulationRun.java:22-25 | a new run holds nothing for any series: no year is simulated yet |
| DealsLaws.InputsExtend | src/de/set/aie/base/PersistentRandomVariable.java:35-37 | inputs already persisted stay persisted as the run grows |
| DealsLaws.AddToYearIs | src/de/set/aie/base/DealsOverTimeSeries.java:99-106 | `addToYear` adds to the running total, zero in the series' unit when there is none |
| DealsLaws.AddMaintenanceIs | src/de/set/aie/base/DealsOverTimeSeries.java:90-92 | the maintenance loop adds to each of the following years in turn |
| DealsLaws.AddToAdds | src/de/set/aie/base/DealsOverTimeSeries.java:99-101 | `addToYear` adds to that year's running total and to no other |
| DealsLaws.AddForAdds | src/de/set/aie/base/DealsOverTimeSeries.java:90-92 | the maintenance loop adds the maintenance to each year from `time + 1` to `time + duration` and to no other |
| DealsLaws.ShareSplit | src/de/set/aie/base/DealsOverTimeSeries.java:84-93 | the share of `n` deals is one deal's share plus that of the other `n - 1` |
| DealsLaws.AddShares | src/de/set/aie/base/DealsOverTimeSeries.java:84-93 | one deal's share followed by `n - 1` deals' shares is the share of `n` deals |
| DealsLaws.OneDealAdds | src/de/set/aie/base/DealsOverTimeSeries.java:85-92 | one deal adds its size to its own year and its maintenance to each of the `duration` years after |
| DealsLaws.DealStep | src/de/set/aie/base/DealsOverTimeSeries.java:85-92 | with persisted inputs a deal draws nothing and does exactly that bookkeeping |
| DealsLaws.AddForKeepsValues | src/de/set/aie/base/DealsOverTimeSeries.java:90-92 | the maintenance loop touches the running totals only, never a persisted value |
| DealsLaws.DealsUnfold | src/de/set/aie/base/DealsOverTimeSeries.java:84 | a deal that draws nothing hands its run on to the remaining deals |
| DealsLaws.BookAdds | src/de/set/aie/base/DealsOverTimeSeries.java:84-93 | the `n` deals of a year persist nothing and add `n` sizes to the year and `n` maintenances to each of the following `duration` years |
| DealsLaws.DealsFollowBook | src/de/set/aie/base/DealsOverTimeSeries.java:84-93 | with persisted inputs, the deals of a year draw nothing and leave the run exactly as that bookkeeping does |
| DealsLaws.DealsHead | src/de/set/aie/base/DealsOverTimeSeries.java:84-93 | the first deal is the first step of the bookkeeping and leaves the inputs persisted |
| DealsLaws.YearTotalIs | src/de/set/aie/base/DealsOverTimeSeries.java:103-106 | `getForYear` reads the running total, zero when there is none |
| DealsLaws.FilledIsOpen | src/de/set/aie/base/DealsOverTimeSeries.java:78-81 | no year from the first unsimulated one on holds a value |
| DealsLaws.YearFilled | src/de/set/aie/base/DealsOverTimeSeries.java:94-95 | persisting a year's total once its deals are in leaves the run simulated up to and including that year |
| DealsLaws.FillStep | src/de/set/aie/base/DealsOverTimeSeries.java:82-95 | with persisted inputs, simulating the first unsimulated year draws nothing and persists the year's final total |
| DealsLaws.FillYearsStep | src/de/set/aie/base/DealsOverTimeSeries.java:76-96 | a simulated year hands its run on to the following years |
| DealsLaws.FillFrom | src/de/set/aie/base/DealsOverTimeSeries.java:74-97 | from the first unsimulated year on, the year loop simulates every year up to the variable's own and draws nothing |
| DealsLaws.FillSkip | src/de/set/aie/base/DealsOverTimeSeries.java:78-81 | years that already hold a value are skipped |
| DealsLaws.ObserveYear | src/de/set/aie/base/DealsOverTimeSeries.java:66-72 | whichever years were simulated before, observing a year yields its final total in the series' unit, draws nothing, and leaves the run simulated at least up to that year |
| Distributions.MakeBetween | src/de/set/aie/base/Distributions.java:64-68 | an interval is made exactly when lower <= upper, and keeps both ends |
| Distributions.MakeSingleMode | src/de/set/aie/base/Distributions.java:76-82 | a three-point estimate is made exactly when lower <= mode <= upper |
| Distributions.Normal | src/de/set/aie/base/Distributions.java:93-98 | `normal` succeeds exactly when lower95 < upper95, and then its mean minus and plus 1.645 standard deviations are exactly the two bounds, with a positive deviation |
| Distributions.LogNormal | src/de/set/aie/base/Distributions.java:100-108 | `logNormal` succeeds exactly when 0 <= lower95 < upper95, and then its log-mean minus and plus 1.645 log-deviations are the logarithms of the bounds, 0 standing for a lower bound of 0 |
| Distributions.BinomOf | src/de/set/aie/base/Distributions.java:110-112 | `binom(count, prop, unit)` succeeds exactly when the probability is scalar, and has the given unit |
| Distributions.Create | src/de/set/aie/base/Distributions.java:24-57 | every standard distribution is made in the given unit; normal and log-normal under their own checks, the others always, the block one over the range itself |
| Distributions.ExtrapolateFromSample | src/de/set/aie/base/Distributions.java:220-231 | succeeds exactly when 0 <= positives <= sample size <= population size; the beta-binomial then has the unseen part of the population as trials, parameters 1 + positives and 1 + negatives summing to sample size + 2, and shifts by the positives |
| UnknownDists.MakeFactory | src/de/set/aie/base/UnknownDistFactory.java:37-52 | the factory is made exactly when there is at least one distribution and one range |
| UnknownDists.Unknown | src/de/set/aie/base/Distributions.java:176-199 | `unknown(absoluteMin, lower, upper, absoluteMax, unit)` succeeds exactly when absoluteMin <= lower < upper <= absoluteMax, with every standard distribution over the single range |
| UnknownDists.ForDist | src/de/set/aie/base/UnknownDistFactory.java:58-60 | one candidate per range, each the distribution made over that range |
| UnknownDists.Candidates | src/de/set/aie/base/UnknownDistFactory.java:56-61 | one candidate per pair of distribution and range |
| UnknownDists.CandidateAt | src/de/set/aie/base/UnknownDistFactory.java:57-61 | the candidate of distribution `i` and range `j` sits at index `i * ranges + j` |
| UnknownDists.CandidatesSucceed | src/de/set/aie/base/UnknownDistFactory.java:56-61 | the candidates exist exactly when every distribution accepts every range |
| UnknownDists.Indices | src/de/set/aie/base/UnknownDistFactory.java:62-65 | the index values are 0, 1, ..., n - 1 |
| UnknownDists.DistId | src/de/set/aie/base/UnknownDistFactory.java:67 | the index variable's id is the base name followed by `_dist` |
| UnknownDists.CreateEntries | src/de/set/aie/base/UnknownDistFactory.java:54-75 | `create` registers the scalar empirical index variable under `_dist` and then the main variable, which resolves the index through the instance, picks among all candidates and is bounded to the absolute limits |
| UnknownDists.PickIsValid | src/de/set/aie/base/UnknownDistFactory.java:67-72 | the index's draw always names a valid candidate, which is then observed |
| UnknownDists.MainWithinLimits | src/de/set/aie/base/UnknownDistFactory.java:69-73 | the main variable fails exactly when the picked candidate does, and otherwise lies within the absolute limits |
| UnknownDists.FirstPickPersists | src/de/set/aie/base/UnknownDistFactory.java:67-72 | the first observation in a run draws the pick, persists it under `_dist` and observes that candidate |
| UnknownDists.LaterPicksRepeat | src/de/set/aie/base/UnknownDistFactory.java:67-72 | once the pick is in the run, later observations in that run use the same candidate without a new draw |
| Analysis.Batches | src/de/set/aie/base/Model.java:75-77 | the batches of 100 rows: they partition rows 0 to n - 1 (Analysis.BatchesPartition) |
| Analysis.BatchesPartition | src/de/set/aie/base/Model.java:75-77 | the batches of `n` rows cover exactly rows 0 to n - 1, each row once: batch `i` starts at row `100 * i` and holds `min(100, n - 100 * i)` rows |
| Analysis.Row | src/de/set/aie/base/Model.java:82-87 | one row holds one number per value variable, all drawn in the same simulation run |
| Analysis.DrawRows | src/de/set/aie/base/Model.java:80-89 | one batch task: every row it draws has one number per value variable, observed in a fresh run (Analysis.BatchRows) |
| Analysis.BatchRows | src/de/set/aie/base/Model.java:81-88 | a batch holds the rows asked for, each with one number per value variable |
| Analysis.AllRows | src/de/set/aie/base/Model.java:75-95 | the rows of all batches have one number per value variable; a failing batch fails the whole |
| Analysis.AllRowsPlacement | src/de/set/aie/base/Model.java:75-91 | row `j` is row `j % 100` of the batch drawn from the child source the parent spawns for batch `j / 100` |
| Analysis.RowSharesPersistent | src/de/set/aie/base/Model.java:82-87 | within a row a persistent variable listed twice is drawn once and both places hold the same number |
| Analysis.RowKeeps | src/de/set/aie/base/Model.java:82-87 | once a run holds a persistent variable's value, every later place of it in the row reads that value |
| Analysis.RunGrows | src/de/set/aie/base/SimulationRun.java:31-34 | observing never drops or changes a value the run holds |
| Analysis.Lookup | src/de/set/aie/base/Model.java:68-71 | the map has a column for an id exactly when the id is among its keys |
| Analysis.Put | src/de/set/aie/base/Model.java:68-71 | `LinkedHashMap.put`: replaces the id's column in place or appends it, leaving other ids alone (Analysis.PutLaws, Analysis.PutKeys) |
| Analysis.PutLaws | src/de/set/aie/base/Model.java:68-71 | after `put` the id maps to the new column, every other id keeps its column, and no key appears twice |
| Analysis.PutKeys | src/de/set/aie/base/Model.java:68-71 | `put` adds the id to the keys and nothing else |
| Analysis.Column | src/de/set/aie/base/Model.java:85-86 | a column holds one number per row |
| Analysis.LastIndex | src/de/set/aie/base/Model.java:69-71 | the last place of an id among the value variables, after which the id does not occur again |
| Analysis.Columns | src/de/set/aie/base/Model.java:68-71 | the sample table: one column per id, keyed once each (Analysis.ColumnsLaws), number `j` of a column from batch `j / 100` (Analysis.ColumnsOfBatches) |
| Analysis.ColumnsLaws | src/de/set/aie/base/Model.java:68-71 | the table has exactly the ids as keys, each once, and an id listed twice holds the column of its last place |
| Analysis.ResolveAll | src/de/set/aie/base/Model.java:83-84 | resolving the ids gives one variable per id, remembered under it, and only adds to the instance |
| Analysis.ResolvingRow | src/de/set/aie/base/Model.java:81-87 | one row with `get` just before each `observe`: the same row as resolving first (Analysis.ResolvingRowAgrees) |
| Analysis.ResolvingRowAgrees | src/de/set/aie/base/Model.java:81-87 | fetching each id just before observing it draws the same row as resolving first, and fails whenever some id does not resolve |
| Analysis.ColumnsOfBatches | src/de/set/aie/base/Model.java:65-96 | number `j` of an id's column is that id's number in row `j % 100` of batch `j / 100` |
| Analysis.CreateSamples | src/de/set/aie/base/Model.java:65-96 | `createSamples` only adds variables to the instance |
| Analysis.CreateSamplesShape | src/de/set/aie/base/Model.java:65-96 | `createSamples` returns exactly the ids as keys, each once, each with `n` numbers |
| Analysis.BestChoice | src/de/set/aie/base/Model.java:264-275 | `determineBestChoice`: the first id with the greatest mean, or none (Analysis.BestIsFirstMaximum, Analysis.BestIndex) |
| Analysis.BestIndex | src/de/set/aie/base/Model.java:264-275 | the best index, when there is one, is a column with a mean |
| Analysis.BestIsFirstMaximum | src/de/set/aie/base/Model.java:264-275 | there is a best choice exactly when some column has a mean; its mean is at least every other and strictly above those before it, so that of equal means the first wins |
| Analysis.Minus | src/de/set/aie/base/Model.java:255-262 | `minus` succeeds exactly when the columns have equal length, and then holds the number-by-number differences |
| Analysis.MinusSum | src/de/set/aie/base/Model.java:255-262 | the sum of the differences is the difference of the sums |
| Analysis.MinusMean | src/de/set/aie/base/Model.java:242-243 | the mean of the loss is the difference of the means |
| Analysis.LossOf | src/de/set/aie/base/Model.java:241-242 | the loss against the best choice with information: never summing below zero on reals (Analysis.LossNonNegative) |
| Analysis.LossNonNegative | src/de/set/aie/base/Model.java:241-243 | the loss against the best choice with information never sums, or averages, below zero |
| Analysis.SampleValue | src/de/set/aie/base/Model.java:284-286 | `sampleValue`: one observation in a fresh instance and run, which the reduced instance then fixes (Analysis.ReducedGet) |
| Analysis.Reduce | src/de/set/aie/base/Model.java:277-282 | `createReducedInstance`: a fresh instance whose reduced variable resolves to that fixed sample (Analysis.ReducedGet) |
| Analysis.ReducedGet | src/de/set/aie/base/Model.java:277-286 | in the reduced instance the variable resolves to the fixed sample without consulting its definition and observes to it without drawing; nothing else is resolved yet |
| Analysis.Pass | src/de/set/aie/base/Model.java:236-238 | one pass visits each variable ten times, with seed `seed + i + 100 * j` for repeat `i` |
| Analysis.Schedule | src/de/set/aie/base/Model.java:235-245 | the passes visit the variables in order, ten repeats each, pass after pass |
| Analysis.LossStepNonNegative | src/de/set/aie/base/Model.java:239-243 | the mean loss of one step has a non-negative sum and count |
| Analysis.StepOf | src/de/set/aie/base/Model.java:239-243 | every step of the loop yields a non-negative mean loss |
| Analysis.Accumulate | src/de/set/aie/base/Model.java:235-245 | the loop keeps one running mean per variable of the model |
| Analysis.AccumulateNonNegative | src/de/set/aie/base/Model.java:243 | adding non-negative means keeps every running mean non-negative |
| Analysis.Prepare | src/de/set/aie/base/Model.java:203-227 | the set-up of `analyze`: original samples with units in id order (Analysis.WithUnits), the overview of the other variables (Analysis.Overview) and the best choice (Analysis.BestIsFirstMaximum) |
| Analysis.WithUnits | src/de/set/aie/base/Model.java:206-209 | the samples with units keep the table's ids in order |
| Analysis.Overview | src/de/set/aie/base/Model.java:214-221 | after the overview every variable that is not a value variable is resolved and has a unit, and the instance only grew |
| Analysis.AnalyzeFully | src/de/set/aie/base/Model.java:235-252 | after all 10,000 passes every variable has a mean loss, none negative |
| Analysis.Analyze | src/de/set/aie/base/Model.java:200-253 | `analyze` gives every variable of the model a mean loss, and on reals none is negative: information never lowers the expected value (in Java only up to rounding) |
| Analysis.Start | src/de/set/aie/base/Model.java:230-233 | the loop starts with an undefined mean for every variable of the model |
| Analysis.AccumulatedMeans | src/de/set/aie/base/Model.java:243 | every accumulated mean, when defined, is at least zero |

## Left out

- Java `double` is modelled as the exact `real` throughout: no rounding, no overflow to ±Infinity, no NaN and no −0.0. The identities below hold on reals; in Java they hold only up to rounding.
- Samples.MeanAgreesWithSample: on reals `sample(seed, n).mean()` equals `mean(seed, n).get()`. In Java the sample's sum runs over the sorted numbers and `mean`'s over the drawn order, so the two can differ in the last bits.
- Samples.MeanOfObservations: the mean of the sorted numbers equals the mean as drawn on reals only. Floating-point addition is not associative, so sorting can change the rounded sum.
- Means.SumPermutation: the sum is order-independent on reals only. In Java, `1e16 + 1.0 - 1e16` and `1e16 - 1e16 + 1.0` round to different results.
- Means.OfConcat: `Mean.of(a ++ b)` equals `Mean.of(a).add(Mean.of(b))` on reals. In Java the two sums are grouped differently and can round differently.
- Means.AddLaws: `add` is commutative and associative on reals. In Java the sums are commutative but not associative.
- Means.Get: the mean is the exact quotient `sum / count`, and an empty mean is a modelled failure. Java divides in floating point and gives NaN for `0.0 / 0`.
- Quantities.DivTimesRoundTrip, Quantities.TimesDivRoundTrip and Quantities.PlusMinusRoundTrip: the round trips hold exactly on reals. In Java `(x / y) * y`, `(x * y) / y` and `(x + y) - y` return `x` only up to rounding, and not at all once an intermediate overflows to infinity.
- CombinatorLaws.MultipleIsProduct: adding `x` to itself `n` times equals `n * x` on reals. The `sum +=` loop of `RandomVariableSumOfN` rounds at every step, so in Java the repeated sum can differ from the product.
- CombinatorLaws.SumOfNFixed: the sum of `n` equal draws is `n` times the value on reals. Java adds the draws one by one, and the rounded sum can differ from the product.
- Distributions.Normal and Distributions.LogNormal: the mean and deviation derived from the 90% interval are exact on reals, so mean ∓ 1.645 deviations gives back the bounds exactly. Java computes `(upper95 - lower95) / 1.645 / 2.0` in `double`, and `logNormal` also rounds in `Math.log`, so there the bounds come back only up to rounding.
- Analysis.MinusSum and Analysis.MinusMean: the element-wise difference sums, and averages, to the difference of the sums on reals only.
- Analysis.LossNonNegative: the loss never sums below zero on reals. In Java a loss can: for the best column with information b = [1e16, 2.5, 0.0] against a = [1e16, 3.0, −1.0], b's rounded mean is the larger, yet the rounded loss sums to −0.5.
- Analysis.LossStepNonNegative and Analysis.StepOf: one step's mean loss is non-negative on reals, with the same rounding caveat as Analysis.LossNonNegative.
- Analysis.AccumulatedMeans: the accumulated mean losses are exact sums of reals. Java accumulates them in `double`, rounding at every `add`.
- Analysis.AnalyzeFully and Analysis.Analyze: the mean losses are non-negative on reals. Java computes them in `double`, so a rounded mean loss can fall just below zero.
- Quantities.Div: a zero divisor is the error `DivisionByZero`. Java's `Quantity.div` instead returns an infinite or NaN number, so a `Quotient` observation fails in the model wherever the program goes on with a non-finite value. IEEE special values are not modelled.
- Evaluator.ObserveDifference and Evaluator.ObserveQuotient: `RandomVariableDifference` and `RandomVariableQuotient` are not part of this model's sources. They are taken to mirror `RandomVariableSum` and `RandomVariableProduct`: the left operand, then the right one, combined through `Quantity.minus` and `Quantity.div`, with the left operand's unit and the quotient of the units respectively.
- JavaNumbers.Round: the deal loop calls `r.round`, which `RandomSource` does not declare. It is modelled as `Math.round`, which draws nothing. A `round` that draws, or that rounds non-integers differently, is not covered. Only whole numbers are guaranteed to be kept as they are.
- Models.Produce: a producer is one of six forms: a constant variable, a series at a time, a collapsed series, the main variable of an unknown distribution, the `add` wrapper, or a `Recipe`. A recipe is a lambda built from `i.get` and the combinators and factories: `plus`, `minus`, `times`, `div`, `sumOfN`, `bound`, `nonNegative`, `conditional` and `binom`. Any variable built without the instance enters a recipe as it is. Other lambda bodies are not expressible: loops, branches on values, other factories applied to fetched variables, and calls of `getObject`. The objects frame of `Models.Get` (resolving never changes the instance's objects) holds because no producer can call `getObject`.
- Models.GetObject: an object producer is taken to be a constant object. Java applies the registered function to the instance, and that function could resolve variables or throw. No caller of `addObject` or `getObject` exists in the repository's sources, so the frame "the variables are left alone" rests on this abstraction.
- Models.Get: an id whose production needs the id itself fails with `Cyclic`. Java recurses until a `StackOverflowError`. The visiting set makes resolution terminate.
- Strings.Le: symbols are ordered by Unicode scalar value. Java's `String.compareTo` orders by UTF-16 code unit. The two orders differ only for symbols with characters above U+FFFF.
- Strings.Hash: the hash runs over Unicode scalar values, where `String.hashCode` runs over UTF-16 code units. A string with a character above U+FFFF (a surrogate pair in Java) hashes differently, and so do `Units.HashCode` and `VarIds.HashCode` of such names.
- Java `assert` statements are modelled as checked failures, which assumes assertions are enabled (`-ea`, as the tests run). With assertions disabled, the constructors and factories accept what the model rejects.
- CombinatorLaws.ObservedUnit: accrued deals series (`DealsYear`) are outside `WellFormed`. They read running totals from the run's auxiliary objects, which have no declared unit. Their unit is covered by `DealsLaws.ObserveYear` instead.
- Concurrency in `createSamples` (`ForkJoinPool`, `Future.get`): the batches are drawn one after the other. The error of the first failing batch in batch order is the one reported, as waiting for the futures in order does. `ExecutionException` wrapping is not modelled.
- `new Random(seed)`: a seed names a stream of the oracle (`streamOf` in `Analysis.Analyze`). The generator behind `java.util.Random` and `RandomSource.wrap` is not modelled.
- The transcendental and floating-point samplers are oracle calls of the `External` variable, given only their parameters: normal, log-normal, shifted exponential and beta-binomial. The triangular distribution (which also ignores the supplied source) and the normal comb are not modelled.
- Analysis.Analyze: the console handler and the wall-clock progress output are not modelled. The overview (`Model.java` lines 214-221) is drawn and its units taken, so its failures fail the analysis, but its samples, sorted by name for the handler, are not returned. The type map (lines 224-227) is likewise not returned; its resolution of every variable is kept, since it can fail.
- `meanLosses.compute` and the instance caches run on concurrent maps. The race in which two threads produce the same id is not modelled: the model resolves each id once.
- Analysis.Pass: the loop counters are unbounded integers. The `int` overflow of `i += 100` in `createSamples`, at sample counts near 2^31, is not modelled.
- `TimeSeries.max` (`RandomVariable.max` is not part of this model), `TimeSeries.times(double)` (`TransformedTimeSeriesConst` is not part of this model), `shrinkAfter` (it calls an unseen `lessThan`) and `MakePersistentVariableFactory` (it calls an unseen `makePersistent`).
- `MultiVariableFactory.bound`: the interface declares it, but `UnknownDistFactory` does not implement it. The absolute limits given to `unknown` are modelled.
- SeriesLaws.ChainObserve: stated for a scalar growth rate settled in the run. A rate with a unit composes units at every step, and a rate that draws makes each factor a fresh draw. `SeriesLaws.ExpGrowthChain` states the expression tree for any rate.
- DealsLaws.ObserveYear: stated for inputs already persisted in the run (counts, size, factor and duration), as the repository's test arranges. With drawing inputs, the deals see fresh draws in an order that `Evaluator.Deal` models but that no closed form states.
- Analysis.ColumnsOfBatches: stated for any batch draw whose batches have the right shape. `Analysis.DrawRows` supplies the draw of the value variables.
- `RandomVariable.simulateTo`, `TimeSeries.printTable`, `Model.printDistributions`, and `Quantity.toString`/`Sample.toString` formatting: file output and locale-dependent text. `Samples.Summarize` keeps the statistics `Sample.toString` reads. `Quantity.hashCode` is not modelled.
- `SyntacticExpression` (its evaluation recurses without bound), `TestModel` (a demonstration `main`) and `StubRV` (a test stub, replaced by settled persistent values in the laws).

=== FILE: analysis.dfy ===
/**
 * The value-of-information analysis of a model: `createSamples`, which
 * draws the value variables in batches of a hundred rows; the choice with
 * the best mean; the loss of a choice against the best one; the instance
 * with one variable fixed to a sampled value; and `analyze`, which
 * accumulates the mean loss each variable's information avoids.
 */
module Analysis {

  import opened Wrappers
  import opened VarIds
  import opened Errors
  import opened Quantities
  import opened SimulationRuns
  import opened Variables
  import opened Evaluator
  import opened Models
  import Means
  import Samples

  // ---------------------------------------------------------------------
  // Batches
  // ---------------------------------------------------------------------

  function Min(a: int, b: int): int {
    if a <= b then a else b
  }

  /** The batches of `createSamples` from row `base` on, a hundred rows each: (first row, number of rows). */
  function BatchesFrom(base: nat, n: int): (bs: seq<(nat, nat)>)
    decreases n - base
  {
    if base >= n then []
    else [(base, Min(100, n - base) as nat)] + BatchesFrom(base + 100, n)
  }

  /** The batches of `n` rows: starting at 0, 100, 200, … with at most a hundred rows each. */
  function Batches(n: int): seq<(nat, nat)> {
    BatchesFrom(0, n)
  }

  /** Batch `b` fills row `j`. */
  predicate InBatch(b: (nat, nat), j: int) {
    b.0 <= j < b.0 + b.1
  }

  lemma {:induction false} BatchesFromShape(base: nat, n: int)
    ensures var bs := BatchesFrom(base, n);
      && |bs| == (if base >= n then 0 else (n - base + 99) / 100)
      && forall i :: 0 <= i < |bs| ==> bs[i] == (base + 100 * i, Min(100, n - base - 100 * i) as nat)
    decreases n - base
  {
    if base < n {
      BatchesFromShape(base + 100, n);
      var bs := BatchesFrom(base, n);
      var rest := BatchesFrom(base + 100, n);
      assert bs == [(base, Min(100, n - base) as nat)] + rest;
      forall i | 0 < i < |bs|
        ensures bs[i] == (base + 100 * i, Min(100, n - base - 100 * i) as nat)
      {
        assert bs[i] == rest[i - 1];
      }
    }
  }

  /**
   * The batches of `n` rows cover exactly the rows 0 to n - 1, each row in
   * one batch: row `j` lies in batch `j / 100`; batch `i` starts at row
   * `100 * i` and holds `min(100, n - 100 * i)` rows.
   */
  lemma BatchesPartition(n: int)
    ensures var bs := Batches(n);
      && |bs| == (if n <= 0 then 0 else (n + 99) / 100)
      && (forall i :: 0 <= i < |bs| ==> bs[i] == (100 * i, Min(100, n - 100 * i) as nat))
      && (forall j :: 0 <= j < n ==> j / 100 < |bs|)
      && (forall i, j :: 0 <= i < |bs| ==> (InBatch(bs[i], j) <==> 0 <= j < n && j / 100 == i))
  {
    BatchesFromShape(0, n);
    var bs := Batches(n);
    forall i, j | 0 <= i < |bs| ensures InBatch(bs[i], j) <==> 0 <= j < n && j / 100 == i {
      assert bs[i] == (100 * i, Min(100, n - 100 * i) as nat);
    }
  }

  // ---------------------------------------------------------------------
  // Drawing the rows
  // ---------------------------------------------------------------------

  /**
   * One row: each value variable observed in turn in the same simulation
   * run, so that variables sharing a persistent part see the same value.
   */
  function Row(vs: seq<RV>, o: Oracle, src: Source, run: Run): (r: Result<(seq<real>, Source), Error>)
    ensures r.Success? ==> |r.value.0| == |vs|
    decreases |vs|
  {
    if |vs| == 0 then Success(([], src))
    else
      var x :- Observe(vs[0], o, src, run);
      var rest :- Row(vs[1..], o, x.src, x.run);
      Success(([x.q.value] + rest.0, rest.1))
  }

  /** The rows of one batch, each in a fresh simulation run, drawn one after the other from the batch's source. */
  function BatchRows(vs: seq<RV>, o: Oracle, src: Source, count: nat): (r: Result<(seq<seq<real>>, Source), Error>)
    ensures r.Success? ==> |r.value.0| == count && forall j :: 0 <= j < count ==> |r.value.0[j]| == |vs|
    decreases count
  {
    if count == 0 then Success(([], src))
    else
      var d :- BatchRows(vs, o, src, count - 1);
      var x :- Row(vs, o, d.1, Fresh());
      Success((d.0 + [x.0], x.1))
  }

  /** The draw of one batch: its rows from the batch's source, given their number. */
  type BatchDraw = (Source, nat) -> Result<(seq<seq<real>>, Source), Error>

  /** Every batch the draw yields has the rows asked for, each of the width. */
  ghost predicate Shaped(draw: BatchDraw, width: nat) {
    forall s, c :: draw(s, c).Success? ==> |draw(s, c).value.0| == c && Rectangular(draw(s, c).value.0, width)
  }

  /** The batch draw of `createSamples`: the value variables' rows. */
  function DrawRows(vs: seq<RV>, o: Oracle): (d: BatchDraw)
    ensures Shaped(d, |vs|)
  {
    (s: Source, c: nat) => BatchRows(vs, o, s, c)
  }

  /**
   * The rows of all batches: every batch draws from a child source the
   * parent spawns, in batch order; a failing batch fails the whole, the
   * first failing batch in order deciding the error, as waiting for the
   * futures in order does.
   */
  function AllRows(draw: BatchDraw, width: nat, o: Oracle, parent: Source, bs: seq<(nat, nat)>): (r: Result<seq<seq<real>>, Error>)
    requires Shaped(draw, width)
    ensures r.Success? ==> Rectangular(r.value, width)
    decreases |bs|
  {
    if |bs| == 0 then Success([])
    else
      var (child, next) := SpawnChild(o, parent);
      var b :- draw(child, bs[0].1);
      var rest :- AllRows(draw, width, o, next, bs[1..]);
      Success(b.0 + rest)
  }

  /** The rows batch `j / 100` draws: from the child source the parent spawns at its `j / 100`-th draw. */
  function BatchOf(draw: BatchDraw, o: Oracle, stream: nat, n: int, j: nat): Result<(seq<seq<real>>, Source), Error>
    requires j < n
  {
    draw(Source(o.child(stream, j / 100), 0), Min(100, n - 100 * (j / 100)) as nat)
  }

  /** The rows from batch `k` on: those of batch `k`, drawn from the `k`-th child, then the rest. */
  lemma AllRowsStep(draw: BatchDraw, width: nat, o: Oracle, stream: nat, k: nat, n: int)
    requires Shaped(draw, width) && 100 * k < n
    requires AllRows(draw, width, o, Source(stream, k), BatchesFrom(100 * k, n)).Success?
    ensures var b := draw(Source(o.child(stream, k), 0), Min(100, n - 100 * k) as nat);
      var rest := AllRows(draw, width, o, Source(stream, k + 1), BatchesFrom(100 * (k + 1), n));
      && b.Success? && rest.Success?
      && AllRows(draw, width, o, Source(stream, k), BatchesFrom(100 * k, n)).value == b.value.0 + rest.value
  {
    var bs := BatchesFrom(100 * k, n);
    assert bs[0].1 == Min(100, n - 100 * k) as nat;
    assert bs[1..] == BatchesFrom(100 * (k + 1), n);
    assert SpawnChild(o, Source(stream, k)) == (Source(o.child(stream, k), 0), Source(stream, k + 1));
  }

  /** A row among the first hundred from row `100 * k` lies in batch `k`. */
  lemma BatchOfFirst(draw: BatchDraw, o: Oracle, stream: nat, n: int, k: nat, j: nat)
    requires 100 * k <= j < n && j < 100 * k + 100
    ensures BatchOf(draw, o, stream, n, j) == draw(Source(o.child(stream, k), 0), Min(100, n - 100 * k) as nat)
    ensures j % 100 == j - 100 * k
  {
    assert j / 100 == k;
  }

  /** The rows the batches from batch `k` on draw: as many as the batches hold. */
  lemma {:induction false} AllRowsLength(draw: BatchDraw, width: nat, o: Oracle, stream: nat, k: nat, n: int)
    requires Shaped(draw, width)
    requires AllRows(draw, width, o, Source(stream, k), BatchesFrom(100 * k, n)).Success?
    ensures |AllRows(draw, width, o, Source(stream, k), BatchesFrom(100 * k, n)).value| == (if 100 * k >= n then 0 else n - 100 * k)
    decreases n - 100 * k
  {
    if 100 * k < n {
      AllRowsStep(draw, width, o, stream, k, n);
      AllRowsLength(draw, width, o, stream, k + 1, n);
    } else {
      assert BatchesFrom(100 * k, n) == [];
    }
  }

  /** The first hundred rows from row `100 * k` are those of batch `k`. */
  lemma AllRowsHead(draw: BatchDraw, width: nat, o: Oracle, stream: nat, k: nat, n: int)
    requires Shaped(draw, width) && 100 * k < n
    requires AllRows(draw, width, o, Source(stream, k), BatchesFrom(100 * k, n)).Success?
    ensures var rows := AllRows(draw, width, o, Source(stream, k), BatchesFrom(100 * k, n)).value;
      forall j: nat :: 100 * k <= j < n && j < 100 * k + 100 ==>
        BatchOf(draw, o, stream, n, j).Success? && rows[j - 100 * k] == BatchOf(draw, o, stream, n, j).value.0[j % 100]
  {
    AllRowsStep(draw, width, o, stream, k, n);
    var b := draw(Source(o.child(stream, k), 0), Min(100, n - 100 * k) as nat).value.0;
    var rows := AllRows(draw, width, o, Source(stream, k), BatchesFrom(100 * k, n)).value;
    forall j: nat | 100 * k <= j < n && j < 100 * k + 100
      ensures BatchOf(draw, o, stream, n, j).Success? && rows[j - 100 * k] == BatchOf(draw, o, stream, n, j).value.0[j % 100]
    {
      BatchOfFirst(draw, o, stream, n, k, j);
      assert rows[j - 100 * k] == b[j - 100 * k];
    }
  }

  /**
   * Row `j` of `n` comes from batch `j / 100`: it is row `j % 100` of the
   * rows drawn from the child source the parent spawns for that batch.
   */
  lemma {:induction false} AllRowsPlacement(draw: BatchDraw, width: nat, o: Oracle, stream: nat, k: nat, n: int)
    requires Shaped(draw, width)
    requires AllRows(draw, width, o, Source(stream, k), BatchesFrom(100 * k, n)).Success?
    ensures var rows := AllRows(draw, width, o, Source(stream, k), BatchesFrom(100 * k, n)).value;
      && |rows| == (if 100 * k >= n then 0 else n - 100 * k)
      && forall j: nat :: 100 * k <= j < n ==>
           BatchOf(draw, o, stream, n, j).Success? && rows[j - 100 * k] == BatchOf(draw, o, stream, n, j).value.0[j % 100]
    decreases n - 100 * k
  {
    AllRowsLength(draw, width, o, stream, k, n);
    if 100 * k < n {
      AllRowsHead(draw, width, o, stream, k, n);
      AllRowsStep(draw, width, o, stream, k, n);
      AllRowsPlacement(draw, width, o, stream, k + 1, n);
      var b := draw(Source(o.child(stream, k), 0), Min(100, n - 100 * k) as nat).value.0;
      var rest := AllRows(draw, width, o, Source(stream, k + 1), BatchesFrom(100 * (k + 1), n)).value;
      var rows := AllRows(draw, width, o, Source(stream, k), BatchesFrom(100 * k, n)).value;
      assert |b| == Min(100, n - 100 * k);
      forall j: nat | 100 * k + 100 <= j < n
        ensures BatchOf(draw, o, stream, n, j).Success? && rows[j - 100 * k] == BatchOf(draw, o, stream, n, j).value.0[j % 100]
      {
        assert rows[j - 100 * k] == rest[j - 100 * (k + 1)];
      }
    }
  }

  /**
   * Within a row a persistent variable listed twice is drawn once: both
   * places hold the same number, the one the first place drew.
   */
  lemma {:induction false} RowSharesPersistent(vs: seq<RV>, o: Oracle, src: Source, run: Run, i: nat, j: nat)
    requires i < j < |vs| && vs[i] == vs[j] && vs[i].Persistent?
    requires Row(vs, o, src, run).Success?
    ensures Row(vs, o, src, run).value.0[i] == Row(vs, o, src, run).value.0[j]
    decreases |vs|
  {
    var x := Observe(vs[0], o, src, run).value;
    if i > 0 {
      RowSharesPersistent(vs[1..], o, x.src, x.run, i - 1, j - 1);
    } else {
      assert Observe(vs[0], o, src, run) == ObservePersistent(vs[0], o, src, run);
      RowKeeps(vs[1..], o, x.src, x.run, vs[0].name, x.q, j - 1);
    }
  }

  /** Once a run holds the value of a persistent variable, every later place of it in the row reads that value back. */
  lemma {:induction false} RowKeeps(vs: seq<RV>, o: Oracle, src: Source, run: Run, name: VarId, q: Quantity, j: nat)
    requires j < |vs| && vs[j].Persistent? && vs[j].name == name
    requires name in run.values && run.values[name] == q
    requires Row(vs, o, src, run).Success?
    ensures Row(vs, o, src, run).value.0[j] == q.value
    decreases |vs|
  {
    var x := Observe(vs[0], o, src, run).value;
    RunGrows(vs[0], o, src, run);
    if j > 0 {
      RowKeeps(vs[1..], o, x.src, x.run, name, q, j - 1);
    } else {
      assert HasValue(run, name);
    }
  }

  /** Observing never drops or changes a value the run already holds. */
  lemma RunGrows(v: RV, o: Oracle, src: Source, run: Run)
    requires Observe(v, o, src, run).Success?
    ensures var r := Observe(v, o, src, run).value.run;
      forall n :: n in run.values ==> n in r.values && r.values[n] == run.values[n]
  {
    var r := Observe(v, o, src, run).value;
    assert Extends(run, r.run);
  }

  // ---------------------------------------------------------------------
  // The table of samples
  // ---------------------------------------------------------------------

  /** The map `createSamples` returns: one column per id, in the order the ids were first put. */
  type Table = seq<(VarId, seq<real>)>

  /** `LinkedHashMap.get`: the column of the first entry with the id. */
  function Lookup(t: Table, id: VarId): (r: Option<seq<real>>)
    ensures r.Some? <==> id in TableKeys(t)
    ensures r.Some? ==> (id, r.value) in t
    decreases |t|
  {
    if |t| == 0 then None
    else
      KeysCons(t[0], t[1..]);
      assert t == [t[0]] + t[1..];
      if t[0].0 == id then Some(t[0].1) else Lookup(t[1..], id)
  }

  /** No id heads two columns. */
  predicate DistinctKeys(t: Table) {
    forall i, j :: 0 <= i < j < |t| ==> t[i].0 != t[j].0
  }

  /** `LinkedHashMap.put`: a present id keeps its place and gets the new column; a new id is appended. */
  function Put(t: Table, id: VarId, col: seq<real>): (r: Table)
    decreases |t|
  {
    if |t| == 0 then [(id, col)]
    else if t[0].0 == id then [(id, col)] + t[1..]
    else [t[0]] + Put(t[1..], id, col)
  }

  /** After `put` the id maps to the column, every other id keeps its column, and no key appears twice. */
  lemma {:induction false} PutLaws(t: Table, id: VarId, col: seq<real>)
    requires DistinctKeys(t)
    ensures var r := Put(t, id, col);
      && DistinctKeys(r)
      && Lookup(r, id) == Some(col)
      && (forall other :: other != id ==> Lookup(r, other) == Lookup(t, other))
    decreases |t|
  {
    if |t| > 0 {
      var r := Put(t, id, col);
      if t[0].0 != id {
        PutLaws(t[1..], id, col);
        PutKeys(t[1..], id, col);
        assert r[1..] == Put(t[1..], id, col);
        forall i, j | 0 <= i < j < |r| ensures r[i].0 != r[j].0 {
          if i == 0 {
            DistinctHead(t);
            assert r[j].0 == r[1..][j - 1].0 && r[j].0 in TableKeys(r[1..]);
          }
        }
      } else {
        assert r[1..] == t[1..];
      }
    }
  }

  /** The ids that head a column. */
  function TableKeys(t: Table): set<VarId> {
    set i | 0 <= i < |t| :: t[i].0
  }

  /** `put` adds the id to the keys and nothing else. */
  lemma {:induction false} PutKeys(t: Table, id: VarId, col: seq<real>)
    ensures TableKeys(Put(t, id, col)) == TableKeys(t) + {id}
    decreases |t|
  {
    if |t| == 0 {
      KeysCons((id, col), []);
      assert [(id, col)] + [] == Put(t, id, col);
    } else {
      var r := Put(t, id, col);
      if t[0].0 != id {
        PutKeys(t[1..], id, col);
        assert r == [t[0]] + Put(t[1..], id, col);
        KeysCons(t[0], Put(t[1..], id, col));
        KeysCons(t[0], t[1..]);
        assert t == [t[0]] + t[1..];
      } else {
        KeysCons((id, col), t[1..]);
        KeysCons(t[0], t[1..]);
        assert t == [t[0]] + t[1..];
      }
    }
  }

  lemma KeysCons(e: (VarId, seq<real>), t: Table)
    ensures TableKeys([e] + t) == {e.0} + TableKeys(t)
  {
    var r := [e] + t;
    forall k | k in TableKeys(t) ensures k in TableKeys(r) {
      var i :| 0 <= i < |t| && t[i].0 == k;
      assert r[i + 1].0 == k;
    }
    forall k | k in TableKeys(r) ensures k in {e.0} + TableKeys(t) {
      var i :| 0 <= i < |r| && r[i].0 == k;
      if i > 0 {
        assert t[i - 1].0 == k;
      }
    }
    assert r[0].0 == e.0;
  }

  /** A key of a table with distinct keys is not among the keys after it. */
  lemma DistinctHead(t: Table)
    requires |t| > 0 && DistinctKeys(t)
    ensures t[0].0 !in TableKeys(t[1..])
  {
  }

  /** Column `i` of the rows: the numbers variable `i` drew, row by row. */
  function Column(rows: seq<seq<real>>, i: nat): (c: seq<real>)
    requires forall j :: 0 <= j < |rows| ==> i < |rows[j]|
    ensures |c| == |rows|
  {
    seq(|rows|, j requires 0 <= j < |rows| => rows[j][i])
  }

  /** Every row holds one number per value variable. */
  predicate Rectangular(rows: seq<seq<real>>, width: nat) {
    forall j :: 0 <= j < |rows| ==> |rows[j]| == width
  }

  /**
   * The table of the ids' columns: the first loop puts an array per id, and
   * a duplicated id keeps its first place but holds the column of its last
   * place, which is written after the earlier ones in every row.
   */
  function Columns(ids: seq<VarId>, rows: seq<seq<real>>): Table
    requires Rectangular(rows, |ids|)
    decreases |ids|
  {
    if |ids| == 0 then []
    else Put(Columns(ids[..|ids| - 1], Prefixes(rows, |ids| - 1)), ids[|ids| - 1], Column(rows, |ids| - 1))
  }

  /** Every row cut to its first `w` numbers. */
  function Prefixes(rows: seq<seq<real>>, w: nat): (r: seq<seq<real>>)
    requires forall j :: 0 <= j < |rows| ==> w <= |rows[j]|
    ensures Rectangular(r, w) && |r| == |rows|
  {
    seq(|rows|, j requires 0 <= j < |rows| => rows[j][..w])
  }

  /** The last place of `id` among the ids. */
  function LastIndex(ids: seq<VarId>, id: VarId): (i: nat)
    requires id in ids
    ensures i < |ids| && ids[i] == id
    ensures forall j :: i < j < |ids| ==> ids[j] != id
    decreases |ids|
  {
    if ids[|ids| - 1] == id then |ids| - 1 else LastIndex(ids[..|ids| - 1], id)
  }

  /** The column an id gets from the ids with one more at the end, given the columns of the shorter ids. */
  lemma ColumnsStep(ids: seq<VarId>, rows: seq<seq<real>>, id: VarId)
    requires |ids| > 0 && Rectangular(rows, |ids|)
    requires var w := |ids| - 1;
      var t0 := Columns(ids[..w], Prefixes(rows, w));
      && DistinctKeys(t0)
      && Lookup(t0, id) == if id in ids[..w] then Some(Column(Prefixes(rows, w), LastIndex(ids[..w], id))) else None
    ensures Lookup(Columns(ids, rows), id) == if id in ids then Some(Column(rows, LastIndex(ids, id))) else None
  {
    var w := |ids| - 1;
    var init, last := ids[..w], ids[w];
    var pre := Prefixes(rows, w);
    var t0 := Columns(init, pre);
    PutLaws(t0, last, Column(rows, w));
    if id != last {
      LastIndexOfInit(ids, id);
      if id in init {
        PrefixColumn(rows, w, LastIndex(init, id));
      }
    }
  }

  /** An id other than the last has the same last place among the ids as among all but the last. */
  lemma LastIndexOfInit(ids: seq<VarId>, id: VarId)
    requires |ids| > 0 && id != ids[|ids| - 1]
    ensures id in ids <==> id in ids[..|ids| - 1]
    ensures id in ids ==> LastIndex(ids, id) == LastIndex(ids[..|ids| - 1], id)
  {
    if id in ids {
      var i :| 0 <= i < |ids| && ids[i] == id;
      assert ids[..|ids| - 1][i] == id;
    }
  }

  /** Cutting the rows keeps the columns before the cut. */
  lemma PrefixColumn(rows: seq<seq<real>>, w: nat, i: nat)
    requires forall j :: 0 <= j < |rows| ==> w <= |rows[j]|
    requires i < w
    ensures Column(Prefixes(rows, w), i) == Column(rows, i)
  {
  }

  /** No id heads two columns of the table. */
  lemma {:induction false} ColumnsDistinct(ids: seq<VarId>, rows: seq<seq<real>>)
    requires Rectangular(rows, |ids|)
    ensures DistinctKeys(Columns(ids, rows))
    decreases |ids|
  {
    if |ids| > 0 {
      var w := |ids| - 1;
      ColumnsDistinct(ids[..w], Prefixes(rows, w));
      PutLaws(Columns(ids[..w], Prefixes(rows, w)), ids[w], Column(rows, w));
    }
  }

  /**
   * The table has exactly the ids as keys, each once; the column of an id
   * is the column of its last place among the ids.
   */
  lemma {:induction false} ColumnsLaws(ids: seq<VarId>, rows: seq<seq<real>>)
    requires Rectangular(rows, |ids|)
    ensures var t := Columns(ids, rows);
      && DistinctKeys(t)
      && forall id :: Lookup(t, id) == if id in ids then Some(Column(rows, LastIndex(ids, id))) else None
    decreases |ids|
  {
    ColumnsDistinct(ids, rows);
    if |ids| > 0 {
      var w := |ids| - 1;
      ColumnsLaws(ids[..w], Prefixes(rows, w));
      forall id ensures Lookup(Columns(ids, rows), id) == if id in ids then Some(Column(rows, LastIndex(ids, id))) else None {
        ColumnsStep(ids, rows, id);
      }
    }
  }

  // ---------------------------------------------------------------------
  // createSamples
  // ---------------------------------------------------------------------

  /** `get` of each id in turn, the instance remembering what it resolved. */
  function ResolveAll(m: Model, inst: Instance, ids: seq<VarId>): (r: Result<ResolvedList, Error>)
    ensures r.Success? ==> |r.value.vs| == |ids|
    ensures r.Success? ==> Grows(inst, r.value.inst)
    ensures r.Success? ==> forall k :: 0 <= k < |ids| ==> ids[k] in r.value.inst.vars && r.value.inst.vars[ids[k]] == r.value.vs[k]
    decreases |ids|
  {
    if |ids| == 0 then Success(ResolvedList([], inst))
    else
      var x :- Get(m, inst, ids[0], {});
      var rest :- ResolveAll(m, x.inst, ids[1..]);
      Success(ResolvedList([x.v] + rest.vs, rest.inst))
  }

  /**
   * The first row of the first batch as `createSamples` draws it: each id is
   * fetched with `get` just before its observation, so the first failure in
   * that order, of a definition or of a draw, is the one reported. Later
   * rows find every id resolved.
   */
  function ResolvingRow(m: Model, inst: Instance, ids: seq<VarId>, o: Oracle, src: Source, run: Run): Result<(seq<real>, Source), Error>
    decreases |ids|
  {
    if |ids| == 0 then Success(([], src))
    else
      var x :- Get(m, inst, ids[0], {});
      var y :- Observe(x.v, o, src, run);
      var rest :- ResolvingRow(m, x.inst, ids[1..], o, y.src, y.run);
      Success(([y.q.value] + rest.0, rest.1))
  }

  /**
   * Fetching the ids inside the row draws the row the resolved variables
   * draw: when every id resolves it is `Row` of them, and when one does not
   * the row fails as well (with whichever failure comes first).
   */
  lemma {:induction false} ResolvingRowAgrees(m: Model, inst: Instance, ids: seq<VarId>, o: Oracle, src: Source, run: Run)
    ensures ResolveAll(m, inst, ids).Success? ==>
      ResolvingRow(m, inst, ids, o, src, run) == Row(ResolveAll(m, inst, ids).value.vs, o, src, run)
    ensures ResolveAll(m, inst, ids).Failure? ==> ResolvingRow(m, inst, ids, o, src, run).Failure?
    decreases |ids|
  {
    if |ids| > 0 {
      var x := Get(m, inst, ids[0], {});
      if x.Success? {
        var y := Observe(x.value.v, o, src, run);
        if y.Success? {
          ResolvingRowAgrees(m, x.value.inst, ids[1..], o, y.value.src, y.value.run);
        }
        var rest := ResolveAll(m, x.value.inst, ids[1..]);
        if rest.Success? {
          var vs := [x.value.v] + rest.value.vs;
          assert vs[0] == x.value.v && vs[1..] == rest.value.vs;
        }
      }
    }
  }

  /**
   * `createSamples(seed, n, ids)`: a column of `n` numbers per id, the rows
   * drawn in batches from the stream the seed names. A negative count fails
   * when the first array is made; with no rows to draw no variable is
   * resolved. The ids are resolved in the first row of the first batch,
   * whose failure is the one reported; the other rows draw the resolved
   * variables.
   */
  function CreateSamples(m: Model, inst: Instance, o: Oracle, stream: nat, n: int, ids: seq<VarId>): (r: Result<(Table, Instance), Error>)
    ensures r.Success? ==> Grows(inst, r.value.1)
  {
    if n < 0 && |ids| > 0 then Failure(NegativeSize(n))
    else if n <= 0 then Success((Columns(ids, []), inst))
    else
      var _ :- ResolvingRow(m, inst, ids, o, SpawnChild(o, Source(stream, 0)).0, Fresh());
      var res :- ResolveAll(m, inst, ids);
      Draw(res, o, stream, n, ids)
  }

  /** The rows of the resolved value variables, in batches, as the table of their columns. */
  function Draw(res: ResolvedList, o: Oracle, stream: nat, n: int, ids: seq<VarId>): Result<(Table, Instance), Error>
    requires |res.vs| == |ids|
  {
    var rows :- AllRows(DrawRows(res.vs, o), |ids|, o, Source(stream, 0), Batches(n));
    Success((Columns(ids, rows), res.inst))
  }

  /**
   * The table of the rows the batches draw: number `j` of an id's column
   * is, for the id's last place `i`, number `i` of row `j % 100` of batch
   * `j / 100`.
   */
  lemma ColumnsOfBatches(ids: seq<VarId>, draw: BatchDraw, o: Oracle, stream: nat, n: int)
    requires Shaped(draw, |ids|) && n > 0
    requires AllRows(draw, |ids|, o, Source(stream, 0), Batches(n)).Success?
    ensures var t := Columns(ids, AllRows(draw, |ids|, o, Source(stream, 0), Batches(n)).value);
      && DistinctKeys(t)
      && (forall id :: Lookup(t, id).Some? <==> id in ids)
      && (forall id :: id in ids ==> |Lookup(t, id).value| == n)
      && (forall id, j: nat :: id in ids && j < n ==>
            var b := BatchOf(draw, o, stream, n, j);
            b.Success? && Lookup(t, id).value[j] == b.value.0[j % 100][LastIndex(ids, id)])
  {
    var rows := AllRows(draw, |ids|, o, Source(stream, 0), Batches(n)).value;
    AllRowsPlacement(draw, |ids|, o, stream, 0, n);
    ColumnsLaws(ids, rows);
  }

  /** The samples have exactly the ids as keys, each once, and every column holds `n` numbers (none for a count below one). */
  lemma CreateSamplesShape(m: Model, inst: Instance, o: Oracle, stream: nat, n: int, ids: seq<VarId>)
    requires CreateSamples(m, inst, o, stream, n, ids).Success?
    ensures var t := CreateSamples(m, inst, o, stream, n, ids).value.0;
      && DistinctKeys(t)
      && (forall id :: Lookup(t, id).Some? <==> id in ids)
      && (forall id :: id in ids ==> |Lookup(t, id).value| == (if n < 0 then 0 else n))
  {
    if n <= 0 {
      ColumnsLaws(ids, []);
    } else {
      var vs := ResolveAll(m, inst, ids).value.vs;
      ColumnsOfBatches(ids, DrawRows(vs, o), o, stream, n);
    }
  }

  // ---------------------------------------------------------------------
  // The best choice and the loss
  // ---------------------------------------------------------------------

  /** `Mean.of(column).get()`; an empty column has none (NaN, which compares false). */
  function MeanOf(col: seq<real>): Option<real> {
    Means.Get(Means.Of(col))
  }

  /**
   * The index `determineBestChoice` settles on: walking the columns in order
   * it takes one whose mean is strictly greater than the best so far, the
   * best starting at minus infinity.
   */
  function BestIndex(t: Table): (r: Option<nat>)
    ensures r.Some? ==> r.value < |t| && MeanOf(t[r.value].1).Some?
    decreases |t|
  {
    if |t| == 0 then None
    else
      var b := BestIndex(t[..|t| - 1]);
      var cur := MeanOf(t[|t| - 1].1);
      if cur.Some? && (b.None? || cur.value > MeanOf(t[b.value].1).value) then Some(|t| - 1) else b
  }

  /** `determineBestChoice`: the id of the best index, or null. */
  function BestChoice(t: Table): Option<VarId> {
    match BestIndex(t)
    case None => None
    case Some(i) => Some(t[i].0)
  }

  /**
   * There is a best choice exactly when some column has a mean; its mean is
   * at least every other mean, and strictly above those of the columns
   * before it, so that of several equal means the first wins.
   */
  lemma {:induction false} BestIsFirstMaximum(t: Table)
    ensures BestIndex(t).None? <==> forall i :: 0 <= i < |t| ==> MeanOf(t[i].1).None?
    ensures BestIndex(t).Some? ==>
      var b := BestIndex(t).value;
      && (forall i :: 0 <= i < |t| && MeanOf(t[i].1).Some? ==> MeanOf(t[i].1).value <= MeanOf(t[b].1).value)
      && (forall i :: 0 <= i < b && MeanOf(t[i].1).Some? ==> MeanOf(t[i].1).value < MeanOf(t[b].1).value)
    decreases |t|
  {
    if |t| > 0 {
      var init := t[..|t| - 1];
      BestIsFirstMaximum(init);
      assert forall i :: 0 <= i < |init| ==> init[i] == t[i];
    }
  }

  /** `minus`: the difference of two columns, number by number; columns of different lengths fail the assertion. */
  function Minus(a: seq<real>, b: seq<real>): (r: Result<seq<real>, Error>)
    ensures r.Success? <==> |a| == |b|
    ensures r.Success? ==> |r.value| == |a| && forall i :: 0 <= i < |a| ==> r.value[i] == a[i] - b[i]
  {
    if |a| != |b| then Failure(AssertionFailed("ds1.length == ds2.length"))
    else Success(seq(|a|, i requires 0 <= i < |a| => a[i] - b[i]))
  }

  /** The sum of the differences is the difference of the sums. */
  lemma {:induction false} MinusSum(a: seq<real>, b: seq<real>)
    requires |a| == |b|
    ensures Means.Sum(Minus(a, b).value) == Means.Sum(a) - Means.Sum(b)
    decreases |a|
  {
    if |a| > 0 {
      var n := |a| - 1;
      MinusSum(a[..n], b[..n]);
      assert Minus(a, b).value[..n] == Minus(a[..n], b[..n]).value;
    }
  }

  /** So the mean of the loss is the difference of the means. */
  lemma MinusMean(a: seq<real>, b: seq<real>)
    requires |a| == |b| && |a| > 0
    ensures MeanOf(Minus(a, b).value) == Some(MeanOf(a).value - MeanOf(b).value)
  {
    MinusSum(a, b);
    DivideDistributes(Means.Sum(a), Means.Sum(b), |a| as real);
  }

  /** Division by a non-zero number distributes over a difference. */
  lemma DivideDistributes(x: real, y: real, c: real)
    requires c != 0.0
    ensures (x - y) / c == x / c - y / c
  {
    var p, q := x / c, y / c;
    assert p * c == x && q * c == y;
    assert (p - q) * c == x - y;
  }

  /**
   * The loss of the choice made without information against the best
   * choice with it: the best column minus the chosen one. A null best
   * choice, or a choice with no column, is dereferenced and fails.
   */
  function LossOf(t: Table, chosen: Option<VarId>): Result<seq<real>, Error> {
    match (BestIndex(t), chosen)
    case (None, _) => Failure(NoBestChoice)
    case (_, None) => Failure(NoBestChoice)
    case (Some(b), Some(c)) =>
      match Lookup(t, c)
      case None => Failure(Missing(c))
      case Some(col) => Minus(t[b].1, col)
  }

  /** Dividing by the same positive count keeps the order. */
  lemma DivideKeepsOrder(x: real, y: real, c: real)
    requires c > 0.0 && x / c <= y / c
    ensures x <= y
  {
    assert x == (x / c) * c && y == (y / c) * c;
  }

  /** Information never hurts: the loss against the best choice sums to at least zero. */
  lemma LossNonNegative(t: Table, chosen: Option<VarId>)
    requires LossOf(t, chosen).Success?
    ensures Means.Sum(LossOf(t, chosen).value) >= 0.0
    ensures |LossOf(t, chosen).value| > 0 ==> MeanOf(LossOf(t, chosen).value).value >= 0.0
  {
    var b := BestIndex(t).value;
    var col := Lookup(t, chosen.value).value;
    var a := t[b].1;
    MinusSum(a, col);
    if |a| > 0 {
      BestIsFirstMaximum(t);
      var i :| 0 <= i < |t| && t[i] == (chosen.value, col);
      var c := |a| as real;
      DivideKeepsOrder(Means.Sum(col), Means.Sum(a), c);
      MinusMean(a, col);
    }
  }

  // ---------------------------------------------------------------------
  // The reduced instance
  // ---------------------------------------------------------------------

  /** `sampleValue`: one observation of the variable, resolved in a new instance, in a fresh run. */
  function SampleValue(m: Model, name: VarId, o: Oracle, src: Source): Result<(Quantity, Source), Error> {
    var r :- Get(m, Instantiate(), name, {});
    var x :- Observe(r.v, o, src, Fresh());
    Success((x.q, x.src))
  }

  /** `createReducedInstance`: a new instance in which the variable is fixed to a sampled value. */
  function Reduce(m: Model, name: VarId, o: Oracle, src: Source): Result<(Instance, Source), Error> {
    var s :- SampleValue(m, name, o, src);
    Success((Instance(map[name := Fixed(s.0)], map[]), s.1))
  }

  /**
   * In the reduced instance the variable resolves to the fixed sample, with
   * the definition never consulted, and every draw of it yields that sample
   * without drawing; everything else is still unresolved.
   */
  lemma ReducedGet(m: Model, name: VarId, o: Oracle, src: Source, visiting: set<VarId>, src': Source, run: Run)
    requires Reduce(m, name, o, src).Success?
    ensures var red := Reduce(m, name, o, src).value.0;
      var q := SampleValue(m, name, o, src).value.0;
      && Get(m, red, name, visiting) == Success(Resolved(Fixed(q), red))
      && Observe(Fixed(q), o, src', run) == Success(Obs(q, src', run))
      && (forall id :: id != name ==> id !in red.vars)
      && red.objects == map[]
  {
  }

  // ---------------------------------------------------------------------
  // analyze
  // ---------------------------------------------------------------------

  const ORIGINAL_SAMPLES: nat := 10_000
  const REDUCED_SAMPLES: nat := 2_000
  const ITERATIONS: nat := 10_000
  const REPEATS: nat := 10

  /** The (variable, seed) pairs of pass `j` over the variables, ten per variable. */
  function Pass(names: seq<VarId>, seed: int, j: nat): (r: seq<(VarId, int)>)
    ensures |r| == REPEATS * |names|
    ensures forall k :: 0 <= k < |r| ==> r[k] == (names[k / REPEATS], seed + k % REPEATS + 100 * j)
    decreases |names|
  {
    if |names| == 0 then []
    else
      var head := seq(REPEATS, i requires 0 <= i < REPEATS => (names[0], seed + i + 100 * j));
      var rest := Pass(names[1..], seed, j);
      assert forall k :: REPEATS <= k < REPEATS + |rest| ==> (k - REPEATS) / REPEATS == k / REPEATS - 1 && (k - REPEATS) % REPEATS == k % REPEATS;
      head + rest
  }

  /** The (variable, seed) pairs of the first `iters` passes, in the order the loops visit them. */
  function Schedule(names: seq<VarId>, seed: int, iters: nat): (r: seq<(VarId, int)>)
    ensures |r| == iters * (REPEATS * |names|)
    decreases iters
  {
    if iters == 0 then [] else Schedule(names, seed, iters - 1) + Pass(names, seed, iters - 1)
  }

  /** One step: fix the variable to a sample, draw the reduced samples, and take the mean of the loss. */
  function LossStep(m: Model, ids: seq<VarId>, chosen: Option<VarId>, name: VarId, o: Oracle, sampleSrc: Source, stream: nat): Result<(Means.Mean, Source), Error> {
    var red :- Reduce(m, name, o, sampleSrc);
    var s :- CreateSamples(m, red.0, o, stream, REDUCED_SAMPLES, ids);
    var loss :- LossOf(s.0, chosen);
    Success((Means.Of(loss), red.1))
  }

  /** The mean loss of a step is never negative. */
  lemma LossStepNonNegative(m: Model, ids: seq<VarId>, chosen: Option<VarId>, name: VarId, o: Oracle, sampleSrc: Source, stream: nat)
    requires LossStep(m, ids, chosen, name, o, sampleSrc, stream).Success?
    ensures var l := LossStep(m, ids, chosen, name, o, sampleSrc, stream).value.0;
      l.sum >= 0.0 && l.count >= 0
  {
    var red := Reduce(m, name, o, sampleSrc).value;
    var s := CreateSamples(m, red.0, o, stream, REDUCED_SAMPLES, ids).value;
    LossNonNegative(s.0, chosen);
  }

  /** A step of the loop as a function of the variable, the sample source and the stream of the reduced samples. */
  type StepFn = (VarId, Source, nat) -> Result<(Means.Mean, Source), Error>

  /** Every mean a step yields has a non-negative sum and count. */
  ghost predicate StepsNonNegative(step: StepFn) {
    forall name, src, stream :: step(name, src, stream).Success? ==>
      step(name, src, stream).value.0.sum >= 0.0 && step(name, src, stream).value.0.count >= 0
  }

  /** The step of `analyze`, for the chosen value variable. */
  function StepOf(m: Model, ids: seq<VarId>, chosen: Option<VarId>, o: Oracle): (step: StepFn)
    ensures StepsNonNegative(step)
  {
    var step := (name: VarId, src: Source, stream: nat) => LossStep(m, ids, chosen, name, o, src, stream);
    assert StepsNonNegative(step) by {
      forall name, src, stream | step(name, src, stream).Success?
        ensures step(name, src, stream).value.0.sum >= 0.0 && step(name, src, stream).value.0.count >= 0
      {
        LossStepNonNegative(m, ids, chosen, name, o, src, stream);
      }
    }
    step
  }

  /** Every running mean has a non-negative sum and count. */
  predicate NonNegative(acc: map<VarId, Means.Mean>) {
    forall k :: k in acc ==> acc[k].sum >= 0.0 && acc[k].count >= 0
  }

  /**
   * The steps of the loop: each adds the mean of its loss to the running
   * mean of its variable; the sample source is shared by all steps, each
   * reduced sample drawing from the stream its seed names.
   */
  function Accumulate(step: StepFn, src: Source, steps: seq<(VarId, int)>, streamOf: int -> nat,
                      acc: map<VarId, Means.Mean>): (r: Result<map<VarId, Means.Mean>, Error>)
    ensures r.Success? ==> r.value.Keys == acc.Keys
    decreases |steps|
  {
    if |steps| == 0 then Success(acc)
    else
      var name := steps[0].0;
      var l :- step(name, src, streamOf(steps[0].1));
      if name !in acc then Failure(Missing(name))
      else Accumulate(step, l.1, steps[1..], streamOf, acc[name := Means.Add(acc[name], l.0)])
  }

  /** The accumulated losses stay non-negative. */
  lemma {:induction false} AccumulateNonNegative(step: StepFn, src: Source, steps: seq<(VarId, int)>, streamOf: int -> nat,
                                                acc: map<VarId, Means.Mean>)
    requires StepsNonNegative(step) && NonNegative(acc)
    requires Accumulate(step, src, steps, streamOf, acc).Success?
    ensures NonNegative(Accumulate(step, src, steps, streamOf, acc).value)
    decreases |steps|
  {
    if |steps| > 0 {
      var name := steps[0].0;
      var l := step(name, src, streamOf(steps[0].1)).value;
      AccumulateNonNegative(step, l.1, steps[1..], streamOf, acc[name := Means.Add(acc[name], l.0)]);
    }
  }

  /** What `analyze` hands to its handler: the value variables' samples, the best choice, and the mean losses. */
  datatype Analysis = Analysis(samples: seq<(VarId, Samples.Sample)>, bestChoice: Option<VarId>, losses: map<VarId, Means.Mean>)

  /** The samples of the table with the units of the resolved variables. */
  function WithUnits(m: Model, inst: Instance, t: Table): (r: Result<seq<(VarId, Samples.Sample)>, Error>)
    ensures r.Success? ==> |r.value| == |t| && forall i :: 0 <= i < |t| ==> r.value[i].0 == t[i].0
    decreases |t|
  {
    if |t| == 0 then Success([])
    else
      var x :- Get(m, inst, t[0].0, {});
      var u :- UnitOf(x.v);
      var rest :- WithUnits(m, x.inst, t[1..]);
      Success([(t[0].0, Samples.Make(t[0].1, u))] + rest)
  }

  /**
   * The overview of `analyze`: for every variable of the model that is not
   * a value variable, in registration order, 10,000 draws of it alone from
   * the seed's stream, then its unit, in the full instance. The samples only
   * go to the handler; any failure fails the analysis. Afterwards each such
   * variable is resolved and has a unit.
   */
  function Overview(m: Model, inst: Instance, o: Oracle, stream: nat, names: seq<VarId>, ids: seq<VarId>): (r: Result<Instance, Error>)
    ensures r.Success? ==> Grows(inst, r.value)
    ensures r.Success? ==> forall name :: name in names && name !in ids ==>
      name in r.value.vars && UnitOf(r.value.vars[name]).Success?
    decreases |names|
  {
    if |names| == 0 then Success(inst)
    else if names[0] in ids then Overview(m, inst, o, stream, names[1..], ids)
    else
      var s :- CreateSamples(m, inst, o, stream, ORIGINAL_SAMPLES, [names[0]]);
      var x :- Get(m, s.1, names[0], {});
      var _ :- UnitOf(x.v);
      Overview(m, x.inst, o, stream, names[1..], ids)
  }

  /**
   * What `analyze` does before its loop: the original samples with their
   * units, their best choice, the overview of the other variables, and the
   * type of every variable, which resolves each in the full instance.
   */
  function Prepare(m: Model, o: Oracle, stream: nat, ids: seq<VarId>): Result<(seq<(VarId, Samples.Sample)>, Option<VarId>), Error> {
    var orig :- CreateSamples(m, Instantiate(), o, stream, ORIGINAL_SAMPLES, ids);
    var withUnits :- WithUnits(m, orig.1, orig.0);
    var full :- Overview(m, orig.1, o, stream, m.order, ids);
    var _ :- ResolveAll(m, full, m.order);
    Success((withUnits, BestChoice(orig.0)))
  }

  /** Every running mean counts at least zero losses and, when defined, is at least zero. */
  predicate Informative(losses: map<VarId, Means.Mean>) {
    forall name :: name in losses ==>
      losses[name].count >= 0 && (Means.Get(losses[name]).Some? ==> Means.Get(losses[name]).value >= 0.0)
  }

  /**
   * `analyze(seed, ids)` for the first `iters` passes: at least two value
   * variables, the preparation, then the loop over passes, variables and
   * repeats. The seed names the streams through `streamOf`, as
   * `new Random(seed)` does. Every variable of the model gets a mean loss,
   * and none is negative: information never lowers the expected value.
   */
  function Analyze(m: Model, o: Oracle, seed: int, streamOf: int -> nat, ids: seq<VarId>, iters: nat): (r: Result<Analysis, Error>)
    ensures r.Success? ==> r.value.losses.Keys == (set name | name in m.order) && Informative(r.value.losses)
  {
    if |ids| < 2 then Failure(AssertionFailed("valueVariables.length >= 2"))
    else
      var p :- Prepare(m, o, streamOf(seed), ids);
      var losses :- Accumulate(StepOf(m, ids, p.1, o), Source(streamOf(seed), 0), Schedule(m.order, seed, iters), streamOf, Start(m.order));
      AccumulatedMeans(StepOf(m, ids, p.1, o), Source(streamOf(seed), 0), Schedule(m.order, seed, iters), streamOf, Start(m.order));
      Success(Analysis(p.0, p.1, losses))
  }

  /**
   * The report `analyze` ends with, after all 10,000 passes; `Analyze` with
   * fewer passes is what the handler is shown along the way.
   */
  function AnalyzeFully(m: Model, o: Oracle, seed: int, streamOf: int -> nat, ids: seq<VarId>): (r: Result<Analysis, Error>)
    ensures r.Success? ==> r.value.losses.Keys == (set name | name in m.order) && Informative(r.value.losses)
  {
    Analyze(m, o, seed, streamOf, ids, ITERATIONS)
  }

  /** The running means before the loop: one undefined mean per variable of the model. */
  function Start(names: seq<VarId>): (acc: map<VarId, Means.Mean>)
    ensures acc.Keys == set name | name in names
    ensures NonNegative(acc)
  {
    map name | name in names :: Means.Undefined()
  }

  /** A mean with a non-negative sum and count has, when defined, a non-negative value. */
  lemma MeanNonNegative(m: Means.Mean)
    requires m.sum >= 0.0 && m.count >= 0
    ensures Means.Get(m).Some? ==> Means.Get(m).value >= 0.0
  {
    if m.count > 0 {
      var c := m.count as real;
      assert Means.Get(m).value == m.sum / c;
    }
  }

  /** Accumulated from non-negative means by non-negative steps, every mean, when defined, is at least zero. */
  lemma AccumulatedMeans(step: StepFn, src: Source, steps: seq<(VarId, int)>, streamOf: int -> nat, acc: map<VarId, Means.Mean>)
    requires StepsNonNegative(step) && NonNegative(acc)
    requires Accumulate(step, src, steps, streamOf, acc).Success?
    ensures Informative(Accumulate(step, src, steps, streamOf, acc).value)
  {
    AccumulateNonNegative(step, src, steps, streamOf, acc);
    var r := Accumulate(step, src, steps, streamOf, acc).value;
    forall name | name in r
      ensures Means.Get(r[name]).Some? ==> Means.Get(r[name]).value >= 0.0
    {
      MeanNonNegative(r[name]);
    }
  }
}

=== FILE: combinator_laws.dfy ===
/**
 * What one observation of each combinator yields in terms of the
 * observations of its parts, and the agreement between observed and
 * declared units for variables built as the constructors demand.
 */
module CombinatorLaws {

  import opened Wrappers
  import opened Units
  import opened Errors
  import opened Quantities
  import opened SimulationRuns
  import opened Variables
  import opened Evaluator
  import JavaNumbers
  import VarIds

  /** A sum, difference, product or quotient fails when its left operand fails. */
  lemma BinaryLeftFailure(a: RV, b: RV, o: Oracle, src: Source, run: Run)
    requires Observe(a, o, src, run).Failure?
    ensures Observe(Sum(a, b), o, src, run).Failure?
    ensures Observe(Difference(a, b), o, src, run).Failure?
    ensures Observe(Product(a, b), o, src, run).Failure?
    ensures Observe(Quotient(a, b), o, src, run).Failure?
  {
  }

  /**
   * A sum observes the right operand from where the left one stopped, and
   * succeeds exactly when that observation succeeds in the left one's unit.
   */
  lemma SumSucceeds(a: RV, b: RV, o: Oracle, src: Source, run: Run)
    requires Observe(a, o, src, run).Success?
    ensures var x := Observe(a, o, src, run).value;
      var y := Observe(b, o, x.src, x.run);
      Observe(Sum(a, b), o, src, run).Success? <==> y.Success? && y.value.q.unit == x.q.unit
  {
  }

  /** A successful sum adds the numbers and continues where the right operand stopped. */
  lemma SumValue(a: RV, b: RV, o: Oracle, src: Source, run: Run)
    requires Observe(a, o, src, run).Success?
    ensures var x := Observe(a, o, src, run).value;
      var y := Observe(b, o, x.src, x.run);
      var r := Observe(Sum(a, b), o, src, run);
      r.Success? ==> y.Success? && r.value == Obs(Quantity(x.q.value + y.value.q.value, x.q.unit), y.value.src, y.value.run)
  {
    var x := Observe(a, o, src, run).value;
    var y := Observe(b, o, x.src, x.run);
    assert Observe(Sum(a, b), o, src, run) == ObserveSum(Sum(a, b), o, src, run);
    if y.Success? {
      var p := Quantities.Plus(x.q, y.value.q);
      if p.Success? {
        assert ObserveSum(Sum(a, b), o, src, run) == Success(Obs(p.value, y.value.src, y.value.run));
      }
    }
  }

  /** A difference succeeds exactly when a sum of the same operands would. */
  lemma DifferenceSucceeds(a: RV, b: RV, o: Oracle, src: Source, run: Run)
    requires Observe(a, o, src, run).Success?
    ensures var x := Observe(a, o, src, run).value;
      var y := Observe(b, o, x.src, x.run);
      Observe(Difference(a, b), o, src, run).Success? <==> y.Success? && y.value.q.unit == x.q.unit
  {
  }

  /** A successful difference subtracts the numbers. */
  lemma DifferenceValue(a: RV, b: RV, o: Oracle, src: Source, run: Run)
    requires Observe(a, o, src, run).Success?
    ensures var x := Observe(a, o, src, run).value;
      var y := Observe(b, o, x.src, x.run);
      var r := Observe(Difference(a, b), o, src, run);
      r.Success? ==> y.Success? && r.value == Obs(Quantity(x.q.value - y.value.q.value, x.q.unit), y.value.src, y.value.run)
  {
    var x := Observe(a, o, src, run).value;
    var y := Observe(b, o, x.src, x.run);
    assert Observe(Difference(a, b), o, src, run) == ObserveDifference(Difference(a, b), o, src, run);
    if y.Success? {
      var m := Quantities.Minus(x.q, y.value.q);
      if m.Success? {
        assert ObserveDifference(Difference(a, b), o, src, run) == Success(Obs(m.value, y.value.src, y.value.run));
      }
    }
  }

  /** A product never fails on units: once the left operand is observed it fails only with the right one. */
  lemma ProductSucceeds(a: RV, b: RV, o: Oracle, src: Source, run: Run)
    requires Observe(a, o, src, run).Success?
    ensures var x := Observe(a, o, src, run).value;
      var y := Observe(b, o, x.src, x.run);
      Observe(Product(a, b), o, src, run).Success? <==> y.Success?
  {
  }

  /** A successful product multiplies the quantities, composing their units. */
  lemma ProductValue(a: RV, b: RV, o: Oracle, src: Source, run: Run)
    requires Observe(a, o, src, run).Success?
    ensures var x := Observe(a, o, src, run).value;
      var y := Observe(b, o, x.src, x.run);
      var r := Observe(Product(a, b), o, src, run);
      r.Success? ==> y.Success? && r.value == Obs(Quantities.Times(x.q, y.value.q), y.value.src, y.value.run)
  {
    var x := Observe(a, o, src, run).value;
    var y := Observe(b, o, x.src, x.run);
    assert Observe(Product(a, b), o, src, run) == ObserveProduct(Product(a, b), o, src, run);
    if y.Success? {
      assert ObserveProduct(Product(a, b), o, src, run) == Success(Obs(Quantities.Times(x.q, y.value.q), y.value.src, y.value.run));
    }
  }

  /** A quotient fails on a zero divisor and otherwise only when the right operand fails. */
  lemma QuotientSucceeds(a: RV, b: RV, o: Oracle, src: Source, run: Run)
    requires Observe(a, o, src, run).Success?
    ensures var x := Observe(a, o, src, run).value;
      var y := Observe(b, o, x.src, x.run);
      var r := Observe(Quotient(a, b), o, src, run);
      && (r.Success? <==> y.Success? && y.value.q.value != 0.0)
      && (r.Success? ==> r.value.q.unit == Units.Div(x.q.unit, y.value.q.unit))
  {
    var x := Observe(a, o, src, run).value;
    var y := Observe(b, o, x.src, x.run);
    assert Observe(Quotient(a, b), o, src, run) == ObserveQuotient(Quotient(a, b), o, src, run);
    if y.Success? {
      var d := Quantities.Div(x.q, y.value.q);
      if d.Success? {
        assert ObserveQuotient(Quotient(a, b), o, src, run) == Success(Obs(d.value, y.value.src, y.value.run));
      }
    }
  }

  /**
   * A conditional draws a uniform value in [0, 1), then observes the
   * probability; a probability of at most 0 always observes the second branch.
   */
  lemma ConditionalNever(prob: RV, v1: RV, v2: RV, o: Oracle, src: Source, run: Run)
    requires ValidOracle(o)
    requires Observe(prob, o, Skip(src, 1), run).Success?
    requires Observe(prob, o, Skip(src, 1), run).value.q.value <= 0.0
    ensures var p := Observe(prob, o, Skip(src, 1), run).value;
      Observe(Conditional(prob, v1, v2), o, src, run) == Observe(v2, o, p.src, p.run)
  {
    assert 0.0 <= Uniform(o, src);
  }

  /** A probability of at least 1 always observes the first branch. */
  lemma ConditionalAlways(prob: RV, v1: RV, v2: RV, o: Oracle, src: Source, run: Run)
    requires ValidOracle(o)
    requires Observe(prob, o, Skip(src, 1), run).Success?
    requires Observe(prob, o, Skip(src, 1), run).value.q.value >= 1.0
    ensures var p := Observe(prob, o, Skip(src, 1), run).value;
      Observe(Conditional(prob, v1, v2), o, src, run) == Observe(v1, o, p.src, p.run)
  {
    assert Uniform(o, src) < 1.0;
  }

  /**
   * An uncertain variable whose index observes a whole number `k` in range
   * yields the observation of the `k`-th candidate, from where the index stopped.
   */
  lemma UncertainPicks(index: RV, dists: seq<RV>, o: Oracle, src: Source, run: Run, k: nat)
    requires k < |dists| && k <= JavaNumbers.MAX_INT
    requires Observe(index, o, src, run).Success?
    requires Observe(index, o, src, run).value.q.value == k as real
    ensures var i := Observe(index, o, src, run).value;
      Observe(Uncertain(index, dists), o, src, run) == Observe(dists[k], o, i.src, i.run)
  {
    assert JavaNumbers.RoundToInt(k as real) == k;
  }

  /** An index rounding outside the candidates is fatal. */
  lemma UncertainOutOfRange(index: RV, dists: seq<RV>, o: Oracle, src: Source, run: Run)
    requires Observe(index, o, src, run).Success?
    requires var k := JavaNumbers.RoundToInt(Observe(index, o, src, run).value.q.value);
      k < 0 || k >= |dists|
    ensures Observe(Uncertain(index, dists), o, src, run).Failure?
  {
  }

  /** `n` copies of `x` added up. */
  function Multiple(n: nat, x: real): (r: real)
    ensures x >= 0.0 ==> r >= 0.0
  {
    if n == 0 then 0.0 else Multiple(n - 1, x) + x
  }

  /** Repeated addition is multiplication. */
  lemma {:induction false} MultipleIsProduct(n: nat, x: real)
    ensures Multiple(n, x) == (n as real) * x
  {
    if n > 0 {
      MultipleIsProduct(n - 1, x);
    }
  }

  /** Summing `n` observations of a fixed quantity adds `n` copies of its number, without drawing. */
  lemma {:induction false} SumTermsFixed(q: Quantity, o: Oracle, src: Source, run: Run, n: nat, acc: real)
    ensures SumTerms(Fixed(q), o, src, run, n, acc) == Success(Obs(Quantity(acc + Multiple(n, q.value), Scalar()), src, run))
    decreases n
  {
    if n > 0 {
      assert SumTerms(Fixed(q), o, src, run, n, acc) == SumTerms(Fixed(q), o, src, run, n - 1, acc + q.value);
      SumTermsFixed(q, o, src, run, n - 1, acc + q.value);
    }
  }

  /**
   * `sumOfN` observes the count once, then the term max(n, 0) times where
   * `n` is the rounded count, and yields the scalar sum of the terms in the
   * count's unit times the term's unit.
   */
  lemma SumOfNObserve(term: RV, count: RV, o: Oracle, src: Source, run: Run)
    requires Observe(count, o, src, run).Success?
    requires UnitOf(SumOfN(term, count)).Success?
    ensures var c := Observe(count, o, src, run).value;
      var n := JavaNumbers.Round(c.q.value);
      var s := SumTerms(term, o, c.src, c.run, if n > 0 then n else 0, 0.0);
      && (Observe(SumOfN(term, count), o, src, run).Success? <==> s.Success?)
      && (s.Success? ==>
            Observe(SumOfN(term, count), o, src, run) ==
            Success(Obs(Quantity(s.value.q.value, UnitOf(SumOfN(term, count)).value), s.value.src, s.value.run)))
  {
  }

  /**
   * With a fixed term and a fixed count that rounds to `n`, the result is
   * max(n, 0) copies of the term's number in the count's unit times the
   * term's unit, and nothing is drawn.
   */
  lemma SumOfNFixed(q: Quantity, count: Quantity, o: Oracle, src: Source, run: Run)
    ensures Observe(SumOfN(Fixed(q), Fixed(count)), o, src, run).Success?
    ensures var n := JavaNumbers.Round(count.value);
      Observe(SumOfN(Fixed(q), Fixed(count)), o, src, run).value.q.value == Multiple(if n > 0 then n else 0, q.value)
    ensures Observe(SumOfN(Fixed(q), Fixed(count)), o, src, run).value.q.unit == Units.Times(count.unit, q.unit)
    ensures Observe(SumOfN(Fixed(q), Fixed(count)), o, src, run).value.src == src
    ensures Observe(SumOfN(Fixed(q), Fixed(count)), o, src, run).value.run == run
  {
    var n := JavaNumbers.Round(count.value);
    SumTermsFixed(q, o, src, run, if n > 0 then n else 0, 0.0);
    SumOfNObserve(Fixed(q), Fixed(count), o, src, run);
  }

  /** With lower <= upper the bounded value lies in [lower, upper]; the base is observed once. */
  lemma RangeBoundWithin(base: RV, lower: real, upper: real, o: Oracle, src: Source, run: Run)
    requires lower <= upper
    ensures var x := Observe(base, o, src, run);
      var r := Observe(RangeBound(base, Some(lower), Some(upper)), o, src, run);
      && (r.Success? <==> x.Success?)
      && (r.Success? ==> lower <= r.value.q.value <= upper)
      && (r.Success? ==> r.value.q.unit == x.value.q.unit && r.value.src == x.value.src && r.value.run == x.value.run)
      && (r.Success? && lower <= x.value.q.value <= upper ==> r.value.q == x.value.q)
  {
  }

  /** `nonNegative()` never yields a negative number. */
  lemma NonNegativeObserve(base: RV, o: Oracle, src: Source, run: Run)
    ensures var r := Observe(NonNegative(base), o, src, run);
      r.Success? ==> r.value.q.value >= 0.0
  {
  }

  /** `nonNegative()` keeps every non-negative observation of its base. */
  lemma NonNegativeKeeps(base: RV, o: Oracle, src: Source, run: Run)
    requires Observe(base, o, src, run).Success?
    requires Observe(base, o, src, run).value.q.value >= 0.0
    ensures Observe(NonNegative(base), o, src, run) == Observe(base, o, src, run)
  {
  }

  /** The unit each persisted name is declared with. */
  type Catalogue = map<VarIds.VarId, Unit>

  /** Every value the run holds for a catalogued name carries that name's declared unit. */
  ghost predicate Agrees(run: Run, c: Catalogue) {
    forall k :: k in run.values && k in c ==> run.values[k].unit == c[k]
  }

  /**
   * The unit checks the constructors make, extended to every node: both
   * operands of a sum or difference and every candidate of an uncertain
   * variable share a unit, and a persisted variable is catalogued with its
   * base's unit. Accrued deals series read running totals from the run and
   * are not covered.
   */
  ghost predicate WellFormed(v: RV, c: Catalogue)
    decreases v
  {
    match v
    case Fixed(_) => true
    case External(_, _) => true
    case Empirical(_, values) => |values| > 0
    case Block(_, _, _) => true
    case Binom(count, prob) => WellFormed(count, c) && WellFormed(prob, c) && UnitOf(prob) == Success(Scalar())
    case Conditional(prob, v1, v2) =>
      && WellFormed(prob, c) && WellFormed(v1, c) && WellFormed(v2, c)
      && UnitOf(v1) == UnitOf(v2) && UnitOf(prob) == Success(Scalar())
    case CondValue(_, q1, q2) => q1.unit == q2.unit
    case Uncertain(index, dists) =>
      && WellFormed(index, c) && |dists| > 0
      && (forall i :: 0 <= i < |dists| ==> WellFormed(dists[i], c) && UnitOf(dists[i]) == UnitOf(dists[0]))
    case Sum(a, b) => WellFormed(a, c) && WellFormed(b, c) && UnitOf(a) == UnitOf(b)
    case Difference(a, b) => WellFormed(a, c) && WellFormed(b, c) && UnitOf(a) == UnitOf(b)
    case Product(a, b) => WellFormed(a, c) && WellFormed(b, c)
    case Quotient(a, b) => WellFormed(a, c) && WellFormed(b, c)
    case SumOfN(term, count) => WellFormed(term, c) && WellFormed(count, c)
    case RangeBound(base, _, _) => WellFormed(base, c)
    case Persistent(name, base) => WellFormed(base, c) && name in c && UnitOf(base) == Success(c[name])
    case DealsYear(_, _, _, _, _, _) => false
  }

  /**
   * The declared unit of a well-formed variable exists, every successful
   * observation carries exactly that unit, and a run agreeing with the
   * catalogue still agrees after the observation.
   */
  lemma {:induction false} ObservedUnit(v: RV, c: Catalogue, o: Oracle, src: Source, run: Run)
    requires WellFormed(v, c) && Agrees(run, c)
    ensures UnitOf(v).Success?
    ensures var r := Observe(v, o, src, run);
      r.Success? ==> r.value.q.unit == UnitOf(v).value && Agrees(r.value.run, c)
    decreases v, 1
  {
    match v
    case Fixed(_) =>
    case External(_, _) =>
    case Empirical(_, _) =>
    case Block(_, _, _) =>
    case Binom(count, prob) =>
      ObservedUnit(count, c, o, src, run);
      var x := Observe(count, o, src, run);
      if x.Success? {
        ObservedUnit(prob, c, o, x.value.src, x.value.run);
      }
    case Conditional(_, _, _) =>
      ConditionalUnit(v, c, o, src, run);
    case CondValue(_, _, _) =>
    case Uncertain(_, _) =>
      UncertainUnit(v, c, o, src, run);
    case Sum(_, _) =>
      BinaryUnit(v, c, o, src, run);
    case Difference(_, _) =>
      BinaryUnit(v, c, o, src, run);
    case Product(_, _) =>
      BinaryUnit(v, c, o, src, run);
    case Quotient(_, _) =>
      BinaryUnit(v, c, o, src, run);
    case SumOfN(_, _) =>
      SumOfNUnit(v, c, o, src, run);
    case RangeBound(base, _, _) =>
      ObservedUnit(base, c, o, src, run);
    case Persistent(_, _) =>
      PersistentUnit(v, c, o, src, run);
  }

  /** `ObservedUnit` for a conditional: both branches carry the declared unit. */
  lemma {:induction false} ConditionalUnit(v: RV, c: Catalogue, o: Oracle, src: Source, run: Run)
    requires v.Conditional? && WellFormed(v, c) && Agrees(run, c)
    ensures UnitOf(v).Success?
    ensures var r := Observe(v, o, src, run);
      r.Success? ==> r.value.q.unit == UnitOf(v).value && Agrees(r.value.run, c)
    decreases v, 0
  {
    ObservedUnit(v.v1, c, o, src, run);
    ObservedUnit(v.prob, c, o, Skip(src, 1), run);
    var p := Observe(v.prob, o, Skip(src, 1), run);
    if p.Success? {
      ObservedUnit(v.v1, c, o, p.value.src, p.value.run);
      ObservedUnit(v.v2, c, o, p.value.src, p.value.run);
    }
  }

  /** `ObservedUnit` for an uncertain variable: every candidate carries the first one's unit. */
  lemma {:induction false} UncertainUnit(v: RV, c: Catalogue, o: Oracle, src: Source, run: Run)
    requires v.Uncertain? && WellFormed(v, c) && Agrees(run, c)
    ensures UnitOf(v).Success?
    ensures var r := Observe(v, o, src, run);
      r.Success? ==> r.value.q.unit == UnitOf(v).value && Agrees(r.value.run, c)
    decreases v, 0
  {
    ObservedUnit(v.dists[0], c, o, src, run);
    ObservedUnit(v.index, c, o, src, run);
    var i := Observe(v.index, o, src, run);
    if i.Success? {
      var k := JavaNumbers.RoundToInt(i.value.q.value);
      if 0 <= k < |v.dists| {
        ObservedUnit(v.dists[k], c, o, i.value.src, i.value.run);
      }
    }
  }

  /** `ObservedUnit` for the four arithmetic combinators. */
  lemma {:induction false} BinaryUnit(v: RV, c: Catalogue, o: Oracle, src: Source, run: Run)
    requires (v.Sum? || v.Difference? || v.Product? || v.Quotient?) && WellFormed(v, c) && Agrees(run, c)
    ensures UnitOf(v).Success?
    ensures var r := Observe(v, o, src, run);
      r.Success? ==> r.value.q.unit == UnitOf(v).value && Agrees(r.value.run, c)
    decreases v, 0
  {
    ObservedUnit(v.left, c, o, src, run);
    ObservedUnit(v.right, c, o, src, run);
    var x := Observe(v.left, o, src, run);
    if x.Success? {
      ObservedUnit(v.right, c, o, x.value.src, x.value.run);
    }
  }

  /** `ObservedUnit` for a sum of `n` terms: the count, then every term, keep the run agreeing. */
  lemma {:induction false} SumOfNUnit(v: RV, c: Catalogue, o: Oracle, src: Source, run: Run)
    requires v.SumOfN? && WellFormed(v, c) && Agrees(run, c)
    ensures UnitOf(v).Success?
    ensures var r := Observe(v, o, src, run);
      r.Success? ==> r.value.q.unit == UnitOf(v).value && Agrees(r.value.run, c)
    decreases v, 0
  {
    ObservedUnit(v.term, c, o, src, run);
    ObservedUnit(v.count, c, o, src, run);
    var x := Observe(v.count, o, src, run);
    if x.Success? {
      forall s, r | Agrees(r, c) && Observe(v.term, o, s, r).Success?
        ensures Agrees(Observe(v.term, o, s, r).value.run, c)
      {
        ObservedUnit(v.term, c, o, s, r);
      }
      var n := JavaNumbers.Round(x.value.q.value);
      TermsAgree(v.term, c, o, x.value.src, x.value.run, if n > 0 then n else 0, 0.0);
    }
  }

  /** Every successful observation of `term` from a run agreeing with the catalogue leaves it agreeing. */
  ghost predicate KeepsAgreement(term: RV, c: Catalogue, o: Oracle) {
    forall src, run :: Agrees(run, c) && Observe(term, o, src, run).Success? ==>
      Agrees(Observe(term, o, src, run).value.run, c)
  }

  /** The loop of a sum of `n` terms keeps the run agreeing with the catalogue. */
  lemma {:induction false} TermsAgree(term: RV, c: Catalogue, o: Oracle, src: Source, run: Run, n: nat, acc: real)
    requires KeepsAgreement(term, c, o) && Agrees(run, c)
    ensures var r := SumTerms(term, o, src, run, n, acc);
      r.Success? ==> Agrees(r.value.run, c)
    decreases n
  {
    if n > 0 {
      var x := Observe(term, o, src, run);
      if x.Success? {
        TermsAgree(term, c, o, x.value.src, x.value.run, n - 1, acc + x.value.q.value);
      }
    }
  }

  /**
   * `ObservedUnit` for a persisted variable: a value already in the run
   * carries the catalogued unit, and a fresh one is its base's observation,
   * stored under the name with that same unit.
   */
  lemma {:induction false} PersistentUnit(v: RV, c: Catalogue, o: Oracle, src: Source, run: Run)
    requires v.Persistent? && WellFormed(v, c) && Agrees(run, c)
    ensures UnitOf(v).Success?
    ensures var r := Observe(v, o, src, run);
      r.Success? ==> r.value.q.unit == UnitOf(v).value && Agrees(r.value.run, c)
    decreases v, 0
  {
    ObservedUnit(v.base, c, o, src, run);
    if !HasValue(run, v.name) {
      var b := Observe(v.base, o, src, run);
      if b.Success? {
        var stored := Persist(b.value.run, v.name, b.value.q);
        if stored.Success? {
          assert stored.value.values == b.value.run.values[v.name := b.value.q];
        }
      }
    }
  }

  /** A well-formed sum fails only when one of its operands fails. */
  lemma WellFormedSumChecksPass(a: RV, b: RV, c: Catalogue, o: Oracle, src: Source, run: Run)
    requires WellFormed(Sum(a, b), c) && Agrees(run, c)
    ensures var x := Observe(a, o, src, run);
      Observe(Sum(a, b), o, src, run).Success? <==>
        x.Success? && Observe(b, o, x.value.src, x.value.run).Success?
  {
    ObservedUnit(a, c, o, src, run);
    var x := Observe(a, o, src, run);
    if x.Success? {
      ObservedUnit(b, c, o, x.value.src, x.value.run);
    }
  }
}

=== FILE: deals_laws.dfy ===
/**
 * Laws of the deals-over-time series. A year's value is the sum of the
 * sizes of the deals closed in that year plus the maintenance of the deals
 * closed in the preceding years that are still running. `Accrued` states
 * that sum directly; the lemmas below show that the evaluator's year-by-year
 * filling of the run reaches it, whatever order the years are asked for in.
 */
module DealsLaws {

  import opened Wrappers
  import opened Units
  import opened VarIds
  import opened Errors
  import opened Quantities
  import opened SimulationRuns
  import opened Variables
  import opened Evaluator
  import JavaNumbers
  import CombinatorLaws
  import SeriesLaws

  // ---------------------------------------------------------------------
  // The reference schedule
  // ---------------------------------------------------------------------

  /** The number of deals closed in a year whose count observed `c`: rounded, never negative. */
  function Trials(c: real): (n: nat)
    ensures c == c.Floor as real && 0 <= c.Floor <= JavaNumbers.MAX_LONG ==> n == c.Floor
  {
    var k := JavaNumbers.Round(c);
    if k > 0 then k else 0
  }

  /**
   * What the `n` deals closed in year `k` contribute to year `z`: their
   * sizes in year `k` itself, their maintenance in each of the `dur`
   * following years, nothing elsewhere.
   */
  function Share(n: nat, size: real, maint: real, dur: int, k: int, z: int): real {
    if z == k then CombinatorLaws.Multiple(n, size)
    else if k < z <= k + dur then CombinatorLaws.Multiple(n, maint)
    else 0.0
  }

  /** Year `z`'s total once the deals of the years before `upto` are in. */
  function Accrued(cs: seq<real>, size: real, maint: real, dur: int, upto: nat, z: int): real
    requires upto <= |cs|
  {
    if upto == 0 then 0.0
    else Accrued(cs, size, maint, dur, upto - 1, z) + Share(Trials(cs[upto - 1]), size, maint, dur, upto - 1, z)
  }

  /** Year `z`'s final total: every year up to and including `z` is in. */
  function Final(cs: seq<real>, size: real, maint: real, dur: int, z: int): real
    requires 0 <= z < |cs|
  {
    Accrued(cs, size, maint, dur, z + 1, z)
  }

  /** Deals closed after year `z` add nothing to it, so its total is final once year `z` is in. */
  lemma {:induction false} AccruedSettles(cs: seq<real>, size: real, maint: real, dur: int, upto: nat, z: int)
    requires 0 <= z < upto <= |cs|
    ensures Accrued(cs, size, maint, dur, upto, z) == Final(cs, size, maint, dur, z)
    decreases upto
  {
    if upto > z + 1 {
      AccruedSettles(cs, size, maint, dur, upto - 1, z);
    }
  }

  /** No deal is closed before year 0, so negative years never accrue anything. */
  lemma {:induction false} AccruedBeforeStart(cs: seq<real>, size: real, maint: real, dur: int, upto: nat, z: int)
    requires upto <= |cs| && z < 0
    ensures Accrued(cs, size, maint, dur, upto, z) == 0.0
    decreases upto
  {
    if upto > 0 {
      AccruedBeforeStart(cs, size, maint, dur, upto - 1, z);
    }
  }

  /**
   * The worked example of the deals series: counts 0, 1, 2, 0, 1, 1, deal
   * size 100, maintenance factor 0.11 for two years, giving totals
   * 0, 100, 211, 33, 122, 111.
   */
  lemma ExampleTotals()
    ensures var cs := [0.0, 1.0, 2.0, 0.0, 1.0, 1.0];
            var m := SeriesLaws.Mul(100.0, 0.11);
            var dur := JavaNumbers.Round(2.0);
            Final(cs, 100.0, m, dur, 0) == 0.0 && Final(cs, 100.0, m, dur, 1) == 100.0 &&
            Final(cs, 100.0, m, dur, 2) == 211.0 && Final(cs, 100.0, m, dur, 3) == 33.0 &&
            Final(cs, 100.0, m, dur, 4) == 122.0 && Final(cs, 100.0, m, dur, 5) == 111.0
  {
    var cs := [0.0, 1.0, 2.0, 0.0, 1.0, 1.0];
    assert Trials(0.0) == 0 && Trials(1.0) == 1 && Trials(2.0) == 2;
    assert JavaNumbers.Round(2.0) == 2;
    assert SeriesLaws.Mul(100.0, 0.11) == 11.0;
    assert CombinatorLaws.Multiple(1, 100.0) == 100.0;
    assert CombinatorLaws.Multiple(2, 100.0) == 200.0;
    assert CombinatorLaws.Multiple(1, 11.0) == 11.0;
    assert CombinatorLaws.Multiple(2, 11.0) == 22.0;
  }

  // ---------------------------------------------------------------------
  // The run's bookkeeping for one owner
  // ---------------------------------------------------------------------

  /** The running total the run holds for year `z`, zero before anything was added. */
  function Total(run: Run, owner: nat, z: int): real {
    if Unique(owner, z) in run.objects then run.objects[Unique(owner, z)].value else 0.0
  }

  /** Every running total of the owner is kept in the series' unit. */
  ghost predicate UnitsAgree(run: Run, owner: nat, u: Unit) {
    forall z :: Unique(owner, z) in run.objects ==> run.objects[Unique(owner, z)].unit == u
  }

  /** No year from `from` on has been persisted yet. */
  ghost predicate OpenFrom(run: Run, owner: nat, from: int) {
    forall z :: from <= z ==> !HasValue(run, Unique(owner, z))
  }

  /**
   * The run after exactly the years before `done` have been filled: running
   * totals as accrued, and those years' final totals persisted.
   */
  ghost predicate Filled(run: Run, owner: nat, u: Unit, cs: seq<real>, size: real, maint: real, dur: int, done: nat)
    requires done <= |cs|
  {
    UnitsAgree(run, owner, u) &&
    (forall z :: Total(run, owner, z) == Accrued(cs, size, maint, dur, done, z)) &&
    (forall z :: HasValue(run, Unique(owner, z)) <==> 0 <= z < done) &&
    (forall z :: 0 <= z < done ==> run.values[Unique(owner, z)] == Quantity(Final(cs, size, maint, dur, z), u))
  }

  /** A fresh run holds nothing for anybody: no year filled yet. */
  lemma FreshIsUnfilled(owner: nat, u: Unit, cs: seq<real>, size: real, maint: real, dur: int)
    ensures Filled(Fresh(), owner, u, cs, size, maint, dur, 0)
  {
    forall z ensures !HasObject(Fresh(), Unique(owner, z)) && !HasValue(Fresh(), Unique(owner, z)) {
    }
  }

  /**
   * The inputs of a deals year are settled in the run: the counts to the
   * scalars `cs`, the size to `qs`, the factor to the scalar `f` and the
   * duration to `qd`.
   */
  predicate Inputs(v: RV, cs: seq<real>, qs: Quantity, f: real, qd: Quantity, run: Run) {
    v.DealsYear? && |v.counts| == v.time + 1 && |v.counts| <= |cs| &&
    (forall k :: 0 <= k < |v.counts| ==> SeriesLaws.Settled(v.counts[k], Quantity(cs[k], Scalar()), run)) &&
    SeriesLaws.Settled(v.size, qs, run) &&
    SeriesLaws.Settled(v.factor, Quantity(f, Scalar()), run) &&
    SeriesLaws.Settled(v.duration, qd, run)
  }

  /** Settled inputs stay settled as the run grows. */
  lemma InputsExtend(v: RV, cs: seq<real>, qs: Quantity, f: real, qd: Quantity, run: Run, run': Run)
    requires Inputs(v, cs, qs, f, qd, run) && Extends(run, run')
    ensures Inputs(v, cs, qs, f, qd, run')
  {
  }

  // ---------------------------------------------------------------------
  // The bookkeeping of the deals, for a series of unit `u`
  // ---------------------------------------------------------------------

  /** `addToYear` for a series of unit `u`: the running total, zero if there is none, plus `x`. */
  function AddTo(run: Run, id: VarId, x: Quantity, u: Unit): Result<Run, Error> {
    var current := if HasObject(run, id) then run.objects[id] else Quantity(0.0, u);
    var sum :- Quantities.Plus(current, x);
    PersistObject(run, id, sum)
  }

  /** The maintenance loop: `x` added to each year `y + from` to `y + last`. */
  function AddFor(run: Run, owner: nat, y: int, from: int, last: int, x: Quantity, u: Unit): Result<Run, Error>
    decreases if from <= last then last - from + 1 else 0
  {
    if from > last then Success(run)
    else
      var r1 :- AddTo(run, Unique(owner, y + from), x, u);
      AddFor(r1, owner, y, from + 1, last, x, u)
  }

  /** One deal closed in year `y`: its size to year `y`, its maintenance to the `dur` years after. */
  function OneDeal(run: Run, owner: nat, y: int, size: Quantity, maint: Quantity, dur: int, u: Unit): Result<Run, Error> {
    var r1 :- AddTo(run, Unique(owner, y), size, u);
    AddFor(r1, owner, y, 1, dur, maint, u)
  }

  /** The evaluator's `addToYear` is `AddTo` in the series' unit. */
  lemma AddToYearIs(v: RV, run: Run, id: VarId, x: Quantity, u: Unit)
    requires v.DealsYear? && UnitOf(v) == Success(u)
    ensures AddToYear(v, run, id, x) == AddTo(run, id, x, u)
  {
    var current := YearTotal(v, run, id);
    assert current.Success? && current.value == (if HasObject(run, id) then run.objects[id] else Quantity(0.0, u));
  }

  /** The evaluator's maintenance loop is `AddFor` in the series' unit. */
  lemma {:induction false} AddMaintenanceIs(v: RV, run: Run, y: int, from: int, last: int, x: Quantity, u: Unit)
    requires v.DealsYear? && UnitOf(v) == Success(u)
    ensures AddMaintenance(v, run, y, from, last, x) == AddFor(run, v.owner, y, from, last, x, u)
    decreases if from <= last then last - from + 1 else 0
  {
    if from <= last {
      AddToYearIs(v, run, Unique(v.owner, y + from), x, u);
      var r1 := AddTo(run, Unique(v.owner, y + from), x, u);
      if r1.Success? {
        AddMaintenanceIs(v, r1.value, y, from + 1, last, x, u);
      }
    }
  }

  /** `AddTo` adds `x` to year `y`'s running total and to nothing else. */
  lemma AddToAdds(run: Run, owner: nat, y: int, x: Quantity, u: Unit)
    requires x.unit == u && UnitsAgree(run, owner, u) && !HasValue(run, Unique(owner, y))
    ensures var r := AddTo(run, Unique(owner, y), x, u);
            r.Success? && r.value.values == run.values && UnitsAgree(r.value, owner, u) &&
            forall z :: Total(r.value, owner, z) == Total(run, owner, z) + (if z == y then x.value else 0.0)
  {
    var id := Unique(owner, y);
    var sum := Quantity(Total(run, owner, y) + x.value, u);
    var stored := run.(objects := run.objects[id := sum]);
    assert AddTo(run, id, x, u) == Success(stored);
    forall z ensures Total(stored, owner, z) == Total(run, owner, z) + (if z == y then x.value else 0.0) {
    }
  }

  /** `AddFor` adds `x` to each year `y + from` to `y + last`. */
  lemma {:induction false} AddForAdds(run: Run, owner: nat, y: int, from: int, last: int, x: Quantity, u: Unit)
    requires x.unit == u && UnitsAgree(run, owner, u) && OpenFrom(run, owner, y + from)
    ensures var r := AddFor(run, owner, y, from, last, x, u);
            r.Success? && r.value.values == run.values && UnitsAgree(r.value, owner, u) &&
            forall z :: Total(r.value, owner, z) ==
              Total(run, owner, z) + (if y + from <= z <= y + last then x.value else 0.0)
    decreases if from <= last then last - from + 1 else 0
  {
    if from <= last {
      AddToAdds(run, owner, y + from, x, u);
      var r1 := AddTo(run, Unique(owner, y + from), x, u).value;
      AddForAdds(r1, owner, y, from + 1, last, x, u);
      var r := AddFor(r1, owner, y, from + 1, last, x, u);
      forall z ensures Total(r.value, owner, z) ==
                       Total(run, owner, z) + (if y + from <= z <= y + last then x.value else 0.0) {
        assert Total(r.value, owner, z) == Total(r1, owner, z) + (if y + from + 1 <= z <= y + last then x.value else 0.0);
        assert Total(r1, owner, z) == Total(run, owner, z) + (if z == y + from then x.value else 0.0);
      }
    }
  }

  /** The share of `n` deals is that of one deal plus that of the other `n - 1`. */
  lemma ShareSplit(n: nat, size: real, maint: real, dur: int, k: int, z: int)
    requires n > 0
    ensures Share(n, size, maint, dur, k, z) == Share(1, size, maint, dur, k, z) + Share(n - 1, size, maint, dur, k, z)
  {
    assert CombinatorLaws.Multiple(1, size) == size;
    assert CombinatorLaws.Multiple(1, maint) == maint;
  }

  /** Between runs `a` and `b` every total of the owner grew by the share of `n` deals closed in year `y`. */
  ghost predicate Grew(a: Run, b: Run, owner: nat, n: nat, size: real, maint: real, dur: int, y: int) {
    forall z :: Total(b, owner, z) == Total(a, owner, z) + Share(n, size, maint, dur, y, z)
  }

  /** Totals that grew by one deal's share and then by `n - 1` deals' shares grew by `n` deals' shares. */
  lemma AddShares(a: Run, b: Run, c: Run, owner: nat, n: nat, size: real, maint: real, dur: int, y: int)
    requires n > 0
    requires Grew(a, b, owner, 1, size, maint, dur, y)
    requires Grew(b, c, owner, n - 1, size, maint, dur, y)
    ensures Grew(a, c, owner, n, size, maint, dur, y)
  {
    forall z ensures Total(c, owner, z) == Total(a, owner, z) + Share(n, size, maint, dur, y, z) {
      ShareSplit(n, size, maint, dur, y, z);
    }
  }

  /** One deal adds its size to year `y` and its maintenance to the `dur` years after it. */
  lemma OneDealAdds(run: Run, owner: nat, y: int, size: Quantity, maint: Quantity, dur: int, u: Unit)
    requires size.unit == u && maint.unit == u
    requires UnitsAgree(run, owner, u) && OpenFrom(run, owner, y)
    ensures var r := OneDeal(run, owner, y, size, maint, dur, u);
            r.Success? && r.value.values == run.values && UnitsAgree(r.value, owner, u) &&
            Grew(run, r.value, owner, 1, size.value, maint.value, dur, y)
  {
    AddToAdds(run, owner, y, size, u);
    var r1 := AddTo(run, Unique(owner, y), size, u).value;
    AddForAdds(r1, owner, y, 1, dur, maint, u);
    var r := AddFor(r1, owner, y, 1, dur, maint, u).value;
    forall z ensures Total(r, owner, z) == Total(run, owner, z) + Share(1, size.value, maint.value, dur, y, z) {
      assert CombinatorLaws.Multiple(1, size.value) == size.value;
      assert CombinatorLaws.Multiple(1, maint.value) == maint.value;
    }
  }

  // ---------------------------------------------------------------------
  // The evaluator's deals follow the bookkeeping
  // ---------------------------------------------------------------------

  /** With settled inputs, a deal of the evaluator draws nothing and does the bookkeeping of `OneDeal`. */
  lemma DealStep(v: RV, o: Oracle, src: Source, run: Run, y: int, qs: Quantity, qf: Quantity, qd: Quantity, u: Unit)
    requires v.DealsYear? && UnitOf(v) == Success(u)
    requires SeriesLaws.Settled(v.size, qs, run) && SeriesLaws.Settled(v.factor, qf, run)
    requires SeriesLaws.Settled(v.duration, qd, run)
    requires OneDeal(run, v.owner, y, qs, Quantities.Times(qs, qf), JavaNumbers.Round(qd.value), u).Success?
    ensures var r2 := OneDeal(run, v.owner, y, qs, Quantities.Times(qs, qf), JavaNumbers.Round(qd.value), u).value;
            r2.values == run.values && Deal(v, o, src, run, y).Success? &&
            Deal(v, o, src, run, y).value.src == src && Deal(v, o, src, run, y).value.run == r2
  {
    SeriesLaws.SettledObserve(v.size, qs, o, src, run);
    SeriesLaws.SettledObserve(v.factor, qf, o, src, run);
    SeriesLaws.SettledObserve(v.duration, qd, o, src, run);
    var maint := Quantities.Times(qs, qf);
    var dur := JavaNumbers.Round(qd.value);
    AddToYearIs(v, run, Unique(v.owner, y), qs, u);
    var r1 := AddTo(run, Unique(v.owner, y), qs, u).value;
    AddMaintenanceIs(v, r1, y, 1, dur, maint, u);
    AddForKeepsValues(r1, v.owner, y, 1, dur, maint, u);
  }

  /** The maintenance loop touches the auxiliary objects only. */
  lemma {:induction false} AddForKeepsValues(run: Run, owner: nat, y: int, from: int, last: int, x: Quantity, u: Unit)
    ensures var r := AddFor(run, owner, y, from, last, x, u);
            r.Success? ==> r.value.values == run.values
    decreases if from <= last then last - from + 1 else 0
  {
    if from <= last {
      var r1 := AddTo(run, Unique(owner, y + from), x, u);
      if r1.Success? {
        AddForKeepsValues(r1.value, owner, y, from + 1, last, x, u);
      }
    }
  }

  /** A deal that draws nothing hands its run on to the remaining deals. */
  lemma DealsUnfold(v: RV, o: Oracle, src: Source, run: Run, y: int, n: nat, r2: Run)
    requires v.DealsYear? && n > 0
    requires Deal(v, o, src, run, y).Success?
    requires Deal(v, o, src, run, y).value.src == src && Deal(v, o, src, run, y).value.run == r2
    ensures Deals(v, o, src, run, y, n) == Deals(v, o, src, r2, y, n - 1)
  {
  }

  /** The bookkeeping of `n` deals closed in year `y`, one after the other. */
  function Book(run: Run, owner: nat, y: int, n: nat, size: Quantity, maint: Quantity, dur: int, u: Unit): Result<Run, Error>
    decreases n
  {
    if n == 0 then Success(run)
    else
      var r1 :- OneDeal(run, owner, y, size, maint, dur, u);
      Book(r1, owner, y, n - 1, size, maint, dur, u)
  }

  /**
   * The `n` deals of year `y` persist nothing and add their share to the
   * running totals: `n` sizes to year `y`, `n` maintenances to each of the
   * following `dur` years.
   */
  lemma {:induction false} BookAdds(run: Run, owner: nat, y: int, n: nat, size: Quantity, maint: Quantity, dur: int, u: Unit)
    requires size.unit == u && maint.unit == u
    requires UnitsAgree(run, owner, u) && OpenFrom(run, owner, y)
    ensures var r := Book(run, owner, y, n, size, maint, dur, u);
            r.Success? && r.value.values == run.values && UnitsAgree(r.value, owner, u) &&
            Grew(run, r.value, owner, n, size.value, maint.value, dur, y)
    decreases n
  {
    if n == 0 {
      forall z ensures Share(0, size.value, maint.value, dur, y, z) == 0.0 {
      }
    } else {
      OneDealAdds(run, owner, y, size, maint, dur, u);
      var r1 := OneDeal(run, owner, y, size, maint, dur, u).value;
      BookAdds(r1, owner, y, n - 1, size, maint, dur, u);
      var r := Book(r1, owner, y, n - 1, size, maint, dur, u).value;
      AddShares(run, r1, r, owner, n, size.value, maint.value, dur, y);
    }
  }

  /**
   * With settled inputs, the evaluator's `n` deals of year `y` draw nothing
   * and leave the run exactly as the bookkeeping does.
   */
  lemma {:induction false} DealsFollowBook(v: RV, o: Oracle, src: Source, run: Run, y: int, n: nat, qs: Quantity, qf: Quantity, qd: Quantity, u: Unit)
    requires v.DealsYear? && UnitOf(v) == Success(u)
    requires SeriesLaws.Settled(v.size, qs, run) && SeriesLaws.Settled(v.factor, qf, run)
    requires SeriesLaws.Settled(v.duration, qd, run)
    ensures var b := Book(run, v.owner, y, n, qs, Quantities.Times(qs, qf), JavaNumbers.Round(qd.value), u);
            b.Success? ==> Deals(v, o, src, run, y, n) == Success(Obs(Quantity(0.0, Scalar()), src, b.value))
    decreases n
  {
    var maint, dur := Quantities.Times(qs, qf), JavaNumbers.Round(qd.value);
    if n > 0 && OneDeal(run, v.owner, y, qs, maint, dur, u).Success? {
      var r2 := DealsHead(v, o, src, run, y, n, qs, qf, qd, u);
      DealsFollowBook(v, o, src, r2, y, n - 1, qs, qf, qd, u);
    }
  }

  /** The first of the evaluator's deals is the first deal of the bookkeeping; the rest start from its run. */
  lemma DealsHead(v: RV, o: Oracle, src: Source, run: Run, y: int, n: nat, qs: Quantity, qf: Quantity, qd: Quantity, u: Unit)
    returns (r2: Run)
    requires v.DealsYear? && UnitOf(v) == Success(u) && n > 0
    requires SeriesLaws.Settled(v.size, qs, run) && SeriesLaws.Settled(v.factor, qf, run)
    requires SeriesLaws.Settled(v.duration, qd, run)
    requires OneDeal(run, v.owner, y, qs, Quantities.Times(qs, qf), JavaNumbers.Round(qd.value), u).Success?
    ensures r2 == OneDeal(run, v.owner, y, qs, Quantities.Times(qs, qf), JavaNumbers.Round(qd.value), u).value
    ensures r2.values == run.values
    ensures Deals(v, o, src, run, y, n) == Deals(v, o, src, r2, y, n - 1)
    ensures Book(run, v.owner, y, n, qs, Quantities.Times(qs, qf), JavaNumbers.Round(qd.value), u) ==
            Book(r2, v.owner, y, n - 1, qs, Quantities.Times(qs, qf), JavaNumbers.Round(qd.value), u)
    ensures SeriesLaws.Settled(v.size, qs, r2) && SeriesLaws.Settled(v.factor, qf, r2)
    ensures SeriesLaws.Settled(v.duration, qd, r2)
  {
    DealStep(v, o, src, run, y, qs, qf, qd, u);
    r2 := OneDeal(run, v.owner, y, qs, Quantities.Times(qs, qf), JavaNumbers.Round(qd.value), u).value;
    DealsUnfold(v, o, src, run, y, n, r2);
  }

  // ---------------------------------------------------------------------
  // Filling the years
  // ---------------------------------------------------------------------

  /** `getForYear` on a run whose totals are kept in the series' unit. */
  lemma YearTotalIs(v: RV, run: Run, z: int, u: Unit)
    requires v.DealsYear? && UnitOf(v) == Success(u) && UnitsAgree(run, v.owner, u)
    ensures YearTotal(v, run, Unique(v.owner, z)) == Success(Quantity(Total(run, v.owner, z), u))
  {
  }

  /** Nothing from the first unfilled year on holds a value. */
  lemma FilledIsOpen(run: Run, owner: nat, u: Unit, cs: seq<real>, size: real, maint: real, dur: int, done: nat)
    requires done <= |cs| && Filled(run, owner, u, cs, size, maint, dur, done)
    ensures OpenFrom(run, owner, done)
  {
    forall z | done <= z ensures !HasValue(run, Unique(owner, z)) {
    }
  }

  /**
   * Persisting the final total of year `done` once its deals are in leaves
   * the run filled up to `done + 1`.
   */
  lemma YearFilled(run: Run, deals: Run, owner: nat, u: Unit, cs: seq<real>, size: real, maint: real, dur: int, done: nat)
    requires done < |cs| && Filled(run, owner, u, cs, size, maint, dur, done)
    requires deals.values == run.values && UnitsAgree(deals, owner, u)
    requires Grew(run, deals, owner, Trials(cs[done]), size, maint, dur, done)
    ensures var after := Persist(deals, Unique(owner, done), Quantity(Final(cs, size, maint, dur, done), u));
            after.Success? && Filled(after.value, owner, u, cs, size, maint, dur, done + 1)
  {
    var after := Persist(deals, Unique(owner, done), Quantity(Final(cs, size, maint, dur, done), u)).value;
    forall z ensures Total(after, owner, z) == Accrued(cs, size, maint, dur, done + 1, z) {
      assert Total(after, owner, z) == Total(deals, owner, z);
    }
    forall z ensures HasValue(after, Unique(owner, z)) <==> 0 <= z < done + 1 {
    }
  }

  /**
   * With settled inputs, filling the first unfilled year `done` draws nothing,
   * persists the year's final total and leaves the run filled up to `done + 1`.
   */
  lemma FillStep(v: RV, o: Oracle, src: Source, run: Run, cs: seq<real>, qs: Quantity, f: real, qd: Quantity, u: Unit, done: nat)
    returns (after: Run)
    requires Inputs(v, cs, qs, f, qd, run) && UnitOf(v) == Success(u) && qs.unit == u
    requires done < |v.counts|
    requires Filled(run, v.owner, u, cs, qs.value, SeriesLaws.Mul(qs.value, f), JavaNumbers.Round(qd.value), done)
    ensures FillYear(v, o, src, run, done) ==
            Success(Obs(Quantity(Final(cs, qs.value, SeriesLaws.Mul(qs.value, f), JavaNumbers.Round(qd.value), done), u), src, after))
    ensures Filled(after, v.owner, u, cs, qs.value, SeriesLaws.Mul(qs.value, f), JavaNumbers.Round(qd.value), done + 1)
    ensures Extends(run, after)
  {
    var size, maint, dur := qs.value, SeriesLaws.Mul(qs.value, f), JavaNumbers.Round(qd.value);
    var id := Unique(v.owner, done);
    SeriesLaws.SettledObserve(v.counts[done], Quantity(cs[done], Scalar()), o, src, run);
    var n := Trials(cs[done]);
    FilledIsOpen(run, v.owner, u, cs, size, maint, dur, done);
    var qf := Quantity(f, Scalar());
    SeriesLaws.TimesByScalar(qs, f);
    BookAdds(run, v.owner, done, n, qs, Quantities.Times(qs, qf), dur, u);
    DealsFollowBook(v, o, src, run, done, n, qs, qf, qd, u);
    var deals := Book(run, v.owner, done, n, qs, Quantities.Times(qs, qf), dur, u).value;
    YearFilled(run, deals, v.owner, u, cs, size, maint, dur, done);
    YearTotalIs(v, deals, done, u);
    var total := Quantity(Final(cs, size, maint, dur, done), u);
    assert Total(deals, v.owner, done) == Total(run, v.owner, done) + Share(n, size, maint, dur, done, done);
    after := Persist(deals, id, total).value;
    assert FillYear(v, o, src, run, done) == Success(Obs(total, src, after));
  }

  /** A year without a value whose pass succeeds without drawing hands its run on to the following years. */
  lemma FillYearsStep(v: RV, o: Oracle, src: Source, run: Run, year: int, next: Run)
    requires v.DealsYear? && 0 <= year <= v.time && !HasValue(run, Unique(v.owner, year))
    requires FillYear(v, o, src, run, year).Success?
    requires FillYear(v, o, src, run, year).value.src == src && FillYear(v, o, src, run, year).value.run == next
    ensures FillYears(v, o, src, run, year) == FillYears(v, o, src, next, year + 1)
  {
  }

  /** From the first unfilled year on, the year loop fills every year of the variable and draws nothing. */
  lemma {:induction false} FillFrom(v: RV, o: Oracle, src: Source, run: Run, cs: seq<real>, qs: Quantity, f: real, qd: Quantity, u: Unit, done: nat)
    returns (after: Run)
    requires Inputs(v, cs, qs, f, qd, run) && UnitOf(v) == Success(u) && qs.unit == u
    requires done <= |v.counts|
    requires Filled(run, v.owner, u, cs, qs.value, SeriesLaws.Mul(qs.value, f), JavaNumbers.Round(qd.value), done)
    ensures FillYears(v, o, src, run, done) == Success(Obs(Quantity(0.0, Scalar()), src, after))
    ensures Filled(after, v.owner, u, cs, qs.value, SeriesLaws.Mul(qs.value, f), JavaNumbers.Round(qd.value), |v.counts|)
    ensures Extends(run, after)
    decreases |v.counts| - done
  {
    if done == |v.counts| {
      after := run;
    } else {
      assert !HasValue(run, Unique(v.owner, done));
      var next := FillStep(v, o, src, run, cs, qs, f, qd, u, done);
      FillYearsStep(v, o, src, run, done, next);
      InputsExtend(v, cs, qs, f, qd, run, next);
      after := FillFrom(v, o, src, next, cs, qs, f, qd, u, done + 1);
    }
  }

  /** Years that hold a value are skipped: the loop started at `year` behaves as if started at `done`. */
  lemma {:induction false} FillSkip(v: RV, o: Oracle, src: Source, run: Run, year: int, done: int)
    requires v.DealsYear? && year <= done <= v.time + 1
    requires forall z :: year <= z < done ==> HasValue(run, Unique(v.owner, z))
    ensures FillYears(v, o, src, run, year) == FillYears(v, o, src, run, done)
    decreases done - year
  {
    if year < done {
      assert HasValue(run, Unique(v.owner, year));
      assert FillYears(v, o, src, run, year) == FillYears(v, o, src, run, year + 1);
      FillSkip(v, o, src, run, year + 1, done);
    }
  }

  /**
   * `observe` of a deals year: whichever years were filled before, the result
   * is the year's final total in the series' unit, no draw is made, and the
   * run ends filled at least up to the observed year.
   */
  lemma ObserveYear(v: RV, o: Oracle, src: Source, run: Run, cs: seq<real>, qs: Quantity, f: real, qd: Quantity, u: Unit, done: nat)
    returns (after: Run)
    requires Inputs(v, cs, qs, f, qd, run) && UnitOf(v) == Success(u) && qs.unit == u
    requires done <= |cs|
    requires Filled(run, v.owner, u, cs, qs.value, SeriesLaws.Mul(qs.value, f), JavaNumbers.Round(qd.value), done)
    ensures Observe(v, o, src, run) ==
            Success(Obs(Quantity(Final(cs, qs.value, SeriesLaws.Mul(qs.value, f), JavaNumbers.Round(qd.value), v.time), u), src, after))
    ensures Filled(after, v.owner, u, cs, qs.value, SeriesLaws.Mul(qs.value, f), JavaNumbers.Round(qd.value), if done <= v.time then v.time + 1 else done)
    ensures done > v.time ==> after == run
  {
    var me := Unique(v.owner, v.time);
    if done > v.time {
      after := run;
    } else {
      FillSkip(v, o, src, run, 0, done);
      after := FillFrom(v, o, src, run, cs, qs, f, qd, u, done);
    }
  }
}

=== FILE: distributions.dfy ===
/**
 * The factory functions of `Distributions`: parameter records with their
 * checks, the derivation of normal and log-normal parameters from a 90%
 * interval, and the standard distributions an unknown quantity may follow.
 */
module Distributions {

  import opened Wrappers
  import opened Units
  import opened Errors
  import opened Quantities
  import opened Variables
  import JavaNumbers

  /** The 95th percentile of the standard normal distribution, as the source writes it. */
  const Z95: real := 1.645

  /** An interval estimate: lower <= upper. */
  datatype Between = Between(lower: real, upper: real)

  /** A three-point estimate: lower <= mode <= upper. */
  datatype SingleMode = SingleMode(lower: real, mode: real, upper: real)

  function MakeBetween(lower: real, upper: real): (r: Result<Between, Error>)
    ensures r.Success? <==> lower <= upper
    ensures r.Success? ==> r.value.lower == lower && r.value.upper == upper
  {
    if lower <= upper then Success(Between(lower, upper))
    else Failure(AssertionFailed("lower <= upper"))
  }

  function MakeSingleMode(lower: real, mode: real, upper: real): (r: Result<SingleMode, Error>)
    ensures r.Success? <==> lower <= mode <= upper
    ensures r.Success? ==> r.value == SingleMode(lower, mode, upper)
  {
    if !(lower <= mode) then Failure(AssertionFailed("lower <= mode"))
    else if !(mode <= upper) then Failure(AssertionFailed("mode <= upper"))
    else Success(SingleMode(lower, mode, upper))
  }

  /**
   * `normal(lower95, upper95, unit)`: the normal distribution whose central
   * 90% interval is [lower95, upper95].
   */
  function Normal(lower95: real, upper95: real, unit: Unit): (r: Result<RV, Error>)
    ensures r.Success? <==> lower95 < upper95
    ensures r.Success? ==> r.value.External? && r.value.unit == unit && r.value.sampler.NormalSampler?
    ensures r.Success? ==> r.value.sampler.sd > 0.0
    ensures r.Success? ==> r.value.sampler.mean - Z95 * r.value.sampler.sd == lower95
    ensures r.Success? ==> r.value.sampler.mean + Z95 * r.value.sampler.sd == upper95
  {
    if !(lower95 < upper95) then Failure(AssertionFailed("lower95 < upper95"))
    else
      var mean := (lower95 + upper95) / 2.0;
      var sd := (upper95 - lower95) / Z95 / 2.0;
      Success(External(NormalSampler(mean, sd), unit))
  }

  /**
   * `logNormal(lower95, upper95, unit)`: the interval is mapped through the
   * natural logarithm `ln`; a lower bound of 0 maps to 0.
   */
  function LogNormal(lower95: real, upper95: real, unit: Unit, ln: real -> real): (r: Result<RV, Error>)
    ensures r.Success? <==> 0.0 <= lower95 < upper95
    ensures r.Success? ==> r.value.External? && r.value.unit == unit && r.value.sampler.LogNormalSampler?
    ensures r.Success? ==>
      var s := r.value.sampler;
      s.logMean - Z95 * s.logSd == (if lower95 > 0.0 then ln(lower95) else 0.0)
    ensures r.Success? ==> r.value.sampler.logMean + Z95 * r.value.sampler.logSd == ln(upper95)
  {
    if !(lower95 < upper95) then Failure(AssertionFailed("lower95 < upper95"))
    else if !(0.0 <= lower95) then Failure(AssertionFailed("0 <= lower95"))
    else
      var normalLower := if lower95 > 0.0 then ln(lower95) else 0.0;
      var normalUpper := ln(upper95);
      var mean := (normalLower + normalUpper) / 2.0;
      var sd := (normalUpper - normalLower) / Z95 / 2.0;
      Success(External(LogNormalSampler(mean, sd), unit))
  }

  /** `binom(count, prop, unit)`: a fixed count in the given unit. */
  function BinomOf(count: int, prop: RV, unit: Unit): (r: Result<RV, Error>)
    ensures r.Success? <==> UnitOf(prop) == Success(Scalar())
    ensures r.Success? ==> r.value == Binom(Fixed(Quantity(count as real, unit)), prop)
    ensures r.Success? ==> UnitOf(r.value) == Success(unit)
  {
    MakeBinom(Fixed(Quantity(count as real, unit)), prop)
  }

  /** The distributions an unknown quantity may follow, in declaration order. */
  datatype StdDist = NormalDist | LogNormalDist | ShiftedExpDist | InverseShiftedExpDist | BlockDist

  /** `StdDist.create(range, unit)`. */
  function Create(d: StdDist, range: Between, unit: Unit, ln: real -> real): (r: Result<RV, Error>)
    ensures r.Success? ==> UnitOf(r.value) == Success(unit)
    ensures d.NormalDist? ==> (r.Success? <==> range.lower < range.upper)
    ensures d.LogNormalDist? ==> (r.Success? <==> 0.0 <= range.lower < range.upper)
    ensures d.ShiftedExpDist? || d.InverseShiftedExpDist? || d.BlockDist? ==> r.Success?
    ensures d.BlockDist? ==> r == Success(Block(range.lower, range.upper, unit))
  {
    match d
    case NormalDist => Normal(range.lower, range.upper, unit)
    case LogNormalDist => LogNormal(range.lower, range.upper, unit, ln)
    case ShiftedExpDist => Success(External(ShiftedExpSampler(range.lower, range.upper, false), unit))
    case InverseShiftedExpDist => Success(External(ShiftedExpSampler(range.lower, range.upper, true), unit))
    case BlockDist => Success(Block(range.lower, range.upper, unit))
  }

  /**
   * `extrapolateFromSample(populationSize, sampleSize, positiveInSample, unit)`:
   * the beta-binomial posterior for the number of unseen positives. The
   * parameters are computed in 32-bit int arithmetic.
   */
  function ExtrapolateFromSample(populationSize: int, sampleSize: int, positiveInSample: int, unit: Unit): (r: Result<RV, Error>)
    requires JavaNumbers.IsInt32(populationSize) && JavaNumbers.IsInt32(sampleSize) && JavaNumbers.IsInt32(positiveInSample)
    ensures r.Success? <==> 0 <= positiveInSample <= sampleSize <= populationSize
    ensures r.Success? ==> r.value.External? && r.value.unit == unit && r.value.sampler.BetaBinomialSampler?
    ensures r.Success? ==> r.value.sampler.trials == populationSize - sampleSize >= 0
    ensures r.Success? ==> r.value.sampler.shift == positiveInSample
    ensures r.Success? && sampleSize < JavaNumbers.MAX_INT ==>
      && r.value.sampler.alpha >= 1.0 && r.value.sampler.beta >= 1.0
      && r.value.sampler.alpha + r.value.sampler.beta == (sampleSize + 2) as real
  {
    if !(sampleSize <= populationSize) then Failure(AssertionFailed("sampleSize <= populationSize"))
    else if !(positiveInSample <= sampleSize) then Failure(AssertionFailed("positiveInSample <= sampleSize"))
    else if !(positiveInSample >= 0) then Failure(AssertionFailed("positiveInSample >= 0"))
    else
      var n := JavaNumbers.Wrap32(populationSize - sampleSize);
      var a := JavaNumbers.Wrap32(1 + positiveInSample);
      var b := JavaNumbers.Wrap32(JavaNumbers.Wrap32(1 + sampleSize) - positiveInSample);
      Success(External(BetaBinomialSampler(n, a as real, b as real, positiveInSample), unit))
  }
}

=== FILE: errors.dfy ===
/** The exceptions and failed assertions of the engine, as values. */
module Errors {

  import opened VarIds
  import opened Units

  datatype Error =
    | IncompatibleUnits(left: Unit, right: Unit)   // AssertionError / IllegalArgumentException on a unit mismatch
    | DivisionByZero                                // a zero divisor, which Java turns into an infinity or NaN
    | NotPersisted(id: VarId)                       // a run has no value or object under the name
    | AlreadyPersisted(id: VarId)                   // a second write of a value name within one run
    | AssertionFailed(what: string)                 // a failed Java `assert`
    | IndexOutOfRange(index: int, length: int)      // ArrayIndexOutOfBoundsException
    | NegativeSize(size: int)                       // NegativeArraySizeException
    | NoBestChoice                                  // no entry had a mean above minus infinity, so the choice is null
    | Missing(key: VarId)                           // a map lookup that yields null, dereferenced
    | NoDefinition(id: VarId)                       // IllegalStateException: the model does not define the id
    | AlreadyContained(id: VarId)                   // IllegalStateException: a second registration of the id
    | NoObjectDefinition(objectName: string)        // IllegalStateException: the model defines no object of the name
    | ObjectAlreadyContained(objectName: string)    // IllegalStateException: a second registration of the object name
    | Cyclic(id: VarId)                             // resolving the id needs the id itself
    | ProblemWith(name: VarId, cause: Error)        // RuntimeException("problem with " + name) around a cause
}

=== FILE: evaluator.dfy ===
/**
 * `observe`: one draw of a random variable from a random source within a
 * simulation run. The source position and the run are threaded through and
 * returned with the drawn quantity.
 */
module Evaluator {

  import opened Wrappers
  import opened Units
  import opened VarIds
  import opened Errors
  import opened Quantities
  import opened SimulationRuns
  import opened Variables
  import JavaNumbers

  datatype Obs = Obs(q: Quantity, src: Source, run: Run)

  /** Persisted values are never changed or removed; objects may be. */
  ghost predicate Extends(a: Run, b: Run) {
    forall k :: k in a.values ==> k in b.values && b.values[k] == a.values[k]
  }

  /** The result of an observation: draws only move forward and the run only grows. */
  ghost predicate Follows(src: Source, run: Run, r: Result<Obs, Error>) {
    r.Success? ==> Advances(src, r.value.src) && Extends(run, r.value.run)
  }

  /** The number of the first `n` uniform draws from `src` that fall below `p`. */
  function Successes(o: Oracle, src: Source, n: nat, p: real): (k: nat)
    ensures k <= n
  {
    if n == 0 then 0
    else Successes(o, src, n - 1, p) + (if Uniform(o, Skip(src, n - 1)) < p then 1 else 0)
  }

  function Clamp(q: Quantity, lower: Option<real>, upper: Option<real>): (r: Quantity)
    ensures r.unit == q.unit
    ensures lower.Some? && q.value < lower.value ==> r.value == lower.value
    ensures (lower.None? || q.value >= lower.value) && upper.Some? && q.value > upper.value ==> r.value == upper.value
    ensures (lower.None? || q.value >= lower.value) && (upper.None? || q.value <= upper.value) ==> r == q
  {
    if lower.Some? && q.value < lower.value then Quantity(lower.value, q.unit)
    else if upper.Some? && q.value > upper.value then Quantity(upper.value, q.unit)
    else q
  }

  /** The value of the block distribution for segment draw `t` and position draw `u`. */
  function BlockValue(lower: real, upper: real, t: real, u: real): real {
    BlockAt(lower, upper, t, Offset(upper - lower, u))
  }

  /** The offset `diff * u` into a segment of width `diff`. */
  function Offset(diff: real, u: real): real {
    diff * u
  }

  /** The block value for segment draw `t` at offset `w` into the chosen segment. */
  function BlockAt(lower: real, upper: real, t: real, w: real): real {
    var diff := upper - lower;
    if t < 0.05 then lower - diff + w
    else if t < 0.95 then lower + w
    else upper + w
  }

  /**
   * One draw of `v`. Variables without operands are drawn here; each
   * combinator has its own function below, as each has its own class.
   */
  function Observe(v: RV, o: Oracle, src: Source, run: Run): (r: Result<Obs, Error>)
    ensures Follows(src, run, r)
    decreases v, 2, 0
  {
    match v
    case Fixed(q) => Success(Obs(q, src, run))
    case External(s, unit) =>
      Success(Obs(Quantity(o.sample(s, src.stream, src.pos), unit), Skip(src, 1), run))
    case Empirical(unit, values) =>
      if |values| == 0 then Failure(AssertionFailed("nextInt bound must be positive"))
      else
        var k := o.integer(src.stream, src.pos, |values|);
        if 0 <= k < |values| then Success(Obs(Quantity(values[k], unit), Skip(src, 1), run))
        else Failure(IndexOutOfRange(k, |values|))
    case Block(lower, upper, unit) =>
      var t := Uniform(o, src);
      var u := Uniform(o, Skip(src, 1));
      Success(Obs(Quantity(BlockValue(lower, upper, t, u), unit), Skip(src, 2), run))
    case Binom(_, _) => ObserveBinom(v, o, src, run)
    case Conditional(_, _, _) => ObserveConditional(v, o, src, run)
    case CondValue(p, q1, q2) =>
      Success(Obs(if Uniform(o, src) < p then q1 else q2, Skip(src, 1), run))
    case Uncertain(_, _) => ObserveUncertain(v, o, src, run)
    case Sum(_, _) => ObserveSum(v, o, src, run)
    case Difference(_, _) => ObserveDifference(v, o, src, run)
    case Product(_, _) => ObserveProduct(v, o, src, run)
    case Quotient(_, _) => ObserveQuotient(v, o, src, run)
    case SumOfN(_, _) => ObserveSumOfN(v, o, src, run)
    case RangeBound(_, _, _) => ObserveRangeBound(v, o, src, run)
    case Persistent(_, _) => ObservePersistent(v, o, src, run)
    case DealsYear(_, _, _, _, _, _) => ObserveDealsYear(v, o, src, run)
  }

  /** `RandomVariableBinom`: the count, then the probability, then one uniform draw per trial. */
  function ObserveBinom(v: RV, o: Oracle, src: Source, run: Run): (r: Result<Obs, Error>)
    requires v.Binom?
    ensures Follows(src, run, r)
    decreases v, 1, 0
  {
    var c :- Observe(v.count, o, src, run);
    var p :- Observe(v.prob, o, c.src, c.run);
    var unit :- UnitOf(v.count);
    var n := JavaNumbers.Round(c.q.value);
    var trials: nat := if n > 0 then n else 0;
    Success(Obs(Quantity(Successes(o, p.src, trials, p.q.value) as real, unit), Skip(p.src, trials), p.run))
  }

  /** `ConditionalDistribution`: a uniform draw, then the probability, then one of the branches. */
  function ObserveConditional(v: RV, o: Oracle, src: Source, run: Run): (r: Result<Obs, Error>)
    requires v.Conditional?
    ensures Follows(src, run, r)
    decreases v, 1, 0
  {
    var t := Uniform(o, src);
    var p :- Observe(v.prob, o, Skip(src, 1), run);
    if t < p.q.value then Observe(v.v1, o, p.src, p.run) else Observe(v.v2, o, p.src, p.run)
  }

  /** `UncertainDistribution`: the index, rounded, picks the candidate to observe. */
  function ObserveUncertain(v: RV, o: Oracle, src: Source, run: Run): (r: Result<Obs, Error>)
    requires v.Uncertain?
    ensures Follows(src, run, r)
    decreases v, 1, 0
  {
    var i :- Observe(v.index, o, src, run);
    var k := JavaNumbers.RoundToInt(i.q.value);
    if 0 <= k < |v.dists| then Observe(v.dists[k], o, i.src, i.run)
    else Failure(IndexOutOfRange(k, |v.dists|))
  }

  /** `RandomVariableSum`: the left operand, then the right one, added. */
  function ObserveSum(v: RV, o: Oracle, src: Source, run: Run): (r: Result<Obs, Error>)
    requires v.Sum?
    ensures Follows(src, run, r)
    decreases v, 1, 0
  {
    var x :- Observe(v.left, o, src, run);
    var y :- Observe(v.right, o, x.src, x.run);
    var s :- Quantities.Plus(x.q, y.q);
    Success(Obs(s, y.src, y.run))
  }

  /** The difference: the left operand, then the right one, subtracted. */
  function ObserveDifference(v: RV, o: Oracle, src: Source, run: Run): (r: Result<Obs, Error>)
    requires v.Difference?
    ensures Follows(src, run, r)
    decreases v, 1, 0
  {
    var x :- Observe(v.left, o, src, run);
    var y :- Observe(v.right, o, x.src, x.run);
    var s :- Quantities.Minus(x.q, y.q);
    Success(Obs(s, y.src, y.run))
  }

  /** `RandomVariableProduct`: the left operand, then the right one, multiplied. */
  function ObserveProduct(v: RV, o: Oracle, src: Source, run: Run): (r: Result<Obs, Error>)
    requires v.Product?
    ensures Follows(src, run, r)
    decreases v, 1, 0
  {
    var x :- Observe(v.left, o, src, run);
    var y :- Observe(v.right, o, x.src, x.run);
    Success(Obs(Quantities.Times(x.q, y.q), y.src, y.run))
  }

  /** The quotient: the left operand, then the right one, divided. */
  function ObserveQuotient(v: RV, o: Oracle, src: Source, run: Run): (r: Result<Obs, Error>)
    requires v.Quotient?
    ensures Follows(src, run, r)
    decreases v, 1, 0
  {
    var x :- Observe(v.left, o, src, run);
    var y :- Observe(v.right, o, x.src, x.run);
    var s :- Quantities.Div(x.q, y.q);
    Success(Obs(s, y.src, y.run))
  }

  /** `RandomVariableSumOfN`: the count, rounded, then that many terms, in the variable's unit. */
  function ObserveSumOfN(v: RV, o: Oracle, src: Source, run: Run): (r: Result<Obs, Error>)
    requires v.SumOfN?
    ensures Follows(src, run, r)
    decreases v, 1, 0
  {
    var c :- Observe(v.count, o, src, run);
    var n := JavaNumbers.Round(c.q.value);
    var s :- SumTerms(v.term, o, c.src, c.run, if n > 0 then n else 0, 0.0);
    var unit :- UnitOf(v);
    Success(Obs(Quantity(s.q.value, unit), s.src, s.run))
  }

  /** `RangeBoundedVariable`: the base, clamped to the bounds. */
  function ObserveRangeBound(v: RV, o: Oracle, src: Source, run: Run): (r: Result<Obs, Error>)
    requires v.RangeBound?
    ensures Follows(src, run, r)
    decreases v, 1, 0
  {
    var x :- Observe(v.base, o, src, run);
    Success(Obs(Clamp(x.q, v.lowerBound, v.upperBound), x.src, x.run))
  }

  /**
   * `PersistentRandomVariable`: the value the run holds for the name, or
   * else the base's observation, stored under the name.
   */
  function ObservePersistent(v: RV, o: Oracle, src: Source, run: Run): (r: Result<Obs, Error>)
    requires v.Persistent?
    ensures Follows(src, run, r)
    decreases v, 1, 0
  {
    if HasValue(run, v.name) then Success(Obs(run.values[v.name], src, run))
    else
      var b := Observe(v.base, o, src, run);
      if b.Failure? then Failure(ProblemWith(v.name, b.error))
      else
        var stored := Persist(b.value.run, v.name, b.value.q);
        if stored.Failure? then Failure(ProblemWith(v.name, stored.error))
        else Success(Obs(b.value.q, b.value.src, stored.value))
  }

  /** `DealsOverTime.getForYear`: the year's persisted total, filling the years up to it first if needed. */
  function ObserveDealsYear(v: RV, o: Oracle, src: Source, run: Run): (r: Result<Obs, Error>)
    requires v.DealsYear?
    ensures Follows(src, run, r)
    decreases v, 1, if v.time >= 0 then v.time + 2 else 1
  {
    var me := Unique(v.owner, v.time);
    var filled :- if HasValue(run, me) then Success(Obs(Quantity(0.0, Scalar()), src, run))
                  else FillYears(v, o, src, run, 0);
    var q :- GetValue(filled.run, me);
    Success(Obs(q, filled.src, filled.run))
  }

  /**
   * The loop of RandomVariableSumOfN: `n` further observations of `term`,
   * their numbers added to `acc`. The result's quantity is the scalar sum.
   */
  function SumTerms(term: RV, o: Oracle, src: Source, run: Run, n: nat, acc: real): (r: Result<Obs, Error>)
    ensures Follows(src, run, r)
    decreases term, 3, n
  {
    if n == 0 then Success(Obs(Quantity(acc, Scalar()), src, run))
    else
      var x :- Observe(term, o, src, run);
      SumTerms(term, o, x.src, x.run, n - 1, acc + x.q.value)
  }

  /**
   * `fillValuesUntilMyself`: simulates the years from `year` to the variable's
   * own time, skipping years that already hold a value, and persists each
   * year's total once all its deals are in.
   */
  function FillYears(v: RV, o: Oracle, src: Source, run: Run, year: int): (r: Result<Obs, Error>)
    requires v.DealsYear?
    ensures Follows(src, run, r)
    decreases v, 1, if year <= v.time then v.time - year + 1 else 0
  {
    if year > v.time then Success(Obs(Quantity(0.0, Scalar()), src, run))
    else if HasValue(run, Unique(v.owner, year)) then FillYears(v, o, src, run, year + 1)
    else
      var f :- FillYear(v, o, src, run, year);
      FillYears(v, o, f.src, f.run, year + 1)
  }

  /**
   * One pass of the year loop for a year without a value: observes the
   * year's deal count, simulates that many deals and persists the year's
   * total, which is the result's quantity.
   */
  function FillYear(v: RV, o: Oracle, src: Source, run: Run, year: int): (r: Result<Obs, Error>)
    requires v.DealsYear?
    ensures Follows(src, run, r)
    decreases v, 1, 0
  {
    if year < 0 || year >= |v.counts| then Failure(IndexOutOfRange(year, |v.counts|))
    else
      var id := Unique(v.owner, year);
      var c :- Observe(v.counts[year], o, src, run);
      var n := JavaNumbers.Round(c.q.value);
      var d :- Deals(v, o, c.src, c.run, year, if n > 0 then n else 0);
      var total :- YearTotal(v, d.run, id);
      var persisted :- Persist(d.run, id, total);
      Success(Obs(total, d.src, persisted))
  }

  /** The inner loop over the deals of one year: `n` deals in sequence. */
  function Deals(v: RV, o: Oracle, src: Source, run: Run, year: int, n: nat): (r: Result<Obs, Error>)
    requires v.DealsYear?
    ensures Follows(src, run, r)
    decreases v, 0, n
  {
    if n == 0 then Success(Obs(Quantity(0.0, Scalar()), src, run))
    else
      var d :- Deal(v, o, src, run, year);
      Deals(v, o, d.src, d.run, year, n - 1)
  }

  /**
   * One deal: observes its size, maintenance factor and duration, adds the
   * size to its own year and the maintenance (size times factor) to each of
   * the following `duration` years.
   */
  function Deal(v: RV, o: Oracle, src: Source, run: Run, year: int): (r: Result<Obs, Error>)
    requires v.DealsYear?
    ensures Follows(src, run, r)
    decreases v, 0, 0
  {
    var s :- Observe(v.size, o, src, run);
    var f :- Observe(v.factor, o, s.src, s.run);
    var maintenance := Quantities.Times(s.q, f.q);
    var d :- Observe(v.duration, o, f.src, f.run);
    var years := JavaNumbers.Round(d.q.value);
    var r1 :- AddToYear(v, d.run, Unique(v.owner, year), s.q);
    var r2 :- AddMaintenance(v, r1, year, 1, years, maintenance);
    Success(Obs(s.q, d.src, r2))
  }

  /** Adds `x` to every year `year + i` for `i` from `from` up to `last`. */
  function AddMaintenance(v: RV, run: Run, year: int, from: int, last: int, x: Quantity): (r: Result<Run, Error>)
    requires v.DealsYear?
    ensures r.Success? ==> Extends(run, r.value)
    decreases if from <= last then last - from + 1 else 0
  {
    if from > last then Success(run)
    else
      var r1 :- AddToYear(v, run, Unique(v.owner, year + from), x);
      AddMaintenance(v, r1, year, from + 1, last, x)
  }

  /** `addToYear`: the year's running total plus `x`, stored as the year's object. */
  function AddToYear(v: RV, run: Run, id: VarId, x: Quantity): (r: Result<Run, Error>)
    requires v.DealsYear?
    ensures r.Success? ==> Extends(run, r.value) && r.value.values == run.values
    ensures r.Success? ==> HasObject(r.value, id)
  {
    var current :- YearTotal(v, run, id);
    var sum :- Quantities.Plus(current, x);
    PersistObject(run, id, sum)
  }

  /** `getForYear`: the year's running total, zero in the series' unit before anything was added. */
  function YearTotal(v: RV, run: Run, id: VarId): (r: Result<Quantity, Error>)
    requires v.DealsYear?
    ensures HasObject(run, id) ==> r == GetObject(run, id)
    ensures !HasObject(run, id) ==> r.Success? == UnitOf(v).Success?
    ensures !HasObject(run, id) && r.Success? ==> r.value == Quantity(0.0, UnitOf(v).value)
  {
    if HasObject(run, id) then GetObject(run, id)
    else
      var unit :- UnitOf(v);
      Success(Quantity(0.0, unit))
  }
}

=== FILE: means.dfy ===
/** A running mean: a sum and a count, combined by adding both. */
module Means {

  import opened Wrappers

  datatype Mean = Mean(sum: real, count: int)

  /** Left-to-right sum, as the loop in `Mean.of` accumulates it. */
  function Sum(xs: seq<real>): real {
    if |xs| == 0 then 0.0 else Sum(xs[..|xs| - 1]) + xs[|xs| - 1]
  }

  function Of(xs: seq<real>): (m: Mean)
    ensures m.count == |xs|
    ensures m.sum == Sum(xs)
  {
    Mean(Sum(xs), |xs|)
  }

  function Undefined(): (m: Mean)
    ensures m.sum == 0.0 && m.count == 0
  {
    Mean(0.0, 0)
  }

  /** `sum / count`; the empty mean (0/0, NaN in Java) has no value. */
  function Get(m: Mean): (r: Option<real>)
    ensures r.Some? <==> m.count != 0
    ensures r.Some? ==> r.value * (m.count as real) == m.sum
  {
    if m.count == 0 then None else Some(m.sum / m.count as real)
  }

  function Add(a: Mean, b: Mean): (m: Mean)
    ensures m.sum == a.sum + b.sum && m.count == a.count + b.count
  {
    Mean(a.sum + b.sum, a.count + b.count)
  }

  function AddRaw(a: Mean, sum: real, count: int): (m: Mean)
    ensures m == Add(a, Mean(sum, count))
  {
    Mean(a.sum + sum, a.count + count)
  }

  lemma {:induction false} SumConcat(a: seq<real>, b: seq<real>)
    ensures Sum(a + b) == Sum(a) + Sum(b)
    decreases |b|
  {
    if |b| == 0 {
      assert a + b == a;
    } else {
      assert (a + b)[..|a + b| - 1] == a + b[..|b| - 1];
      SumConcat(a, b[..|b| - 1]);
    }
  }

  /** The mean of a concatenation is the combination of the two means. */
  lemma OfConcat(a: seq<real>, b: seq<real>)
    ensures Of(a + b) == Add(Of(a), Of(b))
  {
    SumConcat(a, b);
  }

  lemma AddLaws(a: Mean, b: Mean, c: Mean)
    ensures Add(Undefined(), a) == a && Add(a, Undefined()) == a
    ensures Add(a, b) == Add(b, a)
    ensures Add(Add(a, b), c) == Add(a, Add(b, c))
  {
  }

  /** Every element non-negative makes the sum non-negative. */
  lemma {:induction false} SumNonNegative(xs: seq<real>)
    requires forall i :: 0 <= i < |xs| ==> xs[i] >= 0.0
    ensures Sum(xs) >= 0.0
    decreases |xs|
  {
    if |xs| > 0 {
      SumNonNegative(xs[..|xs| - 1]);
    }
  }

  /** The sum does not depend on the order of the elements. */
  lemma {:induction false} SumPermutation(xs: seq<real>, ys: seq<real>)
    requires multiset(xs) == multiset(ys)
    ensures Sum(xs) == Sum(ys)
    decreases |xs|
  {
    if |xs| > 0 {
      var last := xs[|xs| - 1];
      assert last in multiset(ys);
      var j :| 0 <= j < |ys| && ys[j] == last;
      var rest := ys[..j] + ys[j + 1..];
      assert ys == ys[..j] + [last] + ys[j + 1..];
      assert xs == xs[..|xs| - 1] + [last];
      assert multiset(xs) == multiset(xs[..|xs| - 1]) + multiset{last};
      assert multiset(ys) == multiset(ys[..j]) + multiset{last} + multiset(ys[j + 1..]);
      assert multiset(rest) == multiset(ys[..j]) + multiset(ys[j + 1..]);
      assert multiset(xs[..|xs| - 1]) + multiset{last} == multiset(rest) + multiset{last};
      assert multiset(xs[..|xs| - 1]) == multiset(xs[..|xs| - 1]) + multiset{last} - multiset{last};
      assert multiset(rest) == multiset(rest) + multiset{last} - multiset{last};
      SumPermutation(xs[..|xs| - 1], rest);
      SumConcat(ys[..j] + [last], ys[j + 1..]);
      SumConcat(ys[..j], [last]);
      SumConcat(ys[..j], ys[j + 1..]);
      assert [last][..0] == [];
    }
  }
}

=== FILE: model_laws.dfy ===
/** Registration and lazy resolution laws of `Model` and `Model.Instance`. */
module ModelLaws {

  import opened Wrappers
  import opened VarIds
  import opened Errors
  import opened Variables
  import opened Models
  import Units
  import Quantities

  /**
   * Once resolved, an id keeps its variable: every later `get` on the same
   * or a grown instance returns that very variable and changes nothing.
   */
  lemma GetStable(m: Model, inst: Instance, name: VarId, visiting: set<VarId>, later: Instance, visiting': set<VarId>)
    requires Get(m, inst, name, visiting).Success?
    requires Grows(Get(m, inst, name, visiting).value.inst, later)
    ensures Get(m, later, name, visiting') == Success(Resolved(Get(m, inst, name, visiting).value.v, later))
  {
  }

  /**
   * Resolving an unresolved id runs its producer once; the producer cannot
   * have stored the id itself, so the produced variable is the one remembered.
   */
  lemma GetStoresProduced(m: Model, inst: Instance, name: VarId, visiting: set<VarId>)
    requires name !in inst.vars && name in m.defs && name !in visiting
    requires Produce(m, inst, m.defs[name], visiting + {name}).Success?
    ensures var p := Produce(m, inst, m.defs[name], visiting + {name}).value;
      && name !in p.inst.vars
      && Get(m, inst, name, visiting) == Success(Resolved(p.v, p.inst.(vars := p.inst.vars[name := p.v])))
  {
  }

  /** An id registered with `add` always resolves to a persistent variable of that name. */
  lemma AddedIsPersistent(m: Model, name: VarId, p: Producer, inst: Instance)
    requires Add(m, name, p).Success?
    requires name !in inst.vars
    requires Get(Add(m, name, p).value, inst, name, {}).Success?
    ensures var v := Get(Add(m, name, p).value, inst, name, {}).value.v;
      v.Persistent? && v.name == name
  {
    var m' := Add(m, name, p).value;
    var none: set<VarId> := {};
    var x := Produce(m', inst, Ensured(name, p), none + {name});
    assert Get(m', inst, name, none).Success? ==> x.Success?;
  }

  /** No model defines anything a fresh instance could resolve without a definition. */
  lemma UndefinedFails(m: Model, name: VarId)
    requires name !in m.defs
    ensures Get(m, Instantiate(), name, {}) == Failure(NoDefinition(name))
  {
  }

  /** An id whose producer needs the id itself fails instead of recursing. */
  lemma SelfReferenceFails(name: VarId)
    ensures var m := Model(map[name := SeriesAt(Concrete(NONE, [name]), 0)], [name], map[], []);
      Get(m, Instantiate(), name, {}) == Failure(Cyclic(name))
  {
    var m := Model(map[name := SeriesAt(Concrete(NONE, [name]), 0)], [name], map[], []);
    var none: set<VarId> := {};
    var series := Concrete(NONE, [name]);
    assert Get(m, Instantiate(), name, none + {name}) == Failure(Cyclic(name));
    assert GetFor(m, Instantiate(), series, 0, none + {name}) == Failure(Cyclic(name));
    assert Produce(m, Instantiate(), SeriesAt(series, 0), none + {name}) == Failure(Cyclic(name));
  }

  /**
   * Registering a factory's entries succeeds exactly when their ids are
   * pairwise distinct and none is registered yet.
   */
  lemma {:induction false} AddAllRawSucceeds(m: Model, entries: seq<(VarId, Producer)>)
    ensures AddAllRaw(m, entries).Success? <==>
      Distinct(Ids(entries)) && forall i :: 0 <= i < |entries| ==> entries[i].0 !in m.defs
    decreases |entries|
  {
    if |entries| > 0 {
      var ids := Ids(entries);
      var rest := entries[1..];
      assert Ids(rest) == ids[1..];
      assert ids == [ids[0]] + ids[1..];
      DistinctCons(ids[0], ids[1..]);
      if entries[0].0 !in m.defs {
        var m1 := AddRaw(m, entries[0].0, entries[0].1).value;
        AddAllRawSucceeds(m1, rest);
        FreshAfterFirst(m, m1, entries);
      }
    }
  }

  /**
   * Once the first entry is registered, the others are all new exactly when
   * none was registered before and none repeats the first id.
   */
  lemma FreshAfterFirst(m: Model, m1: Model, entries: seq<(VarId, Producer)>)
    requires |entries| > 0 && AddRaw(m, entries[0].0, entries[0].1) == Success(m1)
    ensures (forall i :: 0 <= i < |entries[1..]| ==> entries[1..][i].0 !in m1.defs) <==>
      (forall i :: 0 <= i < |entries| ==> entries[i].0 !in m.defs) &&
      (forall k :: 0 <= k < |Ids(entries)[1..]| ==> Ids(entries)[1..][k] != Ids(entries)[0])
  {
    var ids := Ids(entries);
    var rest := entries[1..];
    if forall i :: 0 <= i < |rest| ==> rest[i].0 !in m1.defs {
      forall i | 0 <= i < |entries| ensures entries[i].0 !in m.defs {
        if i > 0 {
          assert rest[i - 1].0 == entries[i].0;
        }
      }
      forall k | 0 <= k < |ids[1..]| ensures ids[1..][k] != ids[0] {
        assert ids[1..][k] == rest[k].0;
      }
    }
    if (forall i :: 0 <= i < |entries| ==> entries[i].0 !in m.defs) &&
       (forall k :: 0 <= k < |ids[1..]| ==> ids[1..][k] != ids[0]) {
      forall i | 0 <= i < |rest| ensures rest[i].0 !in m1.defs {
        assert rest[i].0 == entries[i + 1].0 == ids[1..][i];
      }
    }
  }

  /**
   * A producer lambda whose ids are all resolved already consults no
   * definition: it yields the same variable whatever the model and the ids
   * being visited, and leaves the instance as it is.
   */
  lemma {:induction false} BuildMemo(m: Model, m': Model, inst: Instance, rc: Recipe, visiting: set<VarId>, visiting': set<VarId>)
    requires forall id :: id in Refs(rc) ==> id in inst.vars
    ensures Build(m, inst, rc, visiting) == Build(m', inst, rc, visiting')
    ensures Build(m, inst, rc, visiting).Success? ==> Build(m, inst, rc, visiting).value.inst == inst
    decreases rc
  {
    match rc
    case RefTo(_) =>
    case Given(_) =>
    case Op(_, a, b) =>
      BuildMemo(m, m', inst, a, visiting, visiting');
      BuildMemo(m, m', inst, b, visiting, visiting');
    case CountSum(a, b) =>
      BuildMemo(m, m', inst, a, visiting, visiting');
      BuildMemo(m, m', inst, b, visiting, visiting');
    case Clamped(a, _, _) =>
      BuildMemo(m, m', inst, a, visiting, visiting');
    case Either(p, a, b) =>
      BuildMemo(m, m', inst, p, visiting, visiting');
      BuildMemo(m, m', inst, a, visiting, visiting');
      BuildMemo(m, m', inst, b, visiting, visiting');
    case EitherOrZero(p, a) =>
      BuildMemo(m, m', inst, p, visiting, visiting');
      BuildMemo(m, m', inst, a, visiting, visiting');
    case BinomialOf(a, b) =>
      BuildMemo(m, m', inst, a, visiting, visiting');
      BuildMemo(m, m', inst, b, visiting, visiting');
  }

  /**
   * The demonstration model's `play`: resolving it runs its lambda, which
   * fetches `p` (remembered on the way) and conditions on it between fixed
   * 12 EUR and -12 EUR.
   */
  lemma ConditionalLambda(p: RV)
    requires UnitOf(p) == Success(Units.Scalar())
    ensures var eur := Units.Of("EUR");
      var win := Fixed(Quantities.Quantity(12.0, eur));
      var lose := Fixed(Quantities.Quantity(-12.0, eur));
      var play := Derived(Either(RefTo(Named("p")), Given(win), Given(lose)));
      var m := Model(map[Named("p") := Constant(p), Named("play") := play], [Named("p"), Named("play")], map[], []);
      var r := Get(m, Instantiate(), Named("play"), {});
      && r.Success?
      && r.value.v == Conditional(p, win, lose)
      && r.value.inst.vars == map[Named("p") := p, Named("play") := Conditional(p, win, lose)]
  {
    var eur := Units.Of("EUR");
    var win := Fixed(Quantities.Quantity(12.0, eur));
    var lose := Fixed(Quantities.Quantity(-12.0, eur));
    var play := Derived(Either(RefTo(Named("p")), Given(win), Given(lose)));
    var m := Model(map[Named("p") := Constant(p), Named("play") := play], [Named("p"), Named("play")], map[], []);
    var seen: set<VarId> := {Named("play")};
    assert Named("p") != Named("play");
    var i0 := Instantiate();
    var i1 := Instance(map[Named("p") := p], map[]);
    assert Named("p") in m.defs && Named("p") !in i0.vars && Named("p") !in seen;
    assert Produce(m, i0, Constant(p), seen + {Named("p")}) == Success(Resolved(p, i0));
    assert Get(m, i0, Named("p"), seen) == Success(Resolved(p, i1));
    assert Build(m, i0, RefTo(Named("p")), seen) == Success(Resolved(p, i1));
    assert MakeConditional(p, win, lose) == Success(Conditional(p, win, lose));
    assert Build(m, i0, play.recipe, seen) == Success(Resolved(Conditional(p, win, lose), i1));
    assert Produce(m, i0, play, seen) == Success(Resolved(Conditional(p, win, lose), i1));
    var none: set<VarId> := {};
    assert none + {Named("play")} == seen;
    assert Get(m, i0, Named("play"), none) == Success(Resolved(Conditional(p, win, lose), i1.(vars := i1.vars[Named("play") := Conditional(p, win, lose)])));
  }
}

=== FILE: models.dfy ===
/**
 * `Model` and `Model.Instance`: a registry of producers, each turning an
 * instance into a random variable, and an instance that resolves ids
 * lazily, remembering every variable it produced. Time series are producers
 * indexed by time; they are resolved by the same mutual recursion.
 */
module Models {

  import opened Wrappers
  import opened Units
  import opened VarIds
  import opened Errors
  import opened Quantities
  import opened Variables

  /** What a concrete series answers beyond its last entry. */
  datatype Repeat = NONE | LAST

  /** The point-wise operators of combined and transformed series. */
  datatype Combiner = PlusOp | MinusOp | TimesOp | DivOp

  datatype TimeSeries =
    | Concrete(repeat: Repeat, ids: seq<VarId>)
    | Delayed(base: TimeSeries, delay: int)
    | Differential(base: TimeSeries)
    | ExpGrowth(baseId: VarId, rate: VarId)
    | LinearGrowth(baseId: VarId, growth: VarId)
    | Combined(s1: TimeSeries, s2: TimeSeries, op: Combiner)
    | Transformed(s1: TimeSeries, other: VarId, op: Combiner)
    | CondSeries(prob: VarId, v1: TimeSeries, v2: TimeSeries)
      /** `owner` stands for the series object, whose per-time ids are `Unique(owner, time)`. */
    | DealsOverTime(counts: TimeSeries, size: VarId, factor: VarId, duration: VarId, owner: nat)

  /** The functions from an instance to a random variable that a model registers. */
  datatype Producer =
    | Constant(v: RV)
    | SeriesAt(series: TimeSeries, time: int)
    | Collapsed(series: TimeSeries, from: int, to: int)
      /** The main variable of an unknown distribution: a candidate picked by the variable `indexId`, bounded. */
    | UnknownMain(indexId: VarId, candidates: seq<RV>, lower: Option<real>, upper: Option<real>)
      /** What `add` registers: the inner producer's result passed through `ensurePersistent`. */
    | Ensured(id: VarId, inner: Producer)
      /** A producer lambda such as `i -> conditional(i.get(p), fixed(a), fixed(b))`. */
    | Derived(recipe: Recipe)

  /**
   * The body of a producer lambda: ids fetched with `i.get`, variables built
   * without the instance, and the combinators and factories applied to them.
   * Arguments are evaluated left to right, as Java evaluates them.
   */
  datatype Recipe =
    | RefTo(id: VarId)
    | Given(v: RV)
      /** `plus`, `minus`, `times` and `div` of two variables. */
    | Op(op: Combiner, left: Recipe, right: Recipe)
      /** `term.sumOfN(count)`. */
    | CountSum(term: Recipe, count: Recipe)
      /** `bound(lower, upper)`, and `nonNegative()` with no upper bound. */
    | Clamped(base: Recipe, lower: Option<real>, upper: Option<real>)
      /** `Distributions.conditional(prob, v1, v2)`. */
    | Either(prob: Recipe, v1: Recipe, v2: Recipe)
      /** `Distributions.conditional(prob, v1)`: zero in `v1`'s unit otherwise. */
    | EitherOrZero(prob: Recipe, v1: Recipe)
      /** `new BinomRandomVariable(count, prob)`. */
    | BinomialOf(count: Recipe, prob: Recipe)

  /** The ids a recipe fetches, in the order it fetches them. */
  function Refs(rc: Recipe): seq<VarId> {
    match rc
    case RefTo(id) => [id]
    case Given(_) => []
    case Op(_, a, b) => Refs(a) + Refs(b)
    case CountSum(a, b) => Refs(a) + Refs(b)
    case Clamped(a, _, _) => Refs(a)
    case Either(p, a, b) => Refs(p) + Refs(a) + Refs(b)
    case EitherOrZero(p, a) => Refs(p) + Refs(a)
    case BinomialOf(a, b) => Refs(a) + Refs(b)
  }

  /** The objects a model may register besides random variables. */
  datatype ObjectValue = SeriesObject(s: TimeSeries) | QuantityObject(q: Quantity)

  datatype Model = Model(defs: map<VarId, Producer>, order: seq<VarId>, objectDefs: map<string, ObjectValue>, objectOrder: seq<string>)

  datatype Instance = Instance(vars: map<VarId, RV>, objects: map<string, ObjectValue>)

  /** A resolved variable and the instance after resolving it. */
  datatype Resolved = Resolved(v: RV, inst: Instance)

  /** Several resolved variables, in order, and the instance after resolving them. */
  datatype ResolvedList = ResolvedList(vs: seq<RV>, inst: Instance)

  /** The registration order lists every registered id exactly once, and likewise for objects. */
  ghost predicate Valid(m: Model) {
    && (forall i, j :: 0 <= i < j < |m.order| ==> m.order[i] != m.order[j])
    && (forall id :: id in m.defs <==> id in m.order)
    && (forall i, j :: 0 <= i < j < |m.objectOrder| ==> m.objectOrder[i] != m.objectOrder[j])
    && (forall n :: n in m.objectDefs <==> n in m.objectOrder)
  }

  function Empty(): (m: Model)
    ensures Valid(m)
    ensures forall id :: id !in m.defs
  {
    Model(map[], [], map[], [])
  }

  /** `instantiate()`: nothing resolved yet. */
  function Instantiate(): (i: Instance)
    ensures forall id :: id !in i.vars
    ensures forall n :: n !in i.objects
  {
    Instance(map[], map[])
  }

  /** `addRaw(name, producer)`: registering an id twice is an error. */
  function AddRaw(m: Model, name: VarId, p: Producer): (r: Result<Model, Error>)
    ensures r.Success? <==> name !in m.defs
    ensures r.Failure? ==> r.error == AlreadyContained(name)
    ensures r.Success? ==> name in r.value.defs && r.value.defs[name] == p
    ensures r.Success? ==> forall id :: id != name ==> (id in r.value.defs <==> id in m.defs)
    ensures r.Success? ==> forall id :: id != name && id in m.defs ==> r.value.defs[id] == m.defs[id]
    ensures r.Success? ==> r.value.order == m.order + [name]
    ensures r.Success? ==> r.value.objectDefs == m.objectDefs && r.value.objectOrder == m.objectOrder
    ensures r.Success? && Valid(m) ==> Valid(r.value)
  {
    if name in m.defs then Failure(AlreadyContained(name))
    else
      var m' := m.(defs := m.defs[name := p], order := m.order + [name]);
      assert Valid(m) ==> Valid(m') by {
        if Valid(m) {
          forall i, j | 0 <= i < j < |m'.order| ensures m'.order[i] != m'.order[j] {
            if j < |m.order| {
              assert m'.order[i] == m.order[i] && m'.order[j] == m.order[j];
            } else {
              assert m'.order[i] == m.order[i];
            }
          }
        }
      }
      Success(m')
  }

  /** `add(name, producer)`: registers the producer wrapped so that its variable is persistent under `name`. */
  function Add(m: Model, name: VarId, p: Producer): (r: Result<Model, Error>)
    ensures r == AddRaw(m, name, Ensured(name, p))
    ensures r.Success? ==> r.value.defs[name].Ensured? && r.value.defs[name].id == name && r.value.defs[name].inner == p
  {
    AddRaw(m, name, Ensured(name, p))
  }

  /** `addRaw(name, factory)`: registers every entry the factory created, in order. */
  function AddAllRaw(m: Model, entries: seq<(VarId, Producer)>): (r: Result<Model, Error>)
    ensures r.Success? ==> forall i :: 0 <= i < |entries| ==> entries[i].0 in r.value.defs
    ensures r.Success? ==> forall id :: id in m.defs ==> id in r.value.defs && r.value.defs[id] == m.defs[id]
    ensures r.Success? && Valid(m) ==> Valid(r.value)
    decreases |entries|
  {
    if |entries| == 0 then Success(m)
    else
      var m1 :- AddRaw(m, entries[0].0, entries[0].1);
      AddAllRaw(m1, entries[1..])
  }

  /** `add(name, factory)`: like `AddAllRaw`, every entry made persistent under its own id. */
  function AddAll(m: Model, entries: seq<(VarId, Producer)>): (r: Result<Model, Error>)
    ensures r.Success? ==> forall i :: 0 <= i < |entries| ==> entries[i].0 in r.value.defs && r.value.defs[entries[i].0].Ensured?
    ensures r.Success? ==> forall id :: id in m.defs ==> id in r.value.defs && r.value.defs[id] == m.defs[id]
    decreases |entries|
  {
    if |entries| == 0 then Success(m)
    else
      var m1 :- Add(m, entries[0].0, entries[0].1);
      AddAll(m1, entries[1..])
  }

  /** `addObject(name, producer)`: registering an object name twice is an error. */
  function AddObject(m: Model, name: string, o: ObjectValue): (r: Result<Model, Error>)
    ensures r.Success? <==> name !in m.objectDefs
    ensures r.Failure? ==> r.error == ObjectAlreadyContained(name)
    ensures r.Success? ==> r.value.objectDefs == m.objectDefs[name := o] && r.value.objectOrder == m.objectOrder + [name]
    ensures r.Success? ==> r.value.defs == m.defs && r.value.order == m.order
    ensures r.Success? && Valid(m) ==> Valid(r.value)
  {
    if name in m.objectDefs then Failure(ObjectAlreadyContained(name))
    else
      var m' := m.(objectDefs := m.objectDefs[name := o], objectOrder := m.objectOrder + [name]);
      assert Valid(m) ==> Valid(m') by {
        if Valid(m) {
          forall i, j | 0 <= i < j < |m'.objectOrder| ensures m'.objectOrder[i] != m'.objectOrder[j] {
            if j < |m.objectOrder| {
              assert m'.objectOrder[i] == m.objectOrder[i] && m'.objectOrder[j] == m.objectOrder[j];
            } else {
              assert m'.objectOrder[i] == m.objectOrder[i];
            }
          }
        }
      }
      Success(m')
  }

  /** Resolving only adds variables and never replaces one; objects are left alone. */
  ghost predicate Grows(a: Instance, b: Instance) {
    && (forall k :: k in a.vars ==> k in b.vars && b.vars[k] == a.vars[k])
    && b.objects == a.objects
  }

  /** Every variable resolving added lies outside `visiting`. */
  ghost predicate AddsOutside(a: Instance, b: Instance, visiting: set<VarId>) {
    forall k :: k in b.vars && k !in a.vars ==> k !in visiting
  }

  /** The ids still open for resolution. */
  function Pending(m: Model, visiting: set<VarId>): set<VarId> {
    m.defs.Keys - visiting
  }

  lemma PendingShrinks(m: Model, visiting: set<VarId>, name: VarId)
    requires name in m.defs && name !in visiting
    ensures |Pending(m, visiting + {name})| < |Pending(m, visiting)|
  {
    assert Pending(m, visiting + {name}) == Pending(m, visiting) - {name};
  }

  /**
   * `Instance.get(name)`: a variable this instance already holds is returned
   * as is; otherwise the registered producer runs (resolving further ids
   * through the same instance) and its variable is remembered. An id whose
   * production needs the id itself is reported instead of recursing forever.
   */
  function Get(m: Model, inst: Instance, name: VarId, visiting: set<VarId>): (r: Result<Resolved, Error>)
    ensures name in inst.vars ==> r == Success(Resolved(inst.vars[name], inst))
    ensures name !in inst.vars && name !in m.defs ==> r == Failure(NoDefinition(name))
    ensures r.Success? ==> name in r.value.inst.vars && r.value.inst.vars[name] == r.value.v
    ensures r.Success? ==> Grows(inst, r.value.inst) && AddsOutside(inst, r.value.inst, visiting)
    decreases |Pending(m, visiting)|, 0
  {
    if name in inst.vars then Success(Resolved(inst.vars[name], inst))
    else if name !in m.defs then Failure(NoDefinition(name))
    else if name in visiting then Failure(Cyclic(name))
    else
      PendingShrinks(m, visiting, name);
      var p :- Produce(m, inst, m.defs[name], visiting + {name});
      Success(Resolved(p.v, p.inst.(vars := p.inst.vars[name := p.v])))
  }

  /** Applies a registered producer to the instance. */
  function Produce(m: Model, inst: Instance, p: Producer, visiting: set<VarId>): (r: Result<Resolved, Error>)
    ensures r.Success? ==> Grows(inst, r.value.inst) && AddsOutside(inst, r.value.inst, visiting)
    decreases |Pending(m, visiting)|, 3, p
  {
    match p
    case Constant(v) => Success(Resolved(v, inst))
    case SeriesAt(s, t) => GetFor(m, inst, s, t, visiting)
    case Collapsed(s, from, to) =>
      if from > to then Failure(AssertionFailed("fromTime <= toTime"))
      else
        var rs :- GetRange(m, inst, s, from, to, visiting);
        Success(Resolved(SumAll(rs.vs), rs.inst))
    case UnknownMain(indexId, candidates, lower, upper) =>
      var i :- Get(m, inst, indexId, visiting);
      Success(Resolved(RangeBound(Uncertain(i.v, candidates), lower, upper), i.inst))
    case Ensured(id, inner) =>
      var x :- Produce(m, inst, inner, visiting);
      var w :- EnsurePersistent(id, x.v);
      Success(Resolved(w, x.inst))
    case Derived(rc) => Build(m, inst, rc, visiting)
  }

  /**
   * Runs a producer lambda on the instance: every id it fetches is resolved
   * (and remembered) in turn, the first failure deciding the error.
   */
  function Build(m: Model, inst: Instance, rc: Recipe, visiting: set<VarId>): (r: Result<Resolved, Error>)
    ensures r.Success? ==> Grows(inst, r.value.inst) && AddsOutside(inst, r.value.inst, visiting)
    ensures r.Success? ==> forall id :: id in Refs(rc) ==> id in r.value.inst.vars
    decreases |Pending(m, visiting)|, 2, rc
  {
    match rc
    case RefTo(id) => Get(m, inst, id, visiting)
    case Given(v) => Success(Resolved(v, inst))
    case Op(op, a, b) =>
      var x :- Build(m, inst, a, visiting);
      var y :- Build(m, x.inst, b, visiting);
      Success(Resolved(Combine(op, x.v, y.v), y.inst))
    case CountSum(a, b) =>
      var x :- Build(m, inst, a, visiting);
      var y :- Build(m, x.inst, b, visiting);
      Success(Resolved(SumOfN(x.v, y.v), y.inst))
    case Clamped(a, lower, upper) =>
      var x :- Build(m, inst, a, visiting);
      Success(Resolved(Bound(x.v, lower, upper), x.inst))
    case Either(p, a, b) =>
      var x :- Build(m, inst, p, visiting);
      var y :- Build(m, x.inst, a, visiting);
      var z :- Build(m, y.inst, b, visiting);
      var c :- MakeConditional(x.v, y.v, z.v);
      Success(Resolved(c, z.inst))
    case EitherOrZero(p, a) =>
      var x :- Build(m, inst, p, visiting);
      var y :- Build(m, x.inst, a, visiting);
      var c :- MakeConditionalOrZero(x.v, y.v);
      Success(Resolved(c, y.inst))
    case BinomialOf(a, b) =>
      var x :- Build(m, inst, a, visiting);
      var y :- Build(m, x.inst, b, visiting);
      var c :- MakeBinom(x.v, y.v);
      Success(Resolved(c, y.inst))
  }

  /** The point-wise combination a series operator stands for, `a` on the left. */
  function Combine(op: Combiner, a: RV, b: RV): RV {
    match op
    case PlusOp => Sum(a, b)
    case MinusOp => Difference(a, b)
    case TimesOp => Product(a, b)
    case DivOp => Quotient(a, b)
  }

  /** `collapse`'s left fold of `plus`: ((v0 + v1) + v2) + ... */
  function SumAll(vs: seq<RV>): (r: RV)
    requires |vs| > 0
    decreases |vs|
  {
    if |vs| == 1 then vs[0] else Sum(SumAll(vs[..|vs| - 1]), vs[|vs| - 1])
  }

  /** `getFor(time).apply(inst)` of each kind of series. */
  function GetFor(m: Model, inst: Instance, s: TimeSeries, t: int, visiting: set<VarId>): (r: Result<Resolved, Error>)
    ensures r.Success? ==> Grows(inst, r.value.inst) && AddsOutside(inst, r.value.inst, visiting)
    decreases |Pending(m, visiting)|, 1, s, 1, if t > 0 then t else 0
  {
    match s
    case Concrete(repeat, ids) =>
      if t < 0 then Failure(AssertionFailed("time >= 0"))
      else if t < |ids| then Get(m, inst, ids[t], visiting)
      else if repeat == NONE then Failure(AssertionFailed("invalid time"))
      else if |ids| == 0 then Failure(IndexOutOfRange(-1, 0))
      else Get(m, inst, ids[|ids| - 1], visiting)
    case Delayed(base, delay) =>
      if t < delay then
        var b :- GetFor(m, inst, base, 0, visiting);
        var u :- UnitOf(b.v);
        Success(Resolved(Fixed(Quantity(0.0, u)), b.inst))
      else GetFor(m, inst, base, t - delay, visiting)
    case Differential(base) =>
      if t == 0 then
        var b :- GetFor(m, inst, base, 0, visiting);
        Success(Resolved(TimesFactor(b.v, 0.0), b.inst))
      else
        var cur :- GetFor(m, inst, base, t, visiting);
        var prev :- GetFor(m, cur.inst, base, t - 1, visiting);
        Success(Resolved(Difference(cur.v, prev.v), prev.inst))
    case ExpGrowth(baseId, rate) =>
      if t < 0 then Failure(AssertionFailed("time >= 0"))
      else if t == 0 then Get(m, inst, baseId, visiting)
      else
        var prev :- GetFor(m, inst, s, t - 1, visiting);
        var g :- Get(m, prev.inst, rate, visiting);
        Success(Resolved(Product(prev.v, g.v), g.inst))
    case LinearGrowth(baseId, growth) =>
      var b :- Get(m, inst, baseId, visiting);
      var g :- Get(m, b.inst, growth, visiting);
      Success(Resolved(Sum(b.v, TimesFactor(g.v, t as real)), g.inst))
    case Combined(_, _, _) => GetForComposite(m, inst, s, t, visiting)
    case Transformed(_, _, _) => GetForComposite(m, inst, s, t, visiting)
    case CondSeries(_, _, _) => GetForComposite(m, inst, s, t, visiting)
    case DealsOverTime(_, _, _, _, _) => GetForComposite(m, inst, s, t, visiting)
  }

  /** `getFor(time).apply(inst)` of the series built from other series. */
  function GetForComposite(m: Model, inst: Instance, s: TimeSeries, t: int, visiting: set<VarId>): (r: Result<Resolved, Error>)
    requires s.Combined? || s.Transformed? || s.CondSeries? || s.DealsOverTime?
    ensures r.Success? ==> Grows(inst, r.value.inst) && AddsOutside(inst, r.value.inst, visiting)
    decreases |Pending(m, visiting)|, 1, s, 0, 0
  {
    match s
    case Combined(s1, s2, op) =>
      var a :- GetFor(m, inst, s1, t, visiting);
      var b :- GetFor(m, a.inst, s2, t, visiting);
      Success(Resolved(Combine(op, a.v, b.v), b.inst))
    case Transformed(s1, other, op) =>
      var a :- GetFor(m, inst, s1, t, visiting);
      var b :- Get(m, a.inst, other, visiting);
      Success(Resolved(Combine(op, a.v, b.v), b.inst))
    case CondSeries(prob, v1, v2) =>
      var p :- Get(m, inst, prob, visiting);
      var a :- GetFor(m, p.inst, v1, t, visiting);
      var b :- GetFor(m, a.inst, v2, t, visiting);
      var c :- MakeConditional(p.v, a.v, b.v);
      Success(Resolved(c, b.inst))
    case DealsOverTime(counts, size, factor, duration, owner) =>
      var cs :- GetRange(m, inst, counts, 0, t, visiting);
      var sz :- Get(m, cs.inst, size, visiting);
      var f :- Get(m, sz.inst, factor, visiting);
      var d :- Get(m, f.inst, duration, visiting);
      Success(Resolved(DealsYear(t, owner, cs.vs, sz.v, f.v, d.v), d.inst))
  }

  /** The series' variables for times `from` to `to`, inclusive, resolved in that order. */
  function GetRange(m: Model, inst: Instance, s: TimeSeries, from: int, to: int, visiting: set<VarId>): (r: Result<ResolvedList, Error>)
    ensures r.Success? ==> |r.value.vs| == if from <= to then to - from + 1 else 0
    ensures r.Success? ==> Grows(inst, r.value.inst) && AddsOutside(inst, r.value.inst, visiting)
    decreases |Pending(m, visiting)|, 1, s, 2, if from <= to then to - from + 1 else 0
  {
    if from > to then Success(ResolvedList([], inst))
    else
      var x :- GetFor(m, inst, s, from, visiting);
      var rest :- GetRange(m, x.inst, s, from + 1, to, visiting);
      Success(ResolvedList([x.v] + rest.vs, rest.inst))
  }

  /** `collapse(fromTime, toTime)`: the sum of the series over the period, both ends included. */
  function Collapse(s: TimeSeries, from: int, to: int): (r: Result<Producer, Error>)
    ensures r.Success? <==> from <= to
    ensures r.Success? ==> r.value == Collapsed(s, from, to)
  {
    if from <= to then Success(Collapsed(s, from, to))
    else Failure(AssertionFailed("fromTime <= toTime"))
  }

  /** `getObject(name)`: the same lazy memo for registered objects. */
  function GetObject(m: Model, inst: Instance, name: string): (r: Result<(ObjectValue, Instance), Error>)
    ensures name in inst.objects ==> r == Success((inst.objects[name], inst))
    ensures name !in inst.objects ==> (r.Success? <==> name in m.objectDefs)
    ensures name !in inst.objects && r.Failure? ==> r.error == NoObjectDefinition(name)
    ensures r.Success? ==> name in r.value.1.objects && r.value.1.objects[name] == r.value.0
    ensures r.Success? ==> r.value.1.vars == inst.vars
    ensures r.Success? ==> forall n :: n in inst.objects ==> n in r.value.1.objects && r.value.1.objects[n] == inst.objects[n]
  {
    if name in inst.objects then Success((inst.objects[name], inst))
    else if name !in m.objectDefs then Failure(NoObjectDefinition(name))
    else
      var o := m.objectDefs[name];
      Success((o, inst.(objects := inst.objects[name := o])))
  }
}

=== FILE: numbers.dfy ===
/**
 * Java's fixed-width integer behaviour, written out over Dafny's unbounded
 * integers and reals: 32-bit wrap-around, Math.round and the (int) cast.
 */
module JavaNumbers {

  const TWO_32: int := 0x1_0000_0000
  const MIN_INT: int := -0x8000_0000
  const MAX_INT: int := 0x7fff_ffff
  const MIN_LONG: int := -0x8000_0000_0000_0000
  const MAX_LONG: int := 0x7fff_ffff_ffff_ffff

  predicate IsInt32(x: int) {
    MIN_INT <= x <= MAX_INT
  }

  /** Two's-complement wrap-around of an int computation (and the (int) cast of a long). */
  function Wrap32(x: int): (r: int)
    ensures IsInt32(r)
    ensures (r - x) % TWO_32 == 0
    ensures IsInt32(x) ==> r == x
  {
    (x - MIN_INT) % TWO_32 + MIN_INT
  }

  /** Math.round(double): the nearest integer, halves rounded up, saturated to the long range. */
  function Round(x: real): (r: int)
    ensures MIN_LONG <= r <= MAX_LONG
    ensures MIN_LONG <= (x + 0.5).Floor <= MAX_LONG ==> r as real <= x + 0.5 < r as real + 1.0
    ensures x == x.Floor as real && MIN_LONG <= x.Floor <= MAX_LONG ==> r == x.Floor
  {
    var f := (x + 0.5).Floor;
    if f < MIN_LONG then MIN_LONG else if f > MAX_LONG then MAX_LONG else f
  }

  /** `(int) Math.round(x)`: round, then keep the low 32 bits. */
  function RoundToInt(x: real): (r: int)
    ensures IsInt32(r)
    ensures MIN_INT <= (x + 0.5).Floor <= MAX_INT ==> r as real <= x + 0.5 < r as real + 1.0
  {
    Wrap32(Round(x))
  }

  /** Java's integer division `a / b` for a positive divisor: the quotient truncated toward zero. */
  function Quot(a: int, b: int): (r: int)
    requires b > 0
    ensures a >= 0 ==> r == a / b
    ensures a < 0 ==> r == -((-a) / b)
  {
    if a >= 0 then a / b else -((-a) / b)
  }
}

=== FILE: persistence_laws.dfy ===
/**
 * A persistent variable is observed at most once per simulation run: the
 * first observation stores the base's value under the variable's name and
 * every later one, however deep in another expression, reads it back.
 */
module PersistenceLaws {

  import opened Wrappers
  import opened VarIds
  import opened Errors
  import opened Quantities
  import opened SimulationRuns
  import opened Variables
  import opened Evaluator
  import CombinatorLaws

  /** A name already holding a value answers with it, draws nothing and leaves the run as it is. */
  lemma PersistentRepeat(name: VarId, base: RV, o: Oracle, src: Source, run: Run)
    requires HasValue(run, name)
    ensures Observe(Persistent(name, base), o, src, run).Success?
    ensures Observe(Persistent(name, base), o, src, run).value.q == run.values[name]
    ensures Observe(Persistent(name, base), o, src, run).value.src == src
    ensures Observe(Persistent(name, base), o, src, run).value.run == run
  {
  }

  /**
   * The first observation in a run observes the base and stores its value
   * under the name; the draws are the base's.
   */
  lemma PersistentFirst(name: VarId, base: RV, o: Oracle, src: Source, run: Run)
    requires !HasValue(run, name)
    requires Observe(base, o, src, run).Success?
    requires !HasValue(Observe(base, o, src, run).value.run, name)
    ensures var x := Observe(base, o, src, run).value;
      var r := Observe(Persistent(name, base), o, src, run);
      && r.Success?
      && r.value.q == x.q
      && r.value.src == x.src
      && HasValue(r.value.run, name) && r.value.run.values[name] == x.q
      && Extends(x.run, r.value.run)
  {
  }

  /** A base that fails is reported as a problem with the named variable. */
  lemma PersistentBaseFails(name: VarId, base: RV, o: Oracle, src: Source, run: Run)
    requires !HasValue(run, name)
    requires Observe(base, o, src, run).Failure?
    ensures Observe(Persistent(name, base), o, src, run) ==
      Failure(ProblemWith(name, Observe(base, o, src, run).error))
  {
  }

  /**
   * A base that itself stores a value under the same name makes the second
   * store fail, reported as a problem with the named variable.
   */
  lemma PersistentSelfReference(name: VarId, base: RV, o: Oracle, src: Source, run: Run)
    requires !HasValue(run, name)
    requires Observe(base, o, src, run).Success?
    requires HasValue(Observe(base, o, src, run).value.run, name)
    ensures Observe(Persistent(name, base), o, src, run) ==
      Failure(ProblemWith(name, AlreadyPersisted(name)))
  {
  }

  /** After any successful observation the run holds the observed value under the name. */
  lemma PersistentRecords(name: VarId, base: RV, o: Oracle, src: Source, run: Run)
    requires Observe(Persistent(name, base), o, src, run).Success?
    ensures var r := Observe(Persistent(name, base), o, src, run).value;
      HasValue(r.run, name) && r.run.values[name] == r.q
  {
  }

  /**
   * Once observed, a persistent variable yields the same quantity in every
   * later state of the run, from any source position, without drawing.
   */
  lemma PersistentStable(name: VarId, base: RV, o: Oracle, src: Source, run: Run, src': Source, run': Run)
    requires Observe(Persistent(name, base), o, src, run).Success?
    requires Extends(Observe(Persistent(name, base), o, src, run).value.run, run')
    ensures Observe(Persistent(name, base), o, src', run').Success?
    ensures Observe(Persistent(name, base), o, src', run').value.q == Observe(Persistent(name, base), o, src, run).value.q
    ensures Observe(Persistent(name, base), o, src', run').value.src == src'
    ensures Observe(Persistent(name, base), o, src', run').value.run == run'
  {
    PersistentRecords(name, base, o, src, run);
    var r := Observe(Persistent(name, base), o, src, run).value;
    assert HasValue(run', name) && run'.values[name] == r.q;
    PersistentRepeat(name, base, o, src', run');
  }

  /** A persistent variable added to itself contributes one observation twice. */
  lemma PersistentTwiceInSum(name: VarId, base: RV, o: Oracle, src: Source, run: Run)
    requires Observe(Persistent(name, base), o, src, run).Success?
    ensures var x := Observe(Persistent(name, base), o, src, run).value;
      var p := Persistent(name, base);
      && Observe(Sum(p, p), o, src, run).Success?
      && Observe(Sum(p, p), o, src, run).value.q == Quantity(x.q.value + x.q.value, x.q.unit)
      && Observe(Sum(p, p), o, src, run).value.src == x.src
  {
    var p := Persistent(name, base);
    var x := Observe(p, o, src, run).value;
    PersistentStable(name, base, o, src, run, x.src, x.run);
    CombinatorLaws.SumSucceeds(p, p, o, src, run);
    CombinatorLaws.SumValue(p, p, o, src, run);
  }
}

=== FILE: primitive_laws.dfy ===
/**
 * What one observation of each leaf distribution yields: the value drawn,
 * the number of draws it consumes, and that it leaves the run alone.
 */
module PrimitiveLaws {

  import opened Wrappers
  import opened Units
  import opened Quantities
  import opened SimulationRuns
  import opened Variables
  import opened Evaluator
  import JavaNumbers

  /** A fixed variable yields its quantity, whatever the source or run, without drawing. */
  lemma FixedObserve(q: Quantity, o: Oracle, src: Source, run: Run)
    ensures Observe(Fixed(q), o, src, run) == Success(Obs(q, src, run))
    ensures UnitOf(Fixed(q)) == Success(q.unit) && Kind(Fixed(q)) == F
  {
  }

  /** An empirical variable yields one of its values, in its unit, using exactly one draw. */
  lemma EmpiricalObserve(unit: Unit, values: seq<real>, o: Oracle, src: Source, run: Run)
    requires ValidOracle(o)
    requires |values| > 0
    ensures Observe(Empirical(unit, values), o, src, run).Success?
    ensures var r := Observe(Empirical(unit, values), o, src, run).value;
      && r.q.value in values
      && r.q.unit == unit
      && r.src == Skip(src, 1)
      && r.run == run
  {
    var k := o.integer(src.stream, src.pos, |values|);
    assert 0 <= k < |values|;
  }

  lemma ScaledDraw(d: real, u: real)
    requires d > 0.0 && 0.0 <= u < 1.0
    ensures 0.0 <= Offset(d, u) < d
  {
  }

  /** The three segments of the block distribution for an offset in [0, upper - lower). */
  lemma BlockSegments(lower: real, upper: real, t: real, w: real)
    requires 0.0 <= w < upper - lower
    ensures var x := BlockAt(lower, upper, t, w);
      var diff := upper - lower;
      && (t < 0.05 ==> lower - diff <= x < lower)
      && (0.05 <= t < 0.95 ==> lower <= x < upper)
      && (0.95 <= t ==> upper <= x < upper + diff)
  {
  }

  /**
   * The block distribution: a first draw below 0.05 lands one width below
   * `lower`, one of 0.95 or more lands one width above `upper`, anything in
   * between lands in [lower, upper). Exactly two draws are used.
   */
  lemma BlockObserve(lower: real, upper: real, unit: Unit, o: Oracle, src: Source, run: Run)
    requires ValidOracle(o)
    requires lower < upper
    ensures Observe(Block(lower, upper, unit), o, src, run).Success?
    ensures var r := Observe(Block(lower, upper, unit), o, src, run).value;
      var t := Uniform(o, src);
      var diff := upper - lower;
      && r.q.unit == unit
      && r.src == Skip(src, 2)
      && r.run == run
      && (t < 0.05 ==> lower - diff <= r.q.value < lower)
      && (0.05 <= t < 0.95 ==> lower <= r.q.value < upper)
      && (0.95 <= t ==> upper <= r.q.value < upper + diff)
  {
    var u := Uniform(o, Skip(src, 1));
    assert 0.0 <= u < 1.0;
    ScaledDraw(upper - lower, u);
    BlockSegments(lower, upper, Uniform(o, src), Offset(upper - lower, u));
  }

  /** With draws in [0, 1), a probability of at most 0 never succeeds and one of at least 1 always does. */
  lemma {:induction false} SuccessesExtremes(o: Oracle, src: Source, n: nat, p: real)
    requires ValidOracle(o)
    ensures p <= 0.0 ==> Successes(o, src, n, p) == 0
    ensures p >= 1.0 ==> Successes(o, src, n, p) == n
    decreases n
  {
    if n > 0 {
      SuccessesExtremes(o, src, n - 1, p);
      var u := Uniform(o, Skip(src, n - 1));
      assert 0.0 <= u < 1.0;
    }
  }

  /**
   * A binomial variable observes its count, then its probability, then makes
   * one uniform draw per trial (none for a negative count) and yields the
   * number of draws below the probability in the count's unit.
   */
  lemma BinomObserve(count: RV, prob: RV, o: Oracle, src: Source, run: Run)
    requires ValidOracle(o)
    ensures Observe(Binom(count, prob), o, src, run).Success? ==>
      && Observe(count, o, src, run).Success?
      && Observe(prob, o, Observe(count, o, src, run).value.src, Observe(count, o, src, run).value.run).Success?
    ensures Observe(Binom(count, prob), o, src, run).Success? ==>
      var c := Observe(count, o, src, run).value;
      var p := Observe(prob, o, c.src, c.run).value;
      var n := JavaNumbers.Round(c.q.value);
      var trials := if n > 0 then n else 0;
      var r := Observe(Binom(count, prob), o, src, run).value;
      && r.src == Skip(p.src, trials)
      && r.run == p.run
      && Success(r.q.unit) == UnitOf(count)
      && 0.0 <= r.q.value <= trials as real
      && (p.q.value <= 0.0 ==> r.q.value == 0.0)
      && (p.q.value >= 1.0 ==> r.q.value == trials as real)
  {
    if Observe(Binom(count, prob), o, src, run).Success? {
      assert Observe(Binom(count, prob), o, src, run) == ObserveBinom(Binom(count, prob), o, src, run);
      var c := Observe(count, o, src, run).value;
      var p := Observe(prob, o, c.src, c.run).value;
      var n := JavaNumbers.Round(c.q.value);
      var trials: nat := if n > 0 then n else 0;
      SuccessesExtremes(o, p.src, trials, p.q.value);
    }
  }

  /** The repository's binomial test: 99 trials in hours give 0 with probability 0 and 99 with probability 1. */
  lemma BinomExamples(o: Oracle, src: Source, run: Run)
    requires ValidOracle(o)
    ensures
      var hours := Quantity(99.0, Units.Of("h"));
      var never := Observe(Binom(Fixed(hours), Fixed(Quantity(0.0, Scalar()))), o, src, run);
      var always := Observe(Binom(Fixed(hours), Fixed(Quantity(1.0, Scalar()))), o, src, run);
      && never.Success? && never.value.q == Quantity(0.0, Units.Of("h"))
      && always.Success? && always.value.q == Quantity(99.0, Units.Of("h"))
      && Kind(Binom(Fixed(hours), Fixed(Quantity(0.0, Scalar())))) == C
  {
    assert JavaNumbers.Round(99.0) == 99;
    SuccessesExtremes(o, src, 99, 0.0);
    SuccessesExtremes(o, src, 99, 1.0);
  }

  /**
   * A conditional value makes exactly one draw and yields one of its two
   * quantities: the first when the draw is below the probability.
   */
  lemma CondValueObserve(p: real, q1: Quantity, q2: Quantity, o: Oracle, src: Source, run: Run)
    requires ValidOracle(o)
    ensures Observe(CondValue(p, q1, q2), o, src, run).Success?
    ensures var r := Observe(CondValue(p, q1, q2), o, src, run).value;
      && (r.q == q1 || r.q == q2)
      && (r.q == q1 <==> Uniform(o, src) < p || q1 == q2)
      && (p <= 0.0 ==> r.q == q2)
      && (p >= 1.0 ==> r.q == q1)
      && r.src == Skip(src, 1)
      && r.run == run
  {
    assert 0.0 <= Uniform(o, src) < 1.0;
  }
}

=== FILE: quantities.dfy ===
/** A number together with its unit. */
module Quantities {

  import opened Wrappers
  import opened Units
  import opened Errors

  datatype Quantity = Quantity(value: real, unit: Unit)

  /** `Quantity.of(value, unit)`. */
  function Of(value: real, unit: Unit): (q: Quantity)
    ensures q.value == value && q.unit == unit
  {
    Quantity(value, unit)
  }

  /** `Quantity.of(value, "sym")`: a quantity in the single-symbol unit. */
  function OfSymbol(value: real, symbol: string): (q: Quantity)
    ensures q.value == value && q.unit.numer == [symbol] && q.unit.denom == []
  {
    Quantity(value, Units.Of(symbol))
  }

  /** Addition demands equal units. */
  function Plus(a: Quantity, b: Quantity): (r: Result<Quantity, Error>)
    ensures r.Success? <==> a.unit == b.unit
    ensures r.Success? ==> r.value.value == a.value + b.value && r.value.unit == a.unit
    ensures r.Failure? ==> r.error == IncompatibleUnits(a.unit, b.unit)
  {
    if a.unit != b.unit then Failure(IncompatibleUnits(a.unit, b.unit))
    else Success(Quantity(a.value + b.value, a.unit))
  }

  /** Subtraction demands equal units. */
  function Minus(a: Quantity, b: Quantity): (r: Result<Quantity, Error>)
    ensures r.Success? <==> a.unit == b.unit
    ensures r.Success? ==> r.value.value == a.value - b.value && r.value.unit == a.unit
    ensures r.Failure? ==> r.error == IncompatibleUnits(a.unit, b.unit)
  {
    if a.unit != b.unit then Failure(IncompatibleUnits(a.unit, b.unit))
    else Success(Quantity(a.value - b.value, a.unit))
  }

  /** Multiplication composes the units and never fails. */
  function Times(a: Quantity, b: Quantity): (r: Quantity)
    ensures r.value == a.value * b.value
    ensures r.unit == Units.Times(a.unit, b.unit)
  {
    Quantity(a.value * b.value, Units.Times(a.unit, b.unit))
  }

  /** Division composes the units; only a zero divisor, which has no real result, fails. */
  function Div(a: Quantity, b: Quantity): (r: Result<Quantity, Error>)
    ensures r.Success? <==> b.value != 0.0
    ensures r.Success? ==> r.value.value == a.value / b.value
    ensures r.Success? ==> r.value.unit == Units.Div(a.unit, b.unit)
  {
    if b.value == 0.0 then Failure(DivisionByZero)
    else Success(Quantity(a.value / b.value, Units.Div(a.unit, b.unit)))
  }

  /** `compareTo`: the sign of the value difference, only between equal units. */
  function Compare(a: Quantity, b: Quantity): (r: Result<int, Error>)
    ensures r.Success? <==> a.unit == b.unit
    ensures r.Success? ==> (r.value < 0 <==> a.value < b.value)
    ensures r.Success? ==> (r.value == 0 <==> a.value == b.value)
    ensures r.Success? ==> (r.value > 0 <==> a.value > b.value)
  {
    if a.unit != b.unit then Failure(IncompatibleUnits(a.unit, b.unit))
    else if a.value < b.value then Success(-1)
    else if a.value == b.value then Success(0)
    else Success(1)
  }

  /** Adding then subtracting the same quantity is the identity. */
  lemma PlusMinusRoundTrip(a: Quantity, b: Quantity)
    requires a.unit == b.unit
    ensures Plus(a, b).Success?
    ensures Minus(Plus(a, b).value, b) == Success(a)
  {
  }

  lemma PlusCommutative(a: Quantity, b: Quantity)
    ensures Plus(a, b).Success? == Plus(b, a).Success?
    ensures Plus(a, b).Success? ==> Plus(a, b) == Plus(b, a)
  {
  }

  /** Comparison is antisymmetric: swapping the operands negates the result. */
  lemma CompareAntisymmetric(a: Quantity, b: Quantity)
    ensures Compare(a, b).Success? == Compare(b, a).Success?
    ensures Compare(a, b).Success? ==> Compare(a, b).value == -Compare(b, a).value
  {
  }

  /** Multiplying by a scalar leaves the unit as it is. */
  lemma TimesScalarKeepsUnit(a: Quantity, f: real)
    ensures Times(a, Quantity(f, Scalar())).unit == a.unit
    ensures Times(a, Quantity(f, Scalar())).value == a.value * f
  {
    assert Units.Times(a.unit, Scalar()) == a.unit by {
      ScalarIdentity(a.unit);
    }
  }
  /** Dividing by a non-zero quantity and multiplying back gives the dividend, unit included. */
  lemma DivTimesRoundTrip(a: Quantity, b: Quantity)
    requires b.value != 0.0
    ensures Div(a, b).Success?
    ensures Times(Div(a, b).value, b) == a
  {
    TimesUndoesDiv(a.unit, b.unit);
    assert (a.value / b.value) * b.value == a.value;
  }

  /** Multiplying by a non-zero quantity and dividing by it again gives the first factor. */
  lemma TimesDivRoundTrip(a: Quantity, b: Quantity)
    requires b.value != 0.0
    ensures Div(Times(a, b), b) == Success(a)
  {
    var p := Times(a, b);
    DivUndoesTimes(a.unit, b.unit);
    assert p.value / b.value == a.value;
    assert Div(p, b) == Success(Quantity(a.value, a.unit));
  }
}

=== FILE: runs.dfy ===
/**
 * One simulation run: the write-once store of persisted values (with their
 * insertion order) and the overwritable store of auxiliary objects.
 */
module SimulationRuns {

  import opened Wrappers
  import opened VarIds
  import opened Errors
  import opened Quantities

  datatype Run = Run(values: map<VarId, Quantity>, names: seq<VarId>, objects: map<VarId, Quantity>)

  /** The value names list every key of the value store exactly once. */
  ghost predicate Valid(r: Run) {
    && (forall i, j :: 0 <= i < j < |r.names| ==> r.names[i] != r.names[j])
    && (forall id :: id in r.values <==> id in r.names)
  }

  function Fresh(): (r: Run)
    ensures Valid(r)
    ensures forall id :: !HasValue(r, id) && !HasObject(r, id)
  {
    Run(map[], [], map[])
  }

  predicate HasValue(r: Run, id: VarId) {
    id in r.values
  }

  /** Stores a value under a name that must not hold one yet. */
  function Persist(r: Run, id: VarId, q: Quantity): (r': Result<Run, Error>)
    ensures r'.Success? <==> !HasValue(r, id)
    ensures r'.Failure? ==> r'.error == AlreadyPersisted(id)
    ensures r'.Success? ==> GetValue(r'.value, id) == Success(q)
    ensures r'.Success? ==> forall k :: k != id ==> HasValue(r'.value, k) == HasValue(r, k) && GetValue(r'.value, k) == GetValue(r, k)
    ensures r'.Success? ==> r'.value.objects == r.objects
    ensures r'.Success? ==> ValueNames(r'.value) == ValueNames(r) + [id]
  {
    if id in r.values then Failure(AlreadyPersisted(id))
    else Success(Run(r.values[id := q], r.names + [id], r.objects))
  }

  lemma PersistKeepsValid(r: Run, id: VarId, q: Quantity)
    requires Valid(r) && Persist(r, id, q).Success?
    ensures Valid(Persist(r, id, q).value)
  {
    var r' := Persist(r, id, q).value;
    assert id !in r.names;
    forall i, j | 0 <= i < j < |r'.names| ensures r'.names[i] != r'.names[j] {
      if j == |r.names| {
        assert r'.names[i] == r.names[i];
      } else {
        assert r'.names[i] == r.names[i] && r'.names[j] == r.names[j];
      }
    }
  }

  function GetValue(r: Run, id: VarId): (q: Result<Quantity, Error>)
    ensures q.Success? <==> HasValue(r, id)
    ensures q.Failure? ==> q.error == NotPersisted(id)
  {
    if id in r.values then Success(r.values[id]) else Failure(NotPersisted(id))
  }

  predicate HasObject(r: Run, id: VarId) {
    id in r.objects
  }

  /**
   * Stores an auxiliary object. Only the value store is checked, so an object
   * may be replaced by a later write under the same name.
   */
  function PersistObject(r: Run, id: VarId, o: Quantity): (r': Result<Run, Error>)
    ensures r'.Success? <==> !HasValue(r, id)
    ensures r'.Success? ==> GetObject(r'.value, id) == Success(o)
    ensures r'.Success? ==> r'.value.values == r.values && r'.value.names == r.names
  {
    if id in r.values then Failure(AlreadyPersisted(id))
    else Success(r.(objects := r.objects[id := o]))
  }

  function GetObject(r: Run, id: VarId): (o: Result<Quantity, Error>)
    ensures o.Success? <==> HasObject(r, id)
    ensures o.Failure? ==> o.error == NotPersisted(id)
  {
    if id in r.objects then Success(r.objects[id]) else Failure(NotPersisted(id))
  }

  /** The persisted value names in insertion order. */
  function ValueNames(r: Run): (ns: seq<VarId>)
    ensures Valid(r) ==> forall id :: id in ns <==> HasValue(r, id)
  {
    r.names
  }

  /** Persists the given entries one after another, stopping at the first failure. */
  function PersistAll(r: Run, entries: seq<(VarId, Quantity)>): Result<Run, Error>
    decreases |entries|
  {
    if |entries| == 0 then Success(r)
    else
      var r1 :- Persist(r, entries[0].0, entries[0].1);
      PersistAll(r1, entries[1..])
  }

  /** A sequence of writes succeeds exactly when its names are distinct and not yet written. */
  lemma {:induction false} PersistAllSucceeds(r: Run, entries: seq<(VarId, Quantity)>)
    ensures PersistAll(r, entries).Success? <==>
      Distinct(Ids(entries)) && forall id :: id in Ids(entries) ==> !HasValue(r, id)
    decreases |entries|
  {
    if |entries| > 0 {
      var e := entries[0];
      assert Ids(entries) == [e.0] + Ids(entries[1..]);
      DistinctCons(e.0, Ids(entries[1..]));
      var p := Persist(r, e.0, e.1);
      if p.Success? {
        PersistAllSucceeds(p.value, entries[1..]);
      }
    }
  }

  /** After a successful sequence of writes the names are listed in write order. */
  lemma {:induction false} PersistAllNames(r: Run, entries: seq<(VarId, Quantity)>)
    requires PersistAll(r, entries).Success?
    ensures ValueNames(PersistAll(r, entries).value) == ValueNames(r) + Ids(entries)
    decreases |entries|
  {
    if |entries| > 0 {
      var e := entries[0];
      var r1 := Persist(r, e.0, e.1).value;
      var tail := entries[1..];
      assert PersistAll(r, entries) == PersistAll(r1, tail);
      PersistAllNames(r1, tail);
      assert Ids(entries) == [e.0] + Ids(tail);
      assert ValueNames(r1) == ValueNames(r) + [e.0];
    }
  }

  /** After a successful sequence of writes a name has a value exactly when it had one or was written. */
  lemma {:induction false} PersistAllHas(r: Run, entries: seq<(VarId, Quantity)>, id: VarId)
    requires PersistAll(r, entries).Success?
    ensures HasValue(PersistAll(r, entries).value, id) <==> HasValue(r, id) || id in Ids(entries)
    decreases |entries|
  {
    if |entries| > 0 {
      var e := entries[0];
      var r1 := Persist(r, e.0, e.1).value;
      var tail := entries[1..];
      assert PersistAll(r, entries) == PersistAll(r1, tail);
      PersistAllHas(r1, tail, id);
      assert Ids(entries) == [e.0] + Ids(tail);
    }
  }

  /** A successful sequence of writes keeps the store valid. */
  lemma {:induction false} PersistAllValid(r: Run, entries: seq<(VarId, Quantity)>)
    requires Valid(r)
    requires PersistAll(r, entries).Success?
    ensures Valid(PersistAll(r, entries).value)
    decreases |entries|
  {
    if |entries| > 0 {
      var e := entries[0];
      var r1 := Persist(r, e.0, e.1).value;
      PersistKeepsValid(r, e.0, e.1);
      assert PersistAll(r, entries) == PersistAll(r1, entries[1..]);
      PersistAllValid(r1, entries[1..]);
    }
  }

  /** Every written name holds the value written under it. */
  lemma {:induction false} PersistAllValues(r: Run, entries: seq<(VarId, Quantity)>)
    requires PersistAll(r, entries).Success?
    ensures forall i :: 0 <= i < |entries| ==> GetValue(PersistAll(r, entries).value, entries[i].0) == Success(entries[i].1)
    decreases |entries|
  {
    if |entries| > 0 {
      var e := entries[0];
      var r1 := Persist(r, e.0, e.1).value;
      var r' := PersistAll(r1, entries[1..]).value;
      PersistAllValues(r1, entries[1..]);
      PersistAllSucceeds(r1, entries[1..]);
      forall i | 0 <= i < |entries|
        ensures GetValue(r', entries[i].0) == Success(entries[i].1)
      {
        if i > 0 {
          assert entries[i] == entries[1..][i - 1];
        } else {
          GetUntouched(r1, entries[1..], e.0);
        }
      }
    }
  }

  /** Writes under other names leave a name's value alone. */
  lemma {:induction false} GetUntouched(r: Run, entries: seq<(VarId, Quantity)>, id: VarId)
    requires id !in Ids(entries)
    ensures PersistAll(r, entries).Success? ==> GetValue(PersistAll(r, entries).value, id) == GetValue(r, id)
    decreases |entries|
  {
    if |entries| > 0 {
      assert Ids(entries) == [entries[0].0] + Ids(entries[1..]);
      var p := Persist(r, entries[0].0, entries[0].1);
      if p.Success? {
        GetUntouched(p.value, entries[1..], id);
      }
    }
  }
}

=== FILE: samples.dfy ===
/**
 * `Sample`: a series of observed numbers, sorted when the sample is made,
 * with their unit; its mean, median and quartiles. Also
 * `RandomVariable.sample` and `RandomVariable.mean`, which draw the numbers,
 * each in a fresh simulation run.
 */
module Samples {

  import opened Wrappers
  import opened Units
  import opened Errors
  import opened Quantities
  import opened SimulationRuns
  import opened Variables
  import opened Evaluator
  import Sorting
  import Means
  import JavaNumbers

  datatype Sample = Sample(numbers: seq<real>, unit: Unit)

  /** The order `Arrays.sort` puts the numbers in (on reals: the usual order). */
  predicate Le(a: real, b: real) {
    a <= b
  }

  lemma LeIsTotalOrder()
    ensures Sorting.TotalOrder(Le)
  {
  }

  /** `new Sample(numbers, unit)`: the numbers are sorted. */
  function Make(numbers: seq<real>, unit: Unit): Sample {
    Sample(Sorting.Sort(numbers, Le), unit)
  }

  /** A sample holds its observations sorted: a sorted permutation of them. */
  lemma MakeSorts(numbers: seq<real>, unit: Unit)
    ensures var s := Make(numbers, unit);
      && s.unit == unit
      && Sorting.SortedBy(s.numbers, Le)
      && multiset(s.numbers) == multiset(numbers)
      && |s.numbers| == |numbers|
  {
    LeIsTotalOrder();
    Sorting.SortSorted(numbers, Le);
    Sorting.SortPermutes(numbers, Le);
  }

  /** The sample depends on the multiset of observations only, not on their order. */
  lemma MakeOrderFree(xs: seq<real>, ys: seq<real>, unit: Unit)
    requires multiset(xs) == multiset(ys)
    ensures Make(xs, unit) == Make(ys, unit)
  {
    LeIsTotalOrder();
    Sorting.SortByMultiset(xs, ys, Le);
  }

  /** `mean()`: `Mean.of(numbers).get()`; an empty sample has no mean (NaN in Java). */
  function Mean(s: Sample): Option<real> {
    Means.Get(Means.Of(s.numbers))
  }

  /** `meanQ()`: the mean in the sample's unit. */
  function MeanQ(s: Sample): (r: Option<Quantity>)
    ensures r.Some? <==> |s.numbers| > 0
    ensures r.Some? ==> r.value.unit == s.unit && Some(r.value.value) == Mean(s)
  {
    match Mean(s)
    case None => None
    case Some(m) => Some(Quantity(m, s.unit))
  }

  /** Sorting does not change the mean: the sample's mean is that of the observations as drawn. */
  lemma MeanOfObservations(numbers: seq<real>, unit: Unit)
    ensures Mean(Make(numbers, unit)) == Means.Get(Means.Of(numbers))
  {
    MakeSorts(numbers, unit);
    Means.SumPermutation(Make(numbers, unit).numbers, numbers);
  }

  /** `numbers[i]`, which throws when `i` lies outside the array. */
  function At(s: Sample, i: int): (r: Result<real, Error>)
    ensures r.Success? <==> 0 <= i < |s.numbers|
    ensures r.Success? ==> r.value == s.numbers[i]
    ensures r.Failure? ==> r.error == IndexOutOfRange(i, |s.numbers|)
  {
    if 0 <= i < |s.numbers| then Success(s.numbers[i]) else Failure(IndexOutOfRange(i, |s.numbers|))
  }

  /** `median()`: the number at index `length / 2`. */
  function Median(s: Sample): Result<real, Error> {
    At(s, |s.numbers| / 2)
  }

  /** The index of the upper quartile: `length * 3 / 4` in 32-bit arithmetic. */
  function UpperIndex(n: nat): int {
    JavaNumbers.Quot(JavaNumbers.Wrap32(n * 3), 4)
  }

  /** The five numbers `toString` reports besides the mean. */
  datatype Summary = Summary(min: real, lowerQuartile: real, median: real, upperQuartile: real, max: real)

  /** The order statistics `toString` reads off the sorted numbers. */
  function Summarize(s: Sample): Result<Summary, Error> {
    var n := |s.numbers|;
    var lo :- At(s, 0);
    var q1 :- At(s, n / 4);
    var med :- Median(s);
    var q3 :- At(s, UpperIndex(n));
    var hi :- At(s, n - 1);
    Success(Summary(lo, q1, med, q3, hi))
  }

  /** The largest array length for which `length * 3` does not overflow. */
  const MAX_SUMMARIZED: nat := 715827882

  lemma UpperIndexWithin(n: nat)
    requires 0 < n <= MAX_SUMMARIZED
    ensures n / 2 <= UpperIndex(n) < n
  {
    assert JavaNumbers.IsInt32(n * 3);
  }

  /** In sorted numbers a later index never holds a smaller number. */
  lemma SortedAt(xs: seq<real>, i: int, j: int)
    requires Sorting.SortedBy(xs, Le) && 0 <= i <= j < |xs|
    ensures xs[i] <= xs[j]
  {
    if i < j {
      assert Le(xs[i], xs[j]);
    }
  }

  /**
   * Of a non-empty sample that is not too large every statistic exists, and
   * they are ordered: min <= lower quartile <= median <= upper quartile <= max.
   * The median is one of the observations, with the sorted numbers up to its
   * index at or below it and those from its index on at or above it.
   */
  lemma SummaryOrdered(numbers: seq<real>, unit: Unit)
    requires 0 < |numbers| <= MAX_SUMMARIZED
    ensures var s := Make(numbers, unit);
      var r := Summarize(s);
      && |s.numbers| == |numbers|
      && r.Success?
      && r.value.min <= r.value.lowerQuartile <= r.value.median <= r.value.upperQuartile <= r.value.max
      && r.value.median in multiset(numbers)
      && (forall i :: 0 <= i <= |numbers| / 2 ==> s.numbers[i] <= r.value.median)
      && (forall i :: |numbers| / 2 <= i < |numbers| ==> r.value.median <= s.numbers[i])
  {
    var s := Make(numbers, unit);
    MakeSorts(numbers, unit);
    var xs, n := s.numbers, |numbers|;
    UpperIndexWithin(n);
    var q3 := UpperIndex(n);
    SortedAt(xs, 0, n / 4);
    SortedAt(xs, n / 4, n / 2);
    SortedAt(xs, n / 2, q3);
    SortedAt(xs, q3, n - 1);
    assert Summarize(s) == Success(Summary(xs[0], xs[n / 4], xs[n / 2], xs[q3], xs[n - 1]));
    assert xs[n / 2] in multiset(xs);
    forall i | 0 <= i <= n / 2 ensures xs[i] <= xs[n / 2] {
      SortedAt(xs, i, n / 2);
    }
    forall i | n / 2 <= i < n ensures xs[n / 2] <= xs[i] {
      SortedAt(xs, n / 2, i);
    }
  }

  /** Beyond that length `length * 3` wraps to a negative index and `toString` throws. */
  lemma SummaryOverflows(numbers: seq<real>, unit: Unit)
    requires |numbers| == MAX_SUMMARIZED + 1
    ensures Summarize(Make(numbers, unit)).Failure?
  {
    var n := |numbers|;
    MakeSorts(numbers, unit);
    assert JavaNumbers.Wrap32(n * 3) == n * 3 - JavaNumbers.TWO_32;
    assert UpperIndex(n) < 0;
  }

  /** An empty sample has no median: `numbers[0]` throws. */
  lemma EmptyHasNoMedian(unit: Unit)
    ensures Median(Make([], unit)) == Failure(IndexOutOfRange(0, 0))
    ensures Mean(Make([], unit)).None?
  {
    MakeSorts([], unit);
  }

  // ---------------------------------------------------------------------
  // Drawing samples
  // ---------------------------------------------------------------------

  /**
   * `n` observations of `v`, one after the other from `src`, each in a fresh
   * simulation run; their numbers and the source after the last one.
   */
  function Draws(v: RV, o: Oracle, src: Source, n: nat): (r: Result<(seq<real>, Source), Error>)
    ensures r.Success? ==> |r.value.0| == n
    decreases n
  {
    if n == 0 then Success(([], src))
    else
      var d :- Draws(v, o, src, n - 1);
      var x :- Observe(v, o, d.1, Fresh());
      Success((d.0 + [x.q.value], x.src))
  }

  /**
   * `sample(seed, n)`: `n` draws from the stream the seed names, then the
   * variable's unit; a negative count fails when the array is made.
   */
  function SampleOf(v: RV, o: Oracle, stream: nat, n: int): Result<Sample, Error> {
    if n < 0 then Failure(NegativeSize(n))
    else
      var d :- Draws(v, o, Source(stream, 0), n);
      var u :- UnitOf(v);
      Success(Make(d.0, u))
  }

  /** `mean(seed, n)`: the sum of `n` draws and the count `n`; no draw for a count of zero or less. */
  function MeanOf(v: RV, o: Oracle, stream: nat, n: int): Result<Means.Mean, Error> {
    if n <= 0 then Success(Means.Mean(0.0, n))
    else
      var d :- Draws(v, o, Source(stream, 0), n);
      Success(Means.Mean(Means.Sum(d.0), n))
  }

  /**
   * Both draw the same numbers: whenever `sample` succeeds, `mean` succeeds
   * and its value is the sample's mean, and `mean` is `Mean.of` the draws.
   */
  lemma MeanAgreesWithSample(v: RV, o: Oracle, stream: nat, n: int)
    ensures SampleOf(v, o, stream, n).Success? ==>
      MeanOf(v, o, stream, n).Success? &&
      Means.Get(MeanOf(v, o, stream, n).value) == Mean(SampleOf(v, o, stream, n).value)
    ensures n > 0 && Draws(v, o, Source(stream, 0), n).Success? ==>
      MeanOf(v, o, stream, n) == Success(Means.Of(Draws(v, o, Source(stream, 0), n).value.0))
  {
    if n > 0 && SampleOf(v, o, stream, n).Success? {
      var d := Draws(v, o, Source(stream, 0), n).value;
      MeanOfObservations(d.0, UnitOf(v).value);
    }
  }

  /**
   * Each draw starts from a fresh run, so persisting a variable changes
   * nothing between draws: a persistent variable draws the numbers its base
   * draws, a new value each time rather than the first one repeated.
   */
  lemma {:induction false} DrawsOfPersistent(name: VarIds.VarId, b: RV, o: Oracle, src: Source, n: nat)
    ensures Draws(Persistent(name, b), o, src, n).Success? ==>
      Draws(b, o, src, n).Success? && Draws(Persistent(name, b), o, src, n).value == Draws(b, o, src, n).value
    decreases n
  {
    if n > 0 {
      DrawsOfPersistent(name, b, o, src, n - 1);
      var d := Draws(Persistent(name, b), o, src, n - 1);
      if d.Success? {
        var x := Observe(b, o, d.value.1, Fresh());
        assert !HasValue(Fresh(), name);
        assert Observe(Persistent(name, b), o, d.value.1, Fresh()) == ObservePersistent(Persistent(name, b), o, d.value.1, Fresh());
        if x.Success? {
          assert Observe(Persistent(name, b), o, d.value.1, Fresh()).Success? ==>
                 Observe(Persistent(name, b), o, d.value.1, Fresh()).value.q == x.value.q &&
                 Observe(Persistent(name, b), o, d.value.1, Fresh()).value.src == x.value.src;
        }
      }
    }
  }
}

=== FILE: series_laws.dfy ===
/**
 * Laws of the time series: what `getFor(t)` resolves for each kind of
 * series, and what the resolved variables observe to.
 */
module SeriesLaws {

  import opened Wrappers
  import opened Units
  import opened VarIds
  import opened Errors
  import opened Quantities
  import opened SimulationRuns
  import opened Variables
  import opened Evaluator
  import opened Models
  import CombinatorLaws
  import Means

  // ---------------------------------------------------------------------
  // Concrete series

  /** Inside the list, time t resolves the t-th variable. */
  lemma ConcreteWithin(m: Model, inst: Instance, repeat: Repeat, ids: seq<VarId>, t: int, visiting: set<VarId>)
    requires 0 <= t < |ids|
    ensures GetFor(m, inst, Concrete(repeat, ids), t, visiting) == Get(m, inst, ids[t], visiting)
  {
  }

  /**
   * Beyond the list, NONE is an error and LAST resolves the last variable;
   * a negative time is an error for both.
   */
  lemma ConcreteBeyond(m: Model, inst: Instance, repeat: Repeat, ids: seq<VarId>, t: int, visiting: set<VarId>)
    ensures t < 0 ==> GetFor(m, inst, Concrete(repeat, ids), t, visiting).Failure?
    ensures t >= |ids| && repeat == NONE ==> GetFor(m, inst, Concrete(repeat, ids), t, visiting).Failure?
    ensures t >= |ids| > 0 && repeat == LAST ==>
      GetFor(m, inst, Concrete(repeat, ids), t, visiting) == Get(m, inst, ids[|ids| - 1], visiting)
  {
  }

  // ---------------------------------------------------------------------
  // Delayed series

  /** Before the delay: a fixed zero in the unit base(0) declares, resolved from the same instance. */
  lemma DelayedPads(m: Model, inst: Instance, base: TimeSeries, delay: int, t: int, visiting: set<VarId>)
    requires t < delay
    requires GetFor(m, inst, base, 0, visiting).Success?
    ensures var b := GetFor(m, inst, base, 0, visiting).value;
      var r := GetFor(m, inst, Delayed(base, delay), t, visiting);
      && (r.Success? <==> UnitOf(b.v).Success?)
      && (r.Success? ==> r.value == Resolved(Fixed(Quantity(0.0, UnitOf(b.v).value)), b.inst))
  {
  }

  /** From the delay on, the delayed series at t + delay is the base series at t. */
  lemma DelayedShifts(m: Model, inst: Instance, base: TimeSeries, delay: int, t: int, visiting: set<VarId>)
    requires t >= 0 && delay >= 0
    ensures GetFor(m, inst, Delayed(base, delay), t + delay, visiting) == GetFor(m, inst, base, t, visiting)
  {
  }

  /** A delay of zero changes nothing at any time t >= 0. */
  lemma DelayZero(m: Model, inst: Instance, base: TimeSeries, t: int, visiting: set<VarId>)
    requires t >= 0
    ensures GetFor(m, inst, Delayed(base, 0), t, visiting) == GetFor(m, inst, base, t, visiting)
  {
    DelayedShifts(m, inst, base, 0, t, visiting);
  }

  // ---------------------------------------------------------------------
  // Differential series

  /** At time 0 the slope is base(0) times a scalar zero, in base(0)'s unit. */
  lemma DifferentialStart(m: Model, inst: Instance, base: TimeSeries, visiting: set<VarId>)
    requires GetFor(m, inst, base, 0, visiting).Success?
    ensures var b := GetFor(m, inst, base, 0, visiting).value;
      var r := GetFor(m, inst, Differential(base), 0, visiting);
      && r == Success(Resolved(TimesFactor(b.v, 0.0), b.inst))
      && (UnitOf(b.v).Success? ==> UnitOf(r.value.v) == UnitOf(b.v))
  {
  }

  /** Observing the time-0 slope gives zero in the base's unit. */
  lemma TimesZeroObservesZero(v: RV, o: Oracle, src: Source, run: Run)
    requires Observe(v, o, src, run).Success?
    ensures var x := Observe(v, o, src, run).value;
      var r := Observe(TimesFactor(v, 0.0), o, src, run);
      && r.Success?
      && r.value.q == Quantity(0.0, x.q.unit)
  {
    var x := Observe(v, o, src, run).value;
    CombinatorLaws.ProductSucceeds(v, Fixed(Quantity(0.0, Scalar())), o, src, run);
    CombinatorLaws.ProductValue(v, Fixed(Quantity(0.0, Scalar())), o, src, run);
    ScalarIdentity(x.q.unit);
  }

  /** After time 0 the slope is base(t) minus base(t - 1), both resolved in turn from the instance. */
  lemma DifferentialStep(m: Model, inst: Instance, base: TimeSeries, t: int, visiting: set<VarId>)
    requires t != 0
    requires GetFor(m, inst, base, t, visiting).Success?
    ensures var cur := GetFor(m, inst, base, t, visiting).value;
      var prev := GetFor(m, cur.inst, base, t - 1, visiting);
      var r := GetFor(m, inst, Differential(base), t, visiting);
      && (r.Success? <==> prev.Success?)
      && (r.Success? ==> r.value == Resolved(Difference(cur.v, prev.value.v), prev.value.inst))
  {
  }

  // ---------------------------------------------------------------------
  // Exponential growth

  /** base * rate * rate * ... (t factors of rate), multiplied from the left. */
  function Chain(b: RV, g: RV, t: nat): RV {
    if t == 0 then b else Product(Chain(b, g, t - 1), g)
  }

  function Power(x: real, t: nat): real {
    if t == 0 then 1.0 else Power(x, t - 1) * x
  }

  function Mul(a: real, b: real): real {
    a * b
  }

  /** `b` multiplied by `x`, t times over. */
  function Grow(b: real, x: real, t: nat): real {
    if t == 0 then b else Mul(Grow(b, x, t - 1), x)
  }

  /** Growing t times is multiplying by the t-th power. */
  lemma {:induction false} GrowIsPower(b: real, x: real, t: nat)
    ensures Grow(b, x, t) == b * Power(x, t)
  {
    if t > 0 {
      GrowIsPower(b, x, t - 1);
      PowerStep(b, x, t);
    }
  }

  /**
   * Once the base and the rate are resolved in the instance, time t resolves
   * to the chain base * rate * ... * rate with t factors of the rate, and
   * the instance is left as it is.
   */
  lemma {:induction false} ExpGrowthChain(m: Model, inst: Instance, baseId: VarId, rate: VarId, t: nat, visiting: set<VarId>)
    requires baseId in inst.vars && rate in inst.vars
    ensures GetFor(m, inst, ExpGrowth(baseId, rate), t, visiting) ==
      Success(Resolved(Chain(inst.vars[baseId], inst.vars[rate], t), inst))
  {
    if t > 0 {
      ExpGrowthChain(m, inst, baseId, rate, t - 1, visiting);
    }
  }

  /** A negative time is an error. */
  lemma ExpGrowthNegative(m: Model, inst: Instance, baseId: VarId, rate: VarId, t: int, visiting: set<VarId>)
    requires t < 0
    ensures GetFor(m, inst, ExpGrowth(baseId, rate), t, visiting).Failure?
  {
  }

  /**
   * A variable whose observation in `run` is `q` without drawing: a fixed
   * quantity, or a persistent variable that already holds `q` in the run.
   */
  predicate Settled(v: RV, q: Quantity, run: Run) {
    v == Fixed(q) || (v.Persistent? && HasValue(run, v.name) && run.values[v.name] == q)
  }

  lemma SettledObserve(v: RV, q: Quantity, o: Oracle, src: Source, run: Run)
    requires Settled(v, q, run)
    ensures Observe(v, o, src, run) == Success(Obs(q, src, run))
  {
  }

  /** Multiplying a drawless observation by a settled variable draws nothing either. */
  lemma ProductSettled(a: RV, g: RV, qg: Quantity, o: Oracle, src: Source, run: Run)
    requires Observe(a, o, src, run).Success?
    requires Observe(a, o, src, run).value.src == src && Observe(a, o, src, run).value.run == run
    requires Settled(g, qg, run)
    ensures var x := Observe(a, o, src, run).value;
      var r := Observe(Product(a, g), o, src, run);
      && r.Success?
      && r.value.q == Quantities.Times(x.q, qg)
      && r.value.src == src && r.value.run == run
  {
    SettledObserve(g, qg, o, src, run);
    CombinatorLaws.ProductSucceeds(a, g, o, src, run);
    CombinatorLaws.ProductValue(a, g, o, src, run);
  }

  lemma TimesByScalarValue(q: Quantity, w: real)
    ensures Quantities.Times(q, Quantity(w, Scalar())).value == Mul(q.value, w)
  {
  }

  lemma TimesByScalarUnit(q: Quantity, w: real)
    ensures Quantities.Times(q, Quantity(w, Scalar())).unit == q.unit
  {
    ScalarIdentity(q.unit);
  }

  /** Multiplying by a scalar multiplies the number and keeps the unit. */
  lemma TimesByScalar(q: Quantity, w: real)
    ensures Quantities.Times(q, Quantity(w, Scalar())) == Quantity(Mul(q.value, w), q.unit)
  {
    TimesByScalarValue(q, w);
    TimesByScalarUnit(q, w);
  }

  /**
   * With the base and a scalar rate settled in the run, the chain observes
   * to base * rate^t in the base's unit, without drawing and without
   * changing the run, so a second observation in the same run gives the
   * same value.
   */
  lemma {:induction false} ChainObserve(b: RV, g: RV, qb: Quantity, w: real, t: nat, o: Oracle, src: Source, run: Run)
    requires Settled(b, qb, run) && Settled(g, Quantity(w, Scalar()), run)
    ensures var r := Observe(Chain(b, g, t), o, src, run);
      && r.Success?
      && r.value.q == Quantity(Grow(qb.value, w, t), qb.unit)
      && r.value.src == src && r.value.run == run
  {
    if t == 0 {
      ChainBase(b, g, qb, w, o, src, run);
    } else {
      ChainObserve(b, g, qb, w, t - 1, o, src, run);
      ChainStep(b, g, qb, w, t, o, src, run);
    }
  }

  /** With no factor of the rate, the chain is its settled base. */
  lemma ChainBase(b: RV, g: RV, qb: Quantity, w: real, o: Oracle, src: Source, run: Run)
    requires Settled(b, qb, run)
    ensures var r := Observe(Chain(b, g, 0), o, src, run);
      && r.Success?
      && r.value.q == Quantity(Grow(qb.value, w, 0), qb.unit)
      && r.value.src == src && r.value.run == run
  {
    SettledObserve(b, qb, o, src, run);
  }

  /** One more factor of the rate multiplies the observed quantity by it. */
  lemma ChainStep(b: RV, g: RV, qb: Quantity, w: real, t: nat, o: Oracle, src: Source, run: Run)
    requires t > 0
    requires Settled(g, Quantity(w, Scalar()), run)
    requires var x := Observe(Chain(b, g, t - 1), o, src, run);
      && x.Success?
      && x.value.q == Quantity(Grow(qb.value, w, t - 1), qb.unit)
      && x.value.src == src && x.value.run == run
    ensures var r := Observe(Chain(b, g, t), o, src, run);
      && r.Success?
      && r.value.q == Quantity(Grow(qb.value, w, t), qb.unit)
      && r.value.src == src && r.value.run == run
  {
    var before := Quantity(Grow(qb.value, w, t - 1), qb.unit);
    ProductSettled(Chain(b, g, t - 1), g, Quantity(w, Scalar()), o, src, run);
    assert Quantities.Times(before, Quantity(w, Scalar())) == Quantity(Grow(qb.value, w, t), qb.unit) by {
      TimesByScalar(before, w);
    }
    assert Chain(b, g, t) == Product(Chain(b, g, t - 1), g);
  }

  lemma PowerStep(b: real, x: real, t: nat)
    requires t > 0
    ensures b * Power(x, t - 1) * x == b * Power(x, t)
  {
  }

  /** With base 10 and rate 2 settled in a run, times 1, 2 and 3 observe 20, 40 and 80. */
  lemma ExpGrowthFirstRun(b: RV, g: RV, o: Oracle, src: Source, run: Run)
    requires Settled(b, Quantity(10.0, Scalar()), run) && Settled(g, Quantity(2.0, Scalar()), run)
    ensures var r := Observe(Chain(b, g, 1), o, src, run); r.Success? && r.value.q.value == 20.0
    ensures var r := Observe(Chain(b, g, 2), o, src, run); r.Success? && r.value.q.value == 40.0
    ensures var r := Observe(Chain(b, g, 3), o, src, run); r.Success? && r.value.q.value == 80.0
  {
    ChainObserve(b, g, Quantity(10.0, Scalar()), 2.0, 1, o, src, run);
    ChainObserve(b, g, Quantity(10.0, Scalar()), 2.0, 2, o, src, run);
    ChainObserve(b, g, Quantity(10.0, Scalar()), 2.0, 3, o, src, run);
  }

  /** With base 6 and rate 3 settled in another run, times 1, 2 and 3 observe 18, 54 and 162. */
  lemma ExpGrowthSecondRun(b: RV, g: RV, o: Oracle, src: Source, run: Run)
    requires Settled(b, Quantity(6.0, Scalar()), run) && Settled(g, Quantity(3.0, Scalar()), run)
    ensures var r := Observe(Chain(b, g, 1), o, src, run); r.Success? && r.value.q.value == 18.0
    ensures var r := Observe(Chain(b, g, 2), o, src, run); r.Success? && r.value.q.value == 54.0
    ensures var r := Observe(Chain(b, g, 3), o, src, run); r.Success? && r.value.q.value == 162.0
  {
    ChainObserve(b, g, Quantity(6.0, Scalar()), 3.0, 1, o, src, run);
    ChainObserve(b, g, Quantity(6.0, Scalar()), 3.0, 2, o, src, run);
    ChainObserve(b, g, Quantity(6.0, Scalar()), 3.0, 3, o, src, run);
  }

  // ---------------------------------------------------------------------
  // Linear growth

  /** Once base and growth are resolved, time t is base plus growth times t, and the instance stays as it is. */
  lemma LinearGrowthResolves(m: Model, inst: Instance, baseId: VarId, growth: VarId, t: int, visiting: set<VarId>)
    requires baseId in inst.vars && growth in inst.vars
    ensures GetFor(m, inst, LinearGrowth(baseId, growth), t, visiting) ==
      Success(Resolved(Sum(inst.vars[baseId], TimesFactor(inst.vars[growth], t as real)), inst))
  {
  }

  /** Multiplying a settled variable by a number draws nothing and scales its number. */
  lemma ScaledSettled(g: RV, qg: Quantity, f: real, o: Oracle, src: Source, run: Run)
    requires Settled(g, qg, run)
    ensures var r := Observe(TimesFactor(g, f), o, src, run);
      && r.Success?
      && r.value.q == Quantity(Mul(qg.value, f), qg.unit)
      && r.value.src == src && r.value.run == run
  {
    SettledObserve(g, qg, o, src, run);
    ProductSettled(g, Fixed(Quantity(f, Scalar())), Quantity(f, Scalar()), o, src, run);
    TimesByScalar(qg, f);
  }

  /** A sum of two drawless observations in different units fails with both units named. */
  lemma SumMismatch(a: RV, b: RV, qa: Quantity, qb: Quantity, o: Oracle, src: Source, run: Run)
    requires Observe(a, o, src, run) == Success(Obs(qa, src, run))
    requires Observe(b, o, src, run) == Success(Obs(qb, src, run))
    requires qa.unit != qb.unit
    ensures Observe(Sum(a, b), o, src, run) == Failure(IncompatibleUnits(qa.unit, qb.unit))
  {
    assert Quantities.Plus(qa, qb) == Failure(IncompatibleUnits(qa.unit, qb.unit));
  }

  /**
   * With base and growth settled, the linear series at t observes to
   * base + growth * t in the base's unit; it fails exactly when the two
   * units differ, because the factor t is a scalar.
   */
  lemma LinearObserve(b: RV, g: RV, qb: Quantity, qg: Quantity, t: int, o: Oracle, src: Source, run: Run)
    requires Settled(b, qb, run) && Settled(g, qg, run)
    ensures var r := Observe(Sum(b, TimesFactor(g, t as real)), o, src, run);
      && (r.Success? <==> qb.unit == qg.unit)
      && (r.Failure? ==> r.error == IncompatibleUnits(qb.unit, qg.unit))
      && (r.Success? ==> r.value.q == Quantity(qb.value + Mul(qg.value, t as real), qb.unit))
  {
    var scaled := TimesFactor(g, t as real);
    SettledObserve(b, qb, o, src, run);
    ScaledSettled(g, qg, t as real, o, src, run);
    CombinatorLaws.SumSucceeds(b, scaled, o, src, run);
    CombinatorLaws.SumValue(b, scaled, o, src, run);
    if qb.unit != qg.unit {
      SumMismatch(b, scaled, qb, Quantity(Mul(qg.value, t as real), qg.unit), o, src, run);
    }
  }

  /** At time 0 the linear series observes to the base itself. */
  lemma LinearAtZero(b: RV, g: RV, qb: Quantity, qg: Quantity, o: Oracle, src: Source, run: Run)
    requires Settled(b, qb, run) && Settled(g, qg, run)
    requires qb.unit == qg.unit
    ensures var r := Observe(Sum(b, TimesFactor(g, 0.0)), o, src, run);
      r.Success? && r.value.q == qb
  {
    LinearObserve(b, g, qb, qg, 0, o, src, run);
    assert Mul(qg.value, 0 as real) == 0.0;
  }

  // ---------------------------------------------------------------------
  // Combined and transformed series

  /**
   * A combined series at t combines s1(t), on the left, with s2(t); both are
   * resolved for the same time, s2 from where s1 left the instance.
   */
  lemma CombinedPointwise(m: Model, inst: Instance, s1: TimeSeries, s2: TimeSeries, op: Combiner, t: int, visiting: set<VarId>)
    requires GetFor(m, inst, s1, t, visiting).Success?
    ensures var a := GetFor(m, inst, s1, t, visiting).value;
      var b := GetFor(m, a.inst, s2, t, visiting);
      var r := GetFor(m, inst, Combined(s1, s2, op), t, visiting);
      && (r.Success? <==> b.Success?)
      && (r.Success? ==> r.value == Resolved(Combine(op, a.v, b.value.v), b.value.inst))
  {
  }

  /** `plus` on series observes, at each time, to the sum with s1's number on the left, under the unit check. */
  lemma CombinedPlusObserve(a: RV, b: RV, qa: Quantity, qb: Quantity, o: Oracle, src: Source, run: Run)
    requires Settled(a, qa, run) && Settled(b, qb, run)
    ensures var r := Observe(Combine(PlusOp, a, b), o, src, run);
      && (r.Success? <==> qa.unit == qb.unit)
      && (r.Success? ==> r.value.q == Quantity(qa.value + qb.value, qa.unit))
  {
    SettledObserve(a, qa, o, src, run);
    SettledObserve(b, qb, o, src, run);
    CombinatorLaws.SumSucceeds(a, b, o, src, run);
    CombinatorLaws.SumValue(a, b, o, src, run);
  }

  /**
   * A transformed series uses the very same memoised variable for its
   * named operand at every time: resolving time t1 and then time t2 from
   * the instance the first left combines both with the variable stored
   * under `other`.
   */
  lemma TransformedSharesVariable(m: Model, inst: Instance, s1: TimeSeries, other: VarId, op: Combiner, t1: int, t2: int, visiting: set<VarId>)
    requires GetFor(m, inst, Transformed(s1, other, op), t1, visiting).Success?
    requires var r1 := GetFor(m, inst, Transformed(s1, other, op), t1, visiting).value;
      GetFor(m, r1.inst, Transformed(s1, other, op), t2, visiting).Success?
    ensures var r1 := GetFor(m, inst, Transformed(s1, other, op), t1, visiting).value;
      GetFor(m, inst, s1, t1, visiting).Success? && GetFor(m, r1.inst, s1, t2, visiting).Success?
    ensures var r1 := GetFor(m, inst, Transformed(s1, other, op), t1, visiting).value;
      var r2 := GetFor(m, r1.inst, Transformed(s1, other, op), t2, visiting).value;
      var a1 := GetFor(m, inst, s1, t1, visiting).value;
      var a2 := GetFor(m, r1.inst, s1, t2, visiting).value;
      && other in r1.inst.vars
      && r1.v == Combine(op, a1.v, r1.inst.vars[other])
      && r2.v == Combine(op, a2.v, r1.inst.vars[other])
  {
    var r1 := GetFor(m, inst, Transformed(s1, other, op), t1, visiting).value;
    var a1 := GetFor(m, inst, s1, t1, visiting).value;
    var w := Get(m, a1.inst, other, visiting).value;
    assert r1 == Resolved(Combine(op, a1.v, w.v), w.inst);
    var a2 := GetFor(m, r1.inst, s1, t2, visiting).value;
    assert other in a2.inst.vars && a2.inst.vars[other] == w.v;
  }

  // ---------------------------------------------------------------------
  // Conditional series

  /**
   * The probability of a conditional series is the same memoised variable
   * at every time: resolving t1 and then t2 conditions both on the
   * variable stored under `prob`.
   */
  lemma ConditionalSharesProbability(m: Model, inst: Instance, prob: VarId, v1: TimeSeries, v2: TimeSeries, t1: int, t2: int, visiting: set<VarId>)
    requires GetFor(m, inst, CondSeries(prob, v1, v2), t1, visiting).Success?
    requires var r1 := GetFor(m, inst, CondSeries(prob, v1, v2), t1, visiting).value;
      GetFor(m, r1.inst, CondSeries(prob, v1, v2), t2, visiting).Success?
    ensures var r1 := GetFor(m, inst, CondSeries(prob, v1, v2), t1, visiting).value;
      var r2 := GetFor(m, r1.inst, CondSeries(prob, v1, v2), t2, visiting).value;
      && prob in r1.inst.vars
      && r1.v.Conditional? && r1.v.prob == r1.inst.vars[prob]
      && r2.v.Conditional? && r2.v.prob == r1.inst.vars[prob]
  {
    CondSeriesResolves(m, inst, prob, v1, v2, t1, visiting);
    var r1 := GetFor(m, inst, CondSeries(prob, v1, v2), t1, visiting).value;
    CondSeriesResolves(m, r1.inst, prob, v1, v2, t2, visiting);
  }

  /**
   * A conditional series at one time conditions on the variable the
   * instance holds under `prob` afterwards, the one it already held if any.
   */
  lemma CondSeriesResolves(m: Model, inst: Instance, prob: VarId, v1: TimeSeries, v2: TimeSeries, t: int, visiting: set<VarId>)
    requires GetFor(m, inst, CondSeries(prob, v1, v2), t, visiting).Success?
    ensures var r := GetFor(m, inst, CondSeries(prob, v1, v2), t, visiting).value;
      && prob in r.inst.vars && r.v.Conditional? && r.v.prob == r.inst.vars[prob]
      && (prob in inst.vars ==> r.v.prob == inst.vars[prob])
  {
    var p := Get(m, inst, prob, visiting).value;
    assert prob in p.inst.vars && p.inst.vars[prob] == p.v;
  }

  /**
   * A persisted probability of 0 or 1 gives a consistent series: at any
   * time, from any position of the random source, the conditional
   * observes the same side.
   */
  lemma ConditionalPersistedCertain(name: VarId, base: RV, v1: RV, v2: RV, o: Oracle, src: Source, run: Run)
    requires ValidOracle(o)
    requires HasValue(run, name)
    requires run.values[name].value <= 0.0 || run.values[name].value >= 1.0
    ensures Observe(Conditional(Persistent(name, base), v1, v2), o, src, run) ==
      if run.values[name].value >= 1.0 then Observe(v1, o, Skip(src, 1), run) else Observe(v2, o, Skip(src, 1), run)
  {
    var p := Persistent(name, base);
    assert Observe(p, o, Skip(src, 1), run) == Success(Obs(run.values[name], Skip(src, 1), run));
    if run.values[name].value >= 1.0 {
      CombinatorLaws.ConditionalAlways(p, v1, v2, o, src, run);
    } else {
      CombinatorLaws.ConditionalNever(p, v1, v2, o, src, run);
    }
  }

  /** A random source whose first draw is 0.25 and every later draw 0.75. */
  function LowThenHigh(): Oracle {
    Oracle((s: nat, p: nat) => if p == 0 then 0.25 else 0.75, (s: nat, p: nat, b: int) => 0, (d: Sampler, s: nat, p: nat) => 0.0, (s: nat, p: nat) => 0)
  }

  /**
   * A persisted probability strictly between 0 and 1 does not make the
   * series consistent: with probability 0.5 stored, series 1 = (1, 2) and
   * series 2 = (100, 200), the sum over times 0 and 1 can observe to
   * 1 + 200, a mix of both series, rather than 3 or 300.
   */
  lemma ConditionalPersistedMixes(name: VarId, base: RV, u: Unit, run: Run)
    requires HasValue(run, name) && run.values[name] == Quantity(0.5, Scalar())
    ensures var p := Persistent(name, base);
      var c0 := Conditional(p, Fixed(Quantity(1.0, u)), Fixed(Quantity(100.0, u)));
      var c1 := Conditional(p, Fixed(Quantity(2.0, u)), Fixed(Quantity(200.0, u)));
      var r := Observe(Sum(c0, c1), LowThenHigh(), Source(0, 0), run);
      r.Success? && r.value.q == Quantity(201.0, u)
  {
    var o := LowThenHigh();
    var p := Persistent(name, base);
    var c0 := Conditional(p, Fixed(Quantity(1.0, u)), Fixed(Quantity(100.0, u)));
    var c1 := Conditional(p, Fixed(Quantity(2.0, u)), Fixed(Quantity(200.0, u)));
    var half := Quantity(0.5, Scalar());
    SettledObserve(p, half, o, Source(0, 1), run);
    assert Observe(Fixed(Quantity(1.0, u)), o, Source(0, 1), run) == Success(Obs(Quantity(1.0, u), Source(0, 1), run));
    assert Observe(c0, o, Source(0, 0), run) == Success(Obs(Quantity(1.0, u), Source(0, 1), run));
    SettledObserve(p, half, o, Source(0, 2), run);
    assert Uniform(o, Source(0, 1)) == 0.75;
    assert Observe(Fixed(Quantity(200.0, u)), o, Source(0, 2), run) == Success(Obs(Quantity(200.0, u), Source(0, 2), run));
    assert Observe(c1, o, Source(0, 1), run) == Success(Obs(Quantity(200.0, u), Source(0, 2), run));
    CombinatorLaws.SumSucceeds(c0, c1, o, Source(0, 0), run);
    CombinatorLaws.SumValue(c0, c1, o, Source(0, 0), run);
  }

  // ---------------------------------------------------------------------
  // Collapse

  /** `collapse(t, t)` is `getFor(t)`, failures included. */
  lemma CollapseSingle(m: Model, inst: Instance, s: TimeSeries, t: int, visiting: set<VarId>)
    ensures Produce(m, inst, Collapsed(s, t, t), visiting) == GetFor(m, inst, s, t, visiting)
  {
    var x := GetFor(m, inst, s, t, visiting);
    if x.Success? {
      assert GetRange(m, x.value.inst, s, t + 1, t, visiting) == Success(ResolvedList([], x.value.inst));
      assert [x.value.v] + [] == [x.value.v];
      assert GetRange(m, inst, s, t, t, visiting) == Success(ResolvedList([x.value.v], x.value.inst));
    }
  }

  /**
   * The collapse of settled values observes, without drawing, to the sum
   * of their numbers: the left fold of `plus` adds up the whole period.
   */
  lemma {:induction false} SumAllObserve(vs: seq<RV>, xs: seq<real>, u: Unit, o: Oracle, src: Source, run: Run)
    requires |vs| == |xs| > 0
    requires forall i :: 0 <= i < |vs| ==> Settled(vs[i], Quantity(xs[i], u), run)
    ensures var r := Observe(SumAll(vs), o, src, run);
      && r.Success?
      && r.value.q == Quantity(Means.Sum(xs), u)
      && r.value.src == src && r.value.run == run
    decreases |vs|
  {
    var n := |vs|;
    if n == 1 {
      SettledObserve(vs[0], Quantity(xs[0], u), o, src, run);
      assert Means.Sum(xs) == Means.Sum(xs[..0]) + xs[0];
    } else {
      var front := vs[..n - 1];
      SumAllObserve(front, xs[..n - 1], u, o, src, run);
      SettledObserve(vs[n - 1], Quantity(xs[n - 1], u), o, src, run);
      CombinatorLaws.SumSucceeds(SumAll(front), vs[n - 1], o, src, run);
      CombinatorLaws.SumValue(SumAll(front), vs[n - 1], o, src, run);
      assert SumAll(vs) == Sum(SumAll(front), vs[n - 1]);
    }
  }
}

=== FILE: sorting.dfy ===
/**
 * Insertion sort over an arbitrary total order, and the fact that a sorted
 * permutation is unique. Java's Collections.sort and Arrays.sort are modelled
 * by this sort: under an antisymmetric total order every correct sort yields
 * the same sequence.
 */
module Sorting {

  ghost predicate Total<T(!new)>(le: (T, T) -> bool) {
    forall a, b :: le(a, b) || le(b, a)
  }

  ghost predicate Transitive<T(!new)>(le: (T, T) -> bool) {
    forall a, b, c :: le(a, b) && le(b, c) ==> le(a, c)
  }

  ghost predicate Antisymmetric<T(!new)>(le: (T, T) -> bool) {
    forall a, b :: le(a, b) && le(b, a) ==> a == b
  }

  ghost predicate TotalOrder<T(!new)>(le: (T, T) -> bool) {
    Total(le) && Transitive(le) && Antisymmetric(le)
  }

  predicate SortedBy<T>(s: seq<T>, le: (T, T) -> bool) {
    forall i, j :: 0 <= i < j < |s| ==> le(s[i], s[j])
  }

  function Insert<T>(x: T, s: seq<T>, le: (T, T) -> bool): seq<T> {
    if |s| == 0 then [x]
    else if le(x, s[0]) then [x] + s
    else [s[0]] + Insert(x, s[1..], le)
  }

  function Sort<T>(s: seq<T>, le: (T, T) -> bool): seq<T> {
    if |s| == 0 then []
    else Insert(s[0], Sort(s[1..], le), le)
  }

  /** Inserting adds exactly the one element. */
  lemma {:induction false} InsertPermutes<T>(x: T, s: seq<T>, le: (T, T) -> bool)
    ensures multiset(Insert(x, s, le)) == multiset(s) + multiset{x}
    ensures |Insert(x, s, le)| == |s| + 1
    decreases |s|
  {
    if |s| > 0 && !le(x, s[0]) {
      InsertPermutes(x, s[1..], le);
      assert s == [s[0]] + s[1..];
    }
  }

  /** Sorting permutes its input. */
  lemma {:induction false} SortPermutes<T>(s: seq<T>, le: (T, T) -> bool)
    ensures multiset(Sort(s, le)) == multiset(s)
    ensures |Sort(s, le)| == |s|
    decreases |s|
  {
    if |s| > 0 {
      SortPermutes(s[1..], le);
      InsertPermutes(s[0], Sort(s[1..], le), le);
      assert s == [s[0]] + s[1..];
      assert multiset(s) == multiset(s[1..]) + multiset{s[0]};
    }
  }

  lemma {:induction false} InsertSorted<T(!new)>(x: T, s: seq<T>, le: (T, T) -> bool)
    requires Total(le) && Transitive(le)
    requires SortedBy(s, le)
    ensures SortedBy(Insert(x, s, le), le)
    decreases |s|
  {
    if |s| > 0 && !le(x, s[0]) {
      assert le(s[0], x);
      InsertSorted(x, s[1..], le);
      var rest := Insert(x, s[1..], le);
      InsertPermutes(x, s[1..], le);
      forall k | 0 <= k < |rest|
        ensures le(s[0], rest[k])
      {
        assert rest[k] in multiset(rest);
        assert rest[k] == x || rest[k] in multiset(s[1..]);
        if rest[k] != x {
          var j :| 0 <= j < |s[1..]| && s[1..][j] == rest[k];
          assert s[1 + j] == rest[k];
        }
      }
    }
  }

  lemma {:induction false} SortSorted<T(!new)>(s: seq<T>, le: (T, T) -> bool)
    requires Total(le) && Transitive(le)
    ensures SortedBy(Sort(s, le), le)
    decreases |s|
  {
    if |s| > 0 {
      SortSorted(s[1..], le);
      InsertSorted(s[0], Sort(s[1..], le), le);
    }
  }

  /** Two sorted permutations of one multiset are the same sequence. */
  lemma {:induction false} SortedUnique<T(!new)>(a: seq<T>, b: seq<T>, le: (T, T) -> bool)
    requires Antisymmetric(le)
    requires SortedBy(a, le) && SortedBy(b, le)
    requires multiset(a) == multiset(b)
    ensures a == b
    decreases |a|
  {
    assert |a| == |multiset(a)| == |multiset(b)| == |b|;
    if |a| > 0 {
      SortedHeadsAgree(a, b, le);
      TailsAgree(a, b);
      assert SortedBy(a[1..], le) && SortedBy(b[1..], le);
      SortedUnique(a[1..], b[1..], le);
      assert a == [a[0]] + a[1..];
      assert b == [b[0]] + b[1..];
    }
  }

  /** Sorted permutations of one multiset start with the same element. */
  lemma SortedHeadsAgree<T(!new)>(a: seq<T>, b: seq<T>, le: (T, T) -> bool)
    requires Antisymmetric(le)
    requires SortedBy(a, le) && SortedBy(b, le)
    requires multiset(a) == multiset(b) && |a| > 0 && |b| > 0
    ensures a[0] == b[0]
  {
    assert a[0] in multiset(b);
    var j :| 0 <= j < |b| && b[j] == a[0];
    assert b[0] in multiset(a);
    var i :| 0 <= i < |a| && a[i] == b[0];
    if i > 0 && j > 0 {
      assert le(a[0], a[i]) && le(b[0], b[j]);
    }
  }

  /** Removing equal heads from two permutations leaves two permutations. */
  lemma TailsAgree<T>(a: seq<T>, b: seq<T>)
    requires |a| > 0 && |b| > 0 && a[0] == b[0]
    requires multiset(a) == multiset(b)
    ensures multiset(a[1..]) == multiset(b[1..])
  {
    assert a == [a[0]] + a[1..];
    assert b == [b[0]] + b[1..];
    assert multiset(a) == multiset{a[0]} + multiset(a[1..]);
    assert multiset(b) == multiset{b[0]} + multiset(b[1..]);
    assert multiset(a[1..]) == multiset(a) - multiset{a[0]};
  }

  /** Sorting depends only on the multiset of the input. */
  lemma SortByMultiset<T(!new)>(s: seq<T>, t: seq<T>, le: (T, T) -> bool)
    requires TotalOrder(le)
    requires multiset(s) == multiset(t)
    ensures Sort(s, le) == Sort(t, le)
  {
    SortSorted(s, le);
    SortSorted(t, le);
    SortPermutes(s, le);
    SortPermutes(t, le);
    SortedUnique(Sort(s, le), Sort(t, le), le);
  }

  /** A sorted sequence is its own sort. */
  lemma SortOfSorted<T(!new)>(s: seq<T>, le: (T, T) -> bool)
    requires TotalOrder(le)
    requires SortedBy(s, le)
    ensures Sort(s, le) == s
  {
    SortSorted(s, le);
    SortPermutes(s, le);
    SortedUnique(Sort(s, le), s, le);
  }
}

=== FILE: strings.dfy ===
/**
 * Strings as Java compares and prints them: the lexicographic order of
 * String.compareTo and String.join.
 */
module Strings {

  import JavaNumbers

  /** `a.compareTo(b) <= 0`: character-wise comparison, a proper prefix is smaller. */
  predicate Le(a: string, b: string)
    decreases |a|
  {
    |a| == 0 || (|b| > 0 && (a[0] < b[0] || (a[0] == b[0] && Le(a[1..], b[1..]))))
  }

  lemma {:induction false} LeReflexive(a: string)
    ensures Le(a, a)
    decreases |a|
  {
    if |a| > 0 {
      LeReflexive(a[1..]);
    }
  }

  lemma {:induction false} LeAntisymmetric(a: string, b: string)
    requires Le(a, b) && Le(b, a)
    ensures a == b
    decreases |a|
  {
    if |a| > 0 {
      assert a[0] == b[0];
      LeAntisymmetric(a[1..], b[1..]);
      assert a == [a[0]] + a[1..];
      assert b == [b[0]] + b[1..];
    }
  }

  lemma {:induction false} LeTransitive(a: string, b: string, c: string)
    requires Le(a, b) && Le(b, c)
    ensures Le(a, c)
    decreases |a|
  {
    if |a| > 0 && a[0] == b[0] && b[0] == c[0] {
      LeTransitive(a[1..], b[1..], c[1..]);
    }
  }

  lemma {:induction false} LeTotal(a: string, b: string)
    ensures Le(a, b) || Le(b, a)
    decreases |a|
  {
    if |a| > 0 && |b| > 0 && a[0] == b[0] {
      LeTotal(a[1..], b[1..]);
    }
  }

  /** `String.join(sep, parts)`. */
  function Join(sep: string, parts: seq<string>): (r: string)
    ensures |parts| == 0 ==> r == ""
    ensures |parts| == 1 ==> r == parts[0]
  {
    if |parts| == 0 then ""
    else if |parts| == 1 then parts[0]
    else parts[0] + sep + Join(sep, parts[1..])
  }

  /** Decimal digits of a natural number, as Long.toString prints it. */
  function NatToString(n: nat): (r: string)
    ensures |r| > 0
    ensures forall i :: 0 <= i < |r| ==> '0' <= r[i] <= '9'
  {
    var d := ['0' + (n % 10) as char];
    if n < 10 then d else NatToString(n / 10) + d
  }

  function IntToString(n: int): (r: string)
    ensures |r| > 0
  {
    if n < 0 then "-" + NatToString(-n) else NatToString(n)
  }

  /** String.hashCode: the polynomial hash with base 31 over the characters, in 32-bit arithmetic. */
  function Hash(s: string): (h: int)
    ensures JavaNumbers.IsInt32(h)
    ensures |s| == 0 ==> h == 0
  {
    if |s| == 0 then 0
    else JavaNumbers.Wrap32(31 * Hash(s[..|s| - 1]) + s[|s| - 1] as int)
  }
}

=== FILE: unit_examples.dfy ===
/** The renderings and equalities that the unit tests of the repository assert. */
module UnitExamples {

  import opened Units
  import Strings

  lemma RenderSymbol()
    ensures Render(Of("EUR")) == "EUR"
  {
  }

  lemma RenderProductSorted()
    ensures Render(Times(Of("EUR"), Of("cm"))) == "EUR*cm"
  {
    assert Strings.Le("EUR", "cm");
    TimesOfSymbols("EUR", "cm");
    assert Strings.Join("*", ["EUR", "cm"]) == "EUR*cm";
  }

  lemma RenderSquare()
    ensures Render(Times(Of("EUR"), Of("EUR"))) == "EUR*EUR"
  {
    Strings.LeReflexive("EUR");
    TimesOfSymbols("EUR", "EUR");
    assert Strings.Join("*", ["EUR", "EUR"]) == "EUR*EUR";
  }

  /** The product of two symbols in string order lists both in the numerator. */
  lemma TimesOfSymbols(a: string, b: string)
    requires Strings.Le(a, b)
    ensures Times(Of(a), Of(b)) == UnitRep([a, b], [])
  {
    var u := Times(Of(a), Of(b));
    assert Canonical(UnitRep([a, b], []));
    forall x ensures Exponent(u, x) == multiset([a, b])[x] as int - multiset([])[x] as int {
      SymbolsExponent(a, b, x);
    }
    FromExponents(u, [a, b], []);
  }

  /** Each symbol of a product of two symbols counts once per factor it names. */
  lemma SymbolsExponent(a: string, b: string, x: string)
    ensures Exponent(Times(Of(a), Of(b)), x) == multiset([a, b])[x] as int - multiset([])[x] as int
  {
    TimesExponent(Of(a), Of(b), x);
    assert Exponent(Of(a), x) == multiset([a])[x] as int;
    assert Exponent(Of(b), x) == multiset([b])[x] as int;
    assert multiset([a, b]) == multiset([a]) + multiset([b]);
  }

  lemma RenderSelfQuotient()
    ensures Render(Div(Of("EUR"), Of("EUR"))) == ""
  {
    DivSelf(Of("EUR"));
  }

  lemma RenderQuotient()
    ensures Render(Div(Of("EUR"), Of("h"))) == "EUR/h"
  {
    var u := Div(Of("EUR"), Of("h"));
    forall x ensures Exponent(u, x) == multiset(["EUR"])[x] as int - multiset(["h"])[x] as int {
      DivExponent(Of("EUR"), Of("h"), x);
    }
    FromExponents(u, ["EUR"], ["h"]);
  }

  lemma RenderInverse()
    ensures Render(Div(Div(Of("EUR"), Of("EUR")), Of("EUR"))) == "1/EUR"
  {
    var u := Div(Div(Of("EUR"), Of("EUR")), Of("EUR"));
    DivSelf(Of("EUR"));
    forall x ensures Exponent(u, x) == multiset([])[x] as int - multiset(["EUR"])[x] as int {
      DivExponent(Scalar(), Of("EUR"), x);
    }
    FromExponents(u, [], ["EUR"]);
  }

  lemma RenderCancelled()
    ensures Render(Div(Times(Of("EUR"), Of("EUR")), Of("EUR"))) == "EUR"
    ensures Render(Times(Div(Of("EUR"), Of("EUR")), Of("EUR"))) == "EUR"
  {
    DivUndoesTimes(Of("EUR"), Of("EUR"));
    DivSelf(Of("EUR"));
    ScalarIdentity(Of("EUR"));
  }

  /** `of("EUR")` equals another `of("EUR")` but neither its square nor EUR/EUR. */
  lemma EqualityExamples()
    ensures Of("EUR") == Of("EUR")
    ensures Of("EUR") != Times(Of("EUR"), Of("EUR"))
    ensures Of("EUR") != Div(Of("EUR"), Of("EUR"))
  {
    TimesExponent(Of("EUR"), Of("EUR"), "EUR");
    DivExponent(Of("EUR"), Of("EUR"), "EUR");
    assert Exponent(Times(Of("EUR"), Of("EUR")), "EUR") == 2;
    assert Exponent(Div(Of("EUR"), Of("EUR")), "EUR") == 0;
  }
}

=== FILE: units.dfy ===
/**
 * Physical units as a sorted numerator list and a sorted denominator list of
 * symbol strings. Construction cancels each numerator symbol against one equal
 * denominator symbol and sorts both lists, so a unit is a pair of disjoint
 * sorted lists and is determined by the exponent of each symbol.
 */
module Units {

  import opened Sorting
  import Strings
  import JavaNumbers

  datatype UnitRep = UnitRep(numer: seq<string>, denom: seq<string>)

  /** Both lists sorted as String.compareTo sorts them, no symbol on both sides. */
  predicate Canonical(u: UnitRep) {
    && Ascending(u.numer)
    && Ascending(u.denom)
    && Disjoint(u.numer, u.denom)
  }

  /** Each symbol is at most its successor: sortedness stated on neighbours. */
  predicate Ascending(s: seq<string>) {
    |s| < 2 || (Strings.Le(s[0], s[1]) && Ascending(s[1..]))
  }

  /** No symbol of `a` occurs in `b`. */
  predicate Disjoint(a: seq<string>, b: seq<string>) {
    |a| == 0 || (a[0] !in b && Disjoint(a[1..], b))
  }

  /** Under the string order, sorted on neighbours is sorted on every pair. */
  lemma {:induction false} AscendingIsSorted(s: seq<string>)
    ensures Ascending(s) <==> SortedBy(s, Strings.Le)
    decreases |s|
  {
    if |s| >= 2 {
      AscendingIsSorted(s[1..]);
      if Ascending(s) {
        forall i, j | 0 <= i < j < |s| ensures Strings.Le(s[i], s[j]) {
          if i > 0 {
            assert s[i] == s[1..][i - 1] && s[j] == s[1..][j - 1];
          } else if j > 1 {
            assert s[j] == s[1..][j - 1];
            assert Strings.Le(s[1], s[j]);
            Strings.LeTransitive(s[0], s[1], s[j]);
          }
        }
      }
      if SortedBy(s, Strings.Le) {
        assert SortedBy(s[1..], Strings.Le) by {
          forall i, j | 0 <= i < j < |s[1..]| ensures Strings.Le(s[1..][i], s[1..][j]) {
            assert s[1..][i] == s[i + 1] && s[1..][j] == s[j + 1];
          }
        }
      }
    }
  }

  /** `Disjoint` is membership-wise disjointness. */
  lemma {:induction false} DisjointMeans(a: seq<string>, b: seq<string>)
    ensures Disjoint(a, b) <==> forall x :: x in a ==> x !in b
    decreases |a|
  {
    if |a| > 0 {
      DisjointMeans(a[1..], b);
      assert a == [a[0]] + a[1..];
      assert forall x :: x in a <==> x == a[0] || x in a[1..];
    }
  }

  type Unit = u: UnitRep | Canonical(u) witness UnitRep([], [])

  /** Net power of symbol `x` in `u`: numerator occurrences minus denominator occurrences. */
  function Exponent(u: UnitRep, x: string): int {
    multiset(u.numer)[x] as int - multiset(u.denom)[x] as int
  }

  /** In a canonical unit a symbol occurs on one side only, so its count there is its exponent. */
  lemma CountsFromExponent(u: Unit, x: string)
    ensures multiset(u.numer)[x] as int == if Exponent(u, x) > 0 then Exponent(u, x) else 0
    ensures multiset(u.denom)[x] as int == if Exponent(u, x) < 0 then -Exponent(u, x) else 0
  {
    if multiset(u.numer)[x] > 0 {
      assert x in u.numer;
      DisjointMeans(u.numer, u.denom);
      assert x !in u.denom;
    }
  }

  lemma StringOrder()
    ensures TotalOrder(Strings.Le)
  {
    forall a, b ensures Strings.Le(a, b) || Strings.Le(b, a) {
      Strings.LeTotal(a, b);
    }
    forall a, b, c | Strings.Le(a, b) && Strings.Le(b, c) ensures Strings.Le(a, c) {
      Strings.LeTransitive(a, b, c);
    }
    forall a, b | Strings.Le(a, b) && Strings.Le(b, a) ensures a == b {
      Strings.LeAntisymmetric(a, b);
    }
  }

  /** `List.remove(Object)`: drops the first occurrence of `x`, if any. */
  function RemoveFirst(s: seq<string>, x: string): seq<string> {
    if |s| == 0 then []
    else if s[0] == x then s[1..]
    else [s[0]] + RemoveFirst(s[1..], x)
  }

  /**
   * The cancellation loop of the private constructor: every numerator symbol
   * that still occurs in the denominator removes itself and one occurrence there.
   */
  function Cancel(n: seq<string>, d: seq<string>): (seq<string>, seq<string>) {
    if |n| == 0 then ([], d)
    else if n[0] in d then Cancel(n[1..], RemoveFirst(d, n[0]))
    else
      var rest := Cancel(n[1..], d);
      ([n[0]] + rest.0, rest.1)
  }

  /** Removing drops one occurrence of `x` and nothing else. */
  lemma {:induction false} RemoveFirstCounts(s: seq<string>, x: string)
    ensures multiset(RemoveFirst(s, x)) == multiset(s) - multiset{x}
    decreases |s|
  {
    if |s| > 0 {
      assert s == [s[0]] + s[1..];
      if s[0] != x {
        RemoveFirstCounts(s[1..], x);
      }
    }
  }

  /** Cancellation leaves the two multiset differences. */
  lemma {:induction false} CancelCounts(n: seq<string>, d: seq<string>)
    ensures multiset(Cancel(n, d).0) == multiset(n) - multiset(d)
    ensures multiset(Cancel(n, d).1) == multiset(d) - multiset(n)
    decreases |n|
  {
    if |n| > 0 {
      if n[0] in d {
        RemoveFirstCounts(d, n[0]);
        CancelCounts(n[1..], RemoveFirst(d, n[0]));
        CancelledPair(n, d, RemoveFirst(d, n[0]));
      } else {
        CancelCounts(n[1..], d);
        KeptSymbol(n, d);
      }
    }
  }

  /** A numerator symbol found in `d` leaves both differences as they were without it. */
  lemma CancelledPair(n: seq<string>, d: seq<string>, d': seq<string>)
    requires |n| > 0 && n[0] in d && multiset(d') == multiset(d) - multiset{n[0]}
    ensures multiset(n[1..]) - multiset(d') == multiset(n) - multiset(d)
    ensures multiset(d') - multiset(n[1..]) == multiset(d) - multiset(n)
  {
    assert n == [n[0]] + n[1..];
    assert multiset(n) == multiset(n[1..]) + multiset{n[0]};
    assert multiset(d)[n[0]] > 0;
  }

  /** A numerator symbol absent from `d` stays in the numerator. */
  lemma KeptSymbol(n: seq<string>, d: seq<string>)
    requires |n| > 0 && n[0] !in d
    ensures multiset([n[0]] + Cancel(n[1..], d).0) == multiset{n[0]} + multiset(Cancel(n[1..], d).0)
    ensures multiset(n) - multiset(d) == multiset{n[0]} + (multiset(n[1..]) - multiset(d))
    ensures multiset(d) - multiset(n[1..]) == multiset(d) - multiset(n)
  {
    assert n == [n[0]] + n[1..];
    assert multiset(n) == multiset(n[1..]) + multiset{n[0]};
    assert multiset(d)[n[0]] == 0;
  }

  /** The private constructor: cancel, then sort both lists. */
  function Make(n: seq<string>, d: seq<string>): Unit
  {
    var c := Cancel(n, d);
    var r := UnitRep(Sort(c.0, Strings.Le), Sort(c.1, Strings.Le));
    CancelCounts(n, d);
    SortPermutes(c.0, Strings.Le);
    SortPermutes(c.1, Strings.Le);
    StringOrder();
    SortSorted(c.0, Strings.Le);
    SortSorted(c.1, Strings.Le);
    SortedCanonical(r, multiset(n), multiset(d));
    r
  }

  /** Construction keeps the net count of every symbol. */
  lemma MakeCounts(n: seq<string>, d: seq<string>)
    ensures multiset(Make(n, d).numer) == multiset(n) - multiset(d)
    ensures multiset(Make(n, d).denom) == multiset(d) - multiset(n)
    ensures forall x :: Exponent(Make(n, d), x) == multiset(n)[x] as int - multiset(d)[x] as int
  {
    var c := Cancel(n, d);
    CancelCounts(n, d);
    SortPermutes(c.0, Strings.Le);
    SortPermutes(c.1, Strings.Le);
  }

  /** Sorted lists holding the two differences of `m` and `k` form a canonical unit. */
  lemma SortedCanonical(r: UnitRep, m: multiset<string>, k: multiset<string>)
    requires SortedBy(r.numer, Strings.Le) && SortedBy(r.denom, Strings.Le)
    requires multiset(r.numer) == m - k && multiset(r.denom) == k - m
    ensures Canonical(r)
  {
    AscendingIsSorted(r.numer);
    AscendingIsSorted(r.denom);
    DifferencesDisjoint(r.numer, r.denom, m, k);
    DisjointMeans(r.numer, r.denom);
  }

  lemma DifferencesDisjoint(a: seq<string>, b: seq<string>, m: multiset<string>, k: multiset<string>)
    requires multiset(a) == m - k && multiset(b) == k - m
    ensures forall x :: x in a ==> x !in b
  {
    forall x | x in a ensures x !in b {
      assert multiset(a)[x] > 0;
    }
  }

  /** A unit is determined by its lists' contents: the sorted order is forced. */
  lemma FromContents(u: Unit, n: seq<string>, d: seq<string>)
    requires SortedBy(n, Strings.Le) && SortedBy(d, Strings.Le)
    requires multiset(u.numer) == multiset(n) && multiset(u.denom) == multiset(d)
    ensures u == UnitRep(n, d)
  {
    StringOrder();
    AscendingIsSorted(u.numer);
    AscendingIsSorted(u.denom);
    SortedUnique(u.numer, n, Strings.Le);
    SortedUnique(u.denom, d, Strings.Le);
  }

  /** Two units with the same exponent for every symbol are equal. */
  lemma Extensional(u: Unit, v: Unit)
    requires forall x :: Exponent(u, x) == Exponent(v, x)
    ensures u == v
  {
    forall x ensures multiset(u.numer)[x] == multiset(v.numer)[x] && multiset(u.denom)[x] == multiset(v.denom)[x] {
      CountsFromExponent(u, x);
      CountsFromExponent(v, x);
    }
    assert multiset(u.numer) == multiset(v.numer);
    assert multiset(u.denom) == multiset(v.denom);
    AscendingIsSorted(v.numer);
    AscendingIsSorted(v.denom);
    FromContents(u, v.numer, v.denom);
  }

  /** A canonical pair of lists is the unit with exactly those exponents. */
  lemma FromExponents(u: Unit, n: seq<string>, d: seq<string>)
    requires Canonical(UnitRep(n, d))
    requires forall x :: Exponent(u, x) == multiset(n)[x] as int - multiset(d)[x] as int
    ensures u == UnitRep(n, d)
  {
    var w: Unit := UnitRep(n, d);
    Extensional(u, w);
  }

  function Of(name: string): (u: Unit)
    ensures u.numer == [name] && u.denom == []
  {
    var u := Make([name], []);
    MakeCounts([name], []);
    FromContents(u, [name], []);
    u
  }

  function Scalar(): (u: Unit)
    ensures u.numer == [] && u.denom == []
    ensures forall x :: Exponent(u, x) == 0
  {
    Make([], [])
  }

  function Times(u: Unit, v: Unit): Unit
  {
    Make(u.numer + v.numer, u.denom + v.denom)
  }

  function Div(u: Unit, v: Unit): Unit
  {
    Make(u.numer + v.denom, u.denom + v.numer)
  }

  /** Unit.toString. */
  function Render(u: Unit): (s: string)
    ensures u.numer == [] && u.denom == [] ==> s == ""
    ensures u.numer == [] && u.denom != [] ==> s == "1/" + Strings.Join("*", u.denom)
    ensures u.denom == [] ==> s == Strings.Join("*", u.numer)
  {
    var ns := if |u.numer| == 0 then (if |u.denom| == 0 then "" else "1") else Strings.Join("*", u.numer);
    if |u.denom| == 0 then ns else ns + "/" + Strings.Join("*", u.denom)
  }

  function ListHash(l: seq<string>): (h: int)
    ensures JavaNumbers.IsInt32(h)
  {
    if |l| == 0 then 1
    else JavaNumbers.Wrap32(31 * ListHash(l[..|l| - 1]) + Strings.Hash(l[|l| - 1]))
  }

  /** Unit.hashCode in 32-bit arithmetic; the scalar unit hashes to 1 + 23 * 1. */
  function HashCode(u: Unit): (h: int)
    ensures JavaNumbers.IsInt32(h)
    ensures u == Scalar() ==> h == 24
  {
    JavaNumbers.Wrap32(ListHash(u.numer) + 23 * ListHash(u.denom))
  }

  lemma TimesCommutative(u: Unit, v: Unit)
    ensures Times(u, v) == Times(v, u)
  {
    forall x ensures Exponent(Times(u, v), x) == Exponent(Times(v, u), x) {
      TimesExponent(u, v, x);
      TimesExponent(v, u, x);
    }
    Extensional(Times(u, v), Times(v, u));
  }

  lemma TimesAssociative(u: Unit, v: Unit, w: Unit)
    ensures Times(Times(u, v), w) == Times(u, Times(v, w))
  {
    var l := Times(Times(u, v), w);
    var r := Times(u, Times(v, w));
    forall x ensures Exponent(l, x) == Exponent(r, x) {
      AssociativeExponent(u, v, w, x);
    }
    Extensional(l, r);
  }

  lemma AssociativeExponent(u: Unit, v: Unit, w: Unit, x: string)
    ensures Exponent(Times(Times(u, v), w), x) == Exponent(Times(u, Times(v, w)), x)
  {
    TimesExponent(Times(u, v), w, x);
    TimesExponent(u, v, x);
    TimesExponent(u, Times(v, w), x);
    TimesExponent(v, w, x);
  }

  /** A product adds exponents. */
  lemma TimesExponent(u: Unit, v: Unit, x: string)
    ensures Exponent(Times(u, v), x) == Exponent(u, x) + Exponent(v, x)
  {
    MakeCounts(u.numer + v.numer, u.denom + v.denom);
  }

  /** A quotient subtracts exponents. */
  lemma DivExponent(u: Unit, v: Unit, x: string)
    ensures Exponent(Div(u, v), x) == Exponent(u, x) - Exponent(v, x)
  {
    MakeCounts(u.numer + v.denom, u.denom + v.numer);
  }

  lemma ScalarIdentity(u: Unit)
    ensures Times(u, Scalar()) == u && Times(Scalar(), u) == u
    ensures Div(u, Scalar()) == u
  {
    forall x
      ensures Exponent(Times(u, Scalar()), x) == Exponent(u, x)
      ensures Exponent(Times(Scalar(), u), x) == Exponent(u, x)
      ensures Exponent(Div(u, Scalar()), x) == Exponent(u, x)
    {
      TimesExponent(u, Scalar(), x);
      TimesExponent(Scalar(), u, x);
      DivExponent(u, Scalar(), x);
    }
    Extensional(Times(u, Scalar()), u);
    Extensional(Times(Scalar(), u), u);
    Extensional(Div(u, Scalar()), u);
  }

  lemma DivSelf(u: Unit)
    ensures Div(u, u) == Scalar()
  {
    forall x ensures Exponent(Div(u, u), x) == Exponent(Scalar(), x) {
      DivExponent(u, u, x);
    }
    Extensional(Div(u, u), Scalar());
  }

  lemma DivUndoesTimes(u: Unit, v: Unit)
    ensures Div(Times(u, v), v) == u
  {
    var w := Times(u, v);
    forall x ensures Exponent(Div(w, v), x) == Exponent(u, x) {
      DivExponent(w, v, x);
      TimesExponent(u, v, x);
    }
    Extensional(Div(w, v), u);
  }

  lemma TimesUndoesDiv(u: Unit, v: Unit)
    ensures Times(Div(u, v), v) == u
  {
    var w := Div(u, v);
    forall x ensures Exponent(Times(w, v), x) == Exponent(u, x) {
      TimesExponent(w, v, x);
      DivExponent(u, v, x);
    }
    Extensional(Times(w, v), u);
  }

  /** Dividing by a unit is multiplying by its inverse. */
  lemma DivIsTimesInverse(u: Unit, v: Unit)
    ensures Div(u, v) == Times(u, Div(Scalar(), v))
  {
    var inv := Div(Scalar(), v);
    forall x ensures Exponent(Div(u, v), x) == Exponent(Times(u, inv), x) {
      DivExponent(u, v, x);
      DivExponent(Scalar(), v, x);
      TimesExponent(u, inv, x);
    }
    Extensional(Div(u, v), Times(u, inv));
  }
  /**
   * A unit is made from the symbols' counts alone: lists holding the same
   * symbols in any order make the same unit, and so the same text.
   */
  lemma RenderOrderFree(n: seq<string>, d: seq<string>, n': seq<string>, d': seq<string>)
    requires multiset(n) == multiset(n') && multiset(d) == multiset(d')
    ensures Make(n, d) == Make(n', d')
    ensures Render(Make(n, d)) == Render(Make(n', d'))
  {
    MakeCounts(n, d);
    MakeCounts(n', d');
    Extensional(Make(n, d), Make(n', d'));
  }

  /** The text of a product does not depend on the order of its factors. */
  lemma RenderTimesCommutes(u: Unit, v: Unit)
    ensures Render(Times(u, v)) == Render(Times(v, u))
  {
    TimesCommutative(u, v);
  }
}

=== FILE: unknown_dists.dfy ===
/**
 * `UnknownDistFactory`: a quantity whose distribution family is unknown.
 * Every (distribution, range) pair is a candidate; an index variable picks
 * one candidate per draw, and the main variable is the picked candidate,
 * bounded to the absolute limits.
 */
module UnknownDists {

  import opened Wrappers
  import opened Units
  import opened VarIds
  import opened Errors
  import opened Quantities
  import opened SimulationRuns
  import opened Variables
  import opened Evaluator
  import opened Distributions
  import opened Models
  import JavaNumbers
  import CombinatorLaws

  /** An absent limit is the corresponding infinity. */
  datatype Factory = Factory(
    dists: seq<StdDist>,
    absoluteMin: Option<real>,
    ranges: seq<Between>,
    absoluteMax: Option<real>,
    unit: Unit)

  /** The constructor's checks: at least one distribution and one range. */
  function MakeFactory(dists: seq<StdDist>, absoluteMin: Option<real>, ranges: seq<Between>, absoluteMax: Option<real>, unit: Unit): (r: Result<Factory, Error>)
    ensures r.Success? <==> |dists| > 0 && |ranges| > 0
    ensures r.Success? ==> r.value == Factory(dists, absoluteMin, ranges, absoluteMax, unit)
  {
    if |dists| == 0 then Failure(AssertionFailed("possibleDistributions.size() > 0"))
    else if |ranges| == 0 then Failure(AssertionFailed("estimatedRanges.size() > 0"))
    else Success(Factory(dists, absoluteMin, ranges, absoluteMax, unit))
  }

  /** Every standard distribution, in declaration order (what `EnumSet.allOf` iterates). */
  const AllDists: seq<StdDist> := [NormalDist, LogNormalDist, ShiftedExpDist, InverseShiftedExpDist, BlockDist]

  /**
   * `unknown(absoluteMin, lower, upper, absoluteMax, unit)`: every standard
   * distribution over the single range [lower, upper].
   */
  function Unknown(absoluteMin: Option<real>, lower: real, upper: real, absoluteMax: Option<real>, unit: Unit): (r: Result<Factory, Error>)
    ensures r.Success? <==>
      (absoluteMin.None? || absoluteMin.value <= lower) && lower < upper && (absoluteMax.None? || upper <= absoluteMax.value)
    ensures r.Success? ==> r.value == Factory(AllDists, absoluteMin, [Between(lower, upper)], absoluteMax, unit)
  {
    if !(absoluteMin.None? || absoluteMin.value <= lower) then Failure(AssertionFailed("absoluteMin <= lower"))
    else if !(lower < upper) then Failure(AssertionFailed("lower < upper"))
    else if !(absoluteMax.None? || upper <= absoluteMax.value) then Failure(AssertionFailed("upper <= absoluteMax"))
    else MakeFactory(AllDists, absoluteMin, [Between(lower, upper)], absoluteMax, unit)
  }

  /** The candidates of one distribution, one per range. */
  function ForDist(d: StdDist, ranges: seq<Between>, unit: Unit, ln: real -> real): (r: Result<seq<RV>, Error>)
    ensures r.Success? ==> |r.value| == |ranges|
    ensures r.Success? ==> forall j :: 0 <= j < |ranges| ==> Create(d, ranges[j], unit, ln) == Success(r.value[j])
    decreases |ranges|
  {
    if |ranges| == 0 then Success([])
    else
      var v :- Create(d, ranges[0], unit, ln);
      var rest :- ForDist(d, ranges[1..], unit, ln);
      Success([v] + rest)
  }

  /** All candidates, distribution-major: the ranges of the first distribution, then of the next, ... */
  function Candidates(dists: seq<StdDist>, ranges: seq<Between>, unit: Unit, ln: real -> real): (r: Result<seq<RV>, Error>)
    ensures r.Success? ==> |r.value| == |dists| * |ranges|
    decreases |dists|
  {
    if |dists| == 0 then Success([])
    else
      var first :- ForDist(dists[0], ranges, unit, ln);
      var rest :- Candidates(dists[1..], ranges, unit, ln);
      assert |first + rest| == |ranges| + (|dists| - 1) * |ranges|;
      Success(first + rest)
  }

  /** The candidate for distribution `i` and range `j` sits at index i * |ranges| + j. */
  lemma {:induction false} CandidateAt(dists: seq<StdDist>, ranges: seq<Between>, unit: Unit, ln: real -> real, i: nat, j: nat)
    requires Candidates(dists, ranges, unit, ln).Success?
    requires i < |dists| && j < |ranges|
    ensures i * |ranges| + j < |Candidates(dists, ranges, unit, ln).value|
    ensures Create(dists[i], ranges[j], unit, ln) == Success(Candidates(dists, ranges, unit, ln).value[i * |ranges| + j])
    decreases i
  {
    CandidatesSplit(dists, ranges, unit, ln);
    var first := ForDist(dists[0], ranges, unit, ln).value;
    var rest := Candidates(dists[1..], ranges, unit, ln).value;
    if i == 0 {
      assert (first + rest)[j] == first[j];
    } else {
      CandidateAt(dists[1..], ranges, unit, ln, i - 1, j);
      assert dists[1..][i - 1] == dists[i];
      BlockAt(first, rest, |ranges|, i, j);
    }
  }

  /** The candidates are those of the first distribution followed by those of the others. */
  lemma CandidatesSplit(dists: seq<StdDist>, ranges: seq<Between>, unit: Unit, ln: real -> real)
    requires Candidates(dists, ranges, unit, ln).Success? && |dists| > 0
    ensures ForDist(dists[0], ranges, unit, ln).Success? && Candidates(dists[1..], ranges, unit, ln).Success?
    ensures Candidates(dists, ranges, unit, ln).value ==
            ForDist(dists[0], ranges, unit, ln).value + Candidates(dists[1..], ranges, unit, ln).value
  {
  }

  /** In blocks of length `m` laid end to end, position `j` of block `i` lies one block into the rest. */
  lemma BlockAt(first: seq<RV>, rest: seq<RV>, m: nat, i: nat, j: nat)
    requires |first| == m && 0 < i && j < m && (i - 1) * m + j < |rest|
    ensures i * m + j < |first + rest| && (first + rest)[i * m + j] == rest[(i - 1) * m + j]
  {
    NextRow(i, m, j);
  }

  /** Row `i` starts one row length after row `i - 1`. */
  lemma NextRow(i: nat, m: nat, j: nat)
    requires i > 0
    ensures (i - 1) * m + j + m == i * m + j
  {
  }

  /** Each candidate exists exactly when every distribution accepts every range. */
  lemma {:induction false} CandidatesSucceed(dists: seq<StdDist>, ranges: seq<Between>, unit: Unit, ln: real -> real)
    ensures Candidates(dists, ranges, unit, ln).Success? <==>
      forall i, j :: 0 <= i < |dists| && 0 <= j < |ranges| ==> Create(dists[i], ranges[j], unit, ln).Success?
    decreases |dists|
  {
    if |dists| > 0 {
      CandidatesSucceed(dists[1..], ranges, unit, ln);
      ForDistSucceeds(dists[0], ranges, unit, ln);
      assert forall i :: 0 < i < |dists| ==> dists[i] == dists[1..][i - 1];
    }
  }

  lemma {:induction false} ForDistSucceeds(d: StdDist, ranges: seq<Between>, unit: Unit, ln: real -> real)
    ensures ForDist(d, ranges, unit, ln).Success? <==> forall j :: 0 <= j < |ranges| ==> Create(d, ranges[j], unit, ln).Success?
    decreases |ranges|
  {
    if |ranges| > 0 {
      ForDistSucceeds(d, ranges[1..], unit, ln);
      assert forall j :: 0 < j < |ranges| ==> ranges[j] == ranges[1..][j - 1];
    }
  }

  /** The candidate indices 0, 1, ..., n - 1 as numbers. */
  function Indices(n: nat): (r: seq<real>)
    ensures |r| == n
    ensures forall k :: 0 <= k < n ==> r[k] == k as real
  {
    if n == 0 then [] else Indices(n - 1) + [(n - 1) as real]
  }

  /** The id of the index variable: `baseName + "_dist"`. */
  function DistId(baseName: VarId): (r: VarId)
    ensures ToString(r) == ToString(baseName) + "_dist"
  {
    Subvar(baseName, "dist")
  }

  /**
   * `create(baseName)`: the index variable under `baseName_dist`, then the
   * main variable under `baseName`, which resolves the index variable
   * through the instance.
   */
  function CreateEntries(f: Factory, baseName: VarId, ln: real -> real): (r: Result<seq<(VarId, Producer)>, Error>)
    ensures r.Success? ==> |r.value| == 2
    ensures r.Success? ==> r.value[0].0 == DistId(baseName) && r.value[1].0 == baseName
    ensures r.Success? ==> r.value[0].1.Constant? && r.value[0].1.v.Empirical? && r.value[0].1.v.unit == Scalar()
    ensures r.Success? ==> r.value[1].1.UnknownMain? && r.value[1].1.indexId == DistId(baseName)
    ensures r.Success? ==> r.value[1].1.lower == f.absoluteMin && r.value[1].1.upper == f.absoluteMax
    ensures r.Success? ==> |r.value[1].1.candidates| == |f.dists| * |f.ranges| == |r.value[0].1.v.values|
  {
    var candidates :- Candidates(f.dists, f.ranges, f.unit, ln);
    var indices := Indices(|candidates|);
    Success([
      (DistId(baseName), Constant(Empirical(Scalar(), indices))),
      (baseName, UnknownMain(DistId(baseName), candidates, f.absoluteMin, f.absoluteMax))])
  }

  /**
   * The index variable's pick always names a valid candidate: observing the
   * main variable's unbounded core observes the candidate the integer draw names.
   */
  lemma PickIsValid(candidates: seq<RV>, o: Oracle, src: Source, run: Run)
    requires ValidOracle(o)
    requires 0 < |candidates| <= JavaNumbers.MAX_INT
    ensures var k := o.integer(src.stream, src.pos, |candidates|);
      && 0 <= k < |candidates|
      && Observe(Uncertain(Empirical(Scalar(), Indices(|candidates|)), candidates), o, src, run) ==
         Observe(candidates[k], o, Skip(src, 1), run)
  {
    var k := o.integer(src.stream, src.pos, |candidates|);
    var index := Empirical(Scalar(), Indices(|candidates|));
    assert Observe(index, o, src, run) == Success(Obs(Quantity(k as real, Scalar()), Skip(src, 1), run));
    CombinatorLaws.UncertainPicks(index, candidates, o, src, run, k);
  }
  /**
   * The main variable observes the picked candidate clamped to the absolute
   * limits: it fails exactly when that candidate fails, and otherwise lies
   * within the limits.
   */
  lemma MainWithinLimits(candidates: seq<RV>, lower: real, upper: real, o: Oracle, src: Source, run: Run)
    requires ValidOracle(o)
    requires 0 < |candidates| <= JavaNumbers.MAX_INT
    requires lower <= upper
    ensures var k := o.integer(src.stream, src.pos, |candidates|);
      var main := RangeBound(Uncertain(Empirical(Scalar(), Indices(|candidates|)), candidates), Some(lower), Some(upper));
      var r := Observe(main, o, src, run);
      && (r.Success? <==> Observe(candidates[k], o, Skip(src, 1), run).Success?)
      && (r.Success? ==> lower <= r.value.q.value <= upper)
  {
    var core := Uncertain(Empirical(Scalar(), Indices(|candidates|)), candidates);
    PickIsValid(candidates, o, src, run);
    CombinatorLaws.RangeBoundWithin(core, lower, upper, o, src, run);
  }
  /** The index variable as the model registers it: persisted under `baseName_dist`. */
  function IndexVar(baseName: VarId, n: nat): RV {
    Persistent(DistId(baseName), Empirical(Scalar(), Indices(n)))
  }

  /**
   * The first observation in a run draws the pick and persists it: the
   * candidates' core observes the candidate the integer draw names, in the
   * run that now holds the pick under `baseName_dist`.
   */
  lemma FirstPickPersists(baseName: VarId, candidates: seq<RV>, o: Oracle, src: Source, run: Run)
    requires ValidOracle(o)
    requires 0 < |candidates| <= JavaNumbers.MAX_INT
    requires !HasValue(run, DistId(baseName))
    ensures var k := o.integer(src.stream, src.pos, |candidates|);
      var pick := Quantity(k as real, Scalar());
      && 0 <= k < |candidates|
      && Persist(run, DistId(baseName), pick).Success?
      && Observe(Uncertain(IndexVar(baseName, |candidates|), candidates), o, src, run) ==
         Observe(candidates[k], o, Skip(src, 1), Persist(run, DistId(baseName), pick).value)
  {
    var k := o.integer(src.stream, src.pos, |candidates|);
    var pick := Quantity(k as real, Scalar());
    var index := Empirical(Scalar(), Indices(|candidates|));
    assert Observe(index, o, src, run) == Success(Obs(pick, Skip(src, 1), run));
    var stored := Persist(run, DistId(baseName), pick).value;
    assert Observe(IndexVar(baseName, |candidates|), o, src, run) == Success(Obs(pick, Skip(src, 1), stored));
    CombinatorLaws.UncertainPicks(IndexVar(baseName, |candidates|), candidates, o, src, run, k);
  }

  /**
   * Once the pick is in the run, later observations in that run make no new
   * draw for it: they observe the same candidate, from where they start.
   */
  lemma LaterPicksRepeat(baseName: VarId, candidates: seq<RV>, o: Oracle, src: Source, run: Run, k: nat)
    requires k < |candidates| && k <= JavaNumbers.MAX_INT
    requires HasValue(run, DistId(baseName)) && run.values[DistId(baseName)] == Quantity(k as real, Scalar())
    ensures Observe(Uncertain(IndexVar(baseName, |candidates|), candidates), o, src, run) ==
            Observe(candidates[k], o, src, run)
  {
    CombinatorLaws.UncertainPicks(IndexVar(baseName, |candidates|), candidates, o, src, run, k);
  }
}

=== FILE: variables.dfy ===
/**
 * Random variables as one closed datatype, the random source they draw from,
 * their declared units and kinds, and the checked constructors and
 * combinators that build them.
 */
module Variables {

  import opened Wrappers
  import opened Units
  import opened VarIds
  import opened Errors
  import opened Quantities

  /**
   * Distributions whose sampling needs Gaussian draws, logarithms or
   * exponentials. Their values come from the environment's sampler.
   */
  datatype Sampler =
    | NormalSampler(mean: real, sd: real)
    | LogNormalSampler(logMean: real, logSd: real)
    | ShiftedExpSampler(lower: real, upper: real, inverse: bool)
    | BetaBinomialSampler(trials: int, alpha: real, beta: real, shift: int)

  /**
   * The randomness of the environment. Stream `s` is an unbounded sequence of
   * draws; the draw at position `p` answers nextDouble, nextInt(bound), an
   * external sampler or spawnChild, whichever is asked for at that position.
   */
  datatype Oracle = Oracle(
    uniform: (nat, nat) -> real,
    integer: (nat, nat, int) -> int,
    sample: (Sampler, nat, nat) -> real,
    child: (nat, nat) -> nat)

  /** The contracts of java.util.Random: nextDouble in [0, 1), nextInt(b) in [0, b). */
  ghost predicate ValidOracle(o: Oracle) {
    && (forall s: nat, p: nat :: 0.0 <= o.uniform(s, p) < 1.0)
    && (forall s: nat, p: nat, b: int :: b > 0 ==> 0 <= o.integer(s, p, b) < b)
  }

  /** A random source: a stream and the position of its next draw. */
  datatype Source = Source(stream: nat, pos: nat)

  function Skip(src: Source, n: nat): (r: Source)
    ensures r.stream == src.stream && r.pos == src.pos + n
  {
    Source(src.stream, src.pos + n)
  }

  /** `nextDouble()` at the current position. */
  function Uniform(o: Oracle, src: Source): real {
    o.uniform(src.stream, src.pos)
  }

  /** `spawnChild()`: a new source on the stream the current draw names. */
  function SpawnChild(o: Oracle, src: Source): (r: (Source, Source))
    ensures r.0 == Source(o.child(src.stream, src.pos), 0)
    ensures r.1 == Skip(src, 1)
  {
    (Source(o.child(src.stream, src.pos), 0), Skip(src, 1))
  }

  /** Draws are taken from the same stream, never going back. */
  predicate Advances(a: Source, b: Source) {
    a.stream == b.stream && a.pos <= b.pos
  }

  datatype VarKind = D | C | F | U

  datatype RV =
    | Fixed(q: Quantity)
    | External(sampler: Sampler, unit: Unit)
    | Empirical(unit: Unit, values: seq<real>)
    | Block(lower: real, upper: real, unit: Unit)
    | Binom(count: RV, prob: RV)
    | Conditional(prob: RV, v1: RV, v2: RV)
    | CondValue(p: real, q1: Quantity, q2: Quantity)
    | Uncertain(index: RV, dists: seq<RV>)
    | Sum(left: RV, right: RV)
    | Difference(left: RV, right: RV)
    | Product(left: RV, right: RV)
    | Quotient(left: RV, right: RV)
    | SumOfN(term: RV, count: RV)
    | RangeBound(base: RV, lowerBound: Option<real>, upperBound: Option<real>)
    | Persistent(name: VarId, base: RV)
    | DealsYear(time: int, owner: nat, counts: seq<RV>, size: RV, factor: RV, duration: RV)

  /** `getType()`. */
  function Kind(v: RV): (k: VarKind)
    ensures v.Fixed? ==> k == F
    ensures k == F ==> v.Fixed? || v.RangeBound? || v.Persistent?
    ensures v.Uncertain? ==> k == U
    ensures v.Sum? || v.Product? || v.SumOfN? || v.Binom? || v.Conditional? || v.DealsYear? ==> k == C
    ensures v.Empirical? || v.Block? || v.CondValue? || v.External? ==> k == D
  {
    match v
    case Fixed(_) => F
    case External(_, _) => D
    case Empirical(_, _) => D
    case Block(_, _, _) => D
    case Binom(_, _) => C
    case Conditional(_, _, _) => C
    case CondValue(_, _, _) => D
    case Uncertain(_, _) => U
    case Sum(_, _) => C
    case Difference(_, _) => C
    case Product(_, _) => C
    case Quotient(_, _) => C
    case SumOfN(_, _) => C
    case RangeBound(b, _, _) => Kind(b)
    case Persistent(_, b) => Kind(b)
    case DealsYear(_, _, _, _, _, _) => C
  }

  /** `getUnit()`: the declared unit, which fails where Java indexes an empty array or list. */
  function UnitOf(v: RV): (r: Result<Unit, Error>)
    ensures v.Fixed? ==> r == Success(v.q.unit)
    ensures v.Empirical? || v.Block? || v.External? ==> r == Success(v.unit)
    ensures v.Uncertain? && |v.dists| == 0 ==> r.Failure?
  {
    match v
    case Fixed(q) => Success(q.unit)
    case External(_, u) => Success(u)
    case Empirical(u, _) => Success(u)
    case Block(_, _, u) => Success(u)
    case Binom(count, _) => UnitOf(count)
    case Conditional(_, v1, _) => UnitOf(v1)
    case CondValue(_, q1, _) => Success(q1.unit)
    case Uncertain(_, dists) =>
      if |dists| == 0 then Failure(IndexOutOfRange(0, 0)) else UnitOf(dists[0])
    case Sum(a, _) => UnitOf(a)
    case Difference(a, _) => UnitOf(a)
    case Product(a, b) =>
      var ua :- UnitOf(a);
      var ub :- UnitOf(b);
      Success(Units.Times(ua, ub))
    case Quotient(a, b) =>
      var ua :- UnitOf(a);
      var ub :- UnitOf(b);
      Success(Units.Div(ua, ub))
    case SumOfN(term, count) =>
      var uc :- UnitOf(count);
      var ut :- UnitOf(term);
      Success(Units.Times(uc, ut))
    case RangeBound(b, _, _) => UnitOf(b)
    case Persistent(_, b) => UnitOf(b)
    case DealsYear(_, _, counts, size, _, _) =>
      var us :- UnitOf(size);
      if |counts| == 0 then Failure(IndexOutOfRange(0, 0))
      else
        var uc :- UnitOf(counts[0]);
        Success(Units.Times(us, uc))
  }

  /** `new ConditionalDistribution(prob, v1, v2)`: both branches share a unit, the probability is scalar. */
  function MakeConditional(prob: RV, v1: RV, v2: RV): (r: Result<RV, Error>)
    ensures r.Success? <==>
      UnitOf(v1).Success? && UnitOf(v2).Success? && UnitOf(v1) == UnitOf(v2) && UnitOf(prob) == Success(Scalar())
    ensures r.Success? ==> r.value == Conditional(prob, v1, v2)
  {
    var u1 :- UnitOf(v1);
    var u2 :- UnitOf(v2);
    if u1 != u2 then Failure(AssertionFailed("branches of a conditional need equal units"))
    else
      var up :- UnitOf(prob);
      if up != Scalar() then Failure(AssertionFailed("probability of a conditional must be scalar"))
      else Success(Conditional(prob, v1, v2))
  }

  /** The constructor taking a plain probability wraps it in a fixed scalar. */
  function MakeConditionalWithProbability(p: real, v1: RV, v2: RV): (r: Result<RV, Error>)
    ensures r.Success? <==> UnitOf(v1).Success? && UnitOf(v1) == UnitOf(v2)
    ensures r.Success? ==> r.value == Conditional(Fixed(Quantity(p, Scalar())), v1, v2)
  {
    MakeConditional(Fixed(Quantity(p, Scalar())), v1, v2)
  }

  /** `conditional(prob, v1)`: the other branch is a fixed zero in `v1`'s unit. */
  function MakeConditionalOrZero(prob: RV, v1: RV): (r: Result<RV, Error>)
    ensures r.Success? <==> UnitOf(v1).Success? && UnitOf(prob) == Success(Scalar())
    ensures r.Success? ==> r.value.Conditional? && r.value.v1 == v1
    ensures r.Success? ==> r.value.v2 == Fixed(Quantity(0.0, UnitOf(v1).value))
  {
    var u1 :- UnitOf(v1);
    MakeConditional(prob, v1, Fixed(Quantity(0.0, u1)))
  }

  /** `new ConditionalValue(p, q1, q2)`: the two values share a unit. */
  function MakeCondValue(p: real, q1: Quantity, q2: Quantity): (r: Result<RV, Error>)
    ensures r.Success? <==> q1.unit == q2.unit
    ensures r.Success? ==> r.value == CondValue(p, q1, q2)
  {
    if q1.unit != q2.unit then Failure(AssertionFailed("values of a conditional value need equal units"))
    else Success(CondValue(p, q1, q2))
  }

  /** The two-argument constructor: the other value is `q1` times a scalar zero, which never fails. */
  function MakeCondValueOrZero(p: real, q1: Quantity): (r: Result<RV, Error>)
    ensures r.Success?
    ensures r.value == CondValue(p, q1, Quantity(0.0, q1.unit))
  {
    assert Quantities.Times(q1, Quantity(0.0, Scalar())).unit == q1.unit by {
      ScalarIdentity(q1.unit);
    }
    MakeCondValue(p, q1, Quantities.Times(q1, Quantity(0.0, Scalar())))
  }

  /** `new EmpiricalRandomVariable(unit, values)`: at least one value. */
  function MakeEmpirical(unit: Unit, values: seq<real>): (r: Result<RV, Error>)
    ensures r.Success? <==> |values| > 0
    ensures r.Success? ==> r.value == Empirical(unit, values)
  {
    if |values| == 0 then Failure(AssertionFailed("empirical distribution without values"))
    else Success(Empirical(unit, values))
  }

  /** `new BinomRandomVariable(count, prob)`: the probability is scalar. */
  function MakeBinom(count: RV, prob: RV): (r: Result<RV, Error>)
    ensures r.Success? <==> UnitOf(prob) == Success(Scalar())
    ensures r.Success? ==> r.value == Binom(count, prob)
  {
    var up :- UnitOf(prob);
    if up != Scalar() then Failure(AssertionFailed("binomial probability must be scalar"))
    else Success(Binom(count, prob))
  }

  /**
   * `ensurePersistent(name, v)`: wraps a plain variable, keeps a persistent one
   * of the same name, rejects a persistent one of another name.
   */
  function EnsurePersistent(name: VarId, v: RV): (r: Result<RV, Error>)
    ensures !v.Persistent? ==> r == Success(Persistent(name, v))
    ensures v.Persistent? && v.name == name ==> r == Success(v)
    ensures v.Persistent? && v.name != name ==> r.Failure?
    ensures r.Success? ==> r.value.Persistent? && r.value.name == name
  {
    if v.Persistent? then
      if v.name == name then Success(v) else Failure(AssertionFailed("persistent variable under another name"))
    else Success(Persistent(name, v))
  }

  /** `times(Quantity)`: multiplies by a fixed quantity. */
  function TimesQuantity(v: RV, factor: Quantity): (r: RV)
    ensures r.Product? && r.left == v && r.right.Fixed? && r.right.q == factor
  {
    Product(v, Fixed(factor))
  }

  /** `times(double)`: multiplies by a fixed scalar, so the unit is kept. */
  function TimesFactor(v: RV, factor: real): (r: RV)
    ensures r.Product? && r.left == v && r.right == Fixed(Quantity(factor, Scalar()))
    ensures UnitOf(v).Success? ==> UnitOf(r).Success? && UnitOf(r).value == UnitOf(v).value
  {
    ScalarFactorUnit(v, factor);
    TimesQuantity(v, Quantity(factor, Scalar()))
  }

  /** A fixed scalar factor keeps the unit of the variable it multiplies. */
  lemma ScalarFactorUnit(v: RV, factor: real)
    ensures var r := Product(v, Fixed(Quantity(factor, Scalar())));
      UnitOf(v).Success? ==> UnitOf(r).Success? && UnitOf(r).value == UnitOf(v).value
  {
    if UnitOf(v).Success? {
      var ua := UnitOf(v).value;
      var r := Product(v, Fixed(Quantity(factor, Scalar())));
      assert UnitOf(r) == Success(Units.Times(ua, Scalar()));
      assert Units.Times(ua, Scalar()) == ua by {
        ScalarIdentity(ua);
      }
    }
  }

  /** `sumOfN(int)`: the count is a fixed scalar. */
  function SumOfNTimes(v: RV, n: int): (r: RV)
    ensures r.SumOfN? && r.term == v && r.count == Fixed(Quantity(n as real, Scalar()))
    ensures UnitOf(v).Success? ==> UnitOf(r) == UnitOf(v)
  {
    assert UnitOf(v).Success? ==> Units.Times(Scalar(), UnitOf(v).value) == UnitOf(v).value by {
      if UnitOf(v).Success? {
        ScalarIdentity(UnitOf(v).value);
      }
    }
    SumOfN(v, Fixed(Quantity(n as real, Scalar())))
  }

  /** `bound(lower, upper)`; an absent bound is the corresponding infinity. */
  function Bound(v: RV, lower: Option<real>, upper: Option<real>): (r: RV)
    ensures r.RangeBound? && r.base == v
    ensures Kind(r) == Kind(v) && UnitOf(r) == UnitOf(v)
  {
    RangeBound(v, lower, upper)
  }

  /** `nonNegative()`: bounded below by zero and not bounded above. */
  function NonNegative(v: RV): (r: RV)
    ensures r.RangeBound? && r.base == v && r.lowerBound == Some(0.0) && r.upperBound.None?
  {
    Bound(v, Some(0.0), None)
  }
}

=== FILE: varids.dfy ===
/**
 * Variable identifiers. A named id wraps a string and prints as that string;
 * a unique id stands for an object whose identity is its only content, here
 * a pair of natural numbers allocated by its owner.
 */
module VarIds {

  import Strings

  datatype VarId =
    | Named(name: string)
    | Unique(owner: nat, slot: int)

  /** `VarId.of(s)`. */
  function Of(s: string): (id: VarId)
    ensures ToString(id) == s
    ensures id.Named?
  {
    Named(s)
  }

  /** The string form; a unique id prints its allocation coordinates. */
  function ToString(id: VarId): string {
    match id
    case Named(s) => s
    case Unique(o, k) => "UniqueId@" + Strings.NatToString(o) + "." + Strings.IntToString(k)
  }

  /** `subvar(suffix)`: a named id spelled as this id, an underscore and the suffix. */
  function Subvar(id: VarId, suffix: string): (r: VarId)
    ensures r.Named?
    ensures ToString(r) == ToString(id) + "_" + suffix
  {
    Of(ToString(id) + "_" + suffix)
  }

  /** `StringId.hashCode`, the hash of the string. */
  function HashCode(id: VarId): (h: int)
    requires id.Named?
    ensures h == Strings.Hash(ToString(id))
  {
    Strings.Hash(id.name)
  }

  /** Named ids are equal exactly when their strings are, and never equal a unique id. */
  lemma NamedEquality(a: string, b: string, o: nat, k: int)
    ensures Of(a) == Of(b) <==> a == b
    ensures Of(a) != Unique(o, k)
  {
  }

  /** Equal ids have equal string forms, and for named ids the converse holds too. */
  lemma StringFormFaithful(a: VarId, b: VarId)
    requires a.Named? && b.Named?
    ensures a == b <==> ToString(a) == ToString(b)
  {
  }

  /** Different suffixes on the same id give different sub-ids, and a sub-id is never its base. */
  lemma SubvarInjective(id: VarId, s1: string, s2: string)
    ensures Subvar(id, s1) == Subvar(id, s2) <==> s1 == s2
    ensures Subvar(id, s1) != id
  {
    var p := ToString(id) + "_";
    if Subvar(id, s1) == Subvar(id, s2) {
      assert p + s1 == p + s2;
      assert s1 == (p + s1)[|p|..];
      assert s2 == (p + s2)[|p|..];
    }
    assert |ToString(Subvar(id, s1))| > |ToString(id)|;
  }

  /** The ids of a list of (id, value) entries, in order. */
  function Ids<T>(entries: seq<(VarId, T)>): (ids: seq<VarId>)
    ensures |ids| == |entries|
    ensures forall i :: 0 <= i < |entries| ==> ids[i] == entries[i].0
  {
    if |entries| == 0 then [] else [entries[0].0] + Ids(entries[1..])
  }

  /** No id occurs twice. */
  predicate Distinct(s: seq<VarId>) {
    forall i, j :: 0 <= i < j < |s| ==> s[i] != s[j]
  }

  /** A list is duplicate-free when its tail is and its head repeats nowhere in it. */
  lemma DistinctCons(x: VarId, s: seq<VarId>)
    ensures Distinct([x] + s) <==> x !in s && Distinct(s)
  {
    if x !in s && Distinct(s) {
      forall i, j | 0 <= i < j < |[x] + s| ensures ([x] + s)[i] != ([x] + s)[j] {
        if i > 0 {
          assert ([x] + s)[i] == s[i - 1];
        }
        assert ([x] + s)[j] == s[j - 1];
      }
    }
    if Distinct([x] + s) {
      forall i, j | 0 <= i < j < |s| ensures s[i] != s[j] {
        assert s[i] == ([x] + s)[i + 1] && s[j] == ([x] + s)[j + 1];
      }
      forall k | 0 <= k < |s| ensures s[k] != x {
        assert ([x] + s)[k + 1] == s[k] && ([x] + s)[0] == x;
      }
    }
  }
}

=== FILE: wrappers.dfy ===
/** Failure-compatible Option and Result datatypes used throughout the model. */
module Wrappers {

  datatype Option<+T> = None | Some(value: T)

  /** Either a value or the error that the Java code would have thrown. */
  datatype Result<+T, +E> = Success(value: T) | Failure(error: E) {

    predicate IsFailure() {
      Failure?
    }

    function PropagateFailure<U>(): Result<U, E>
      requires Failure?
    {
      Failure(error)
    }

    function Extract(): T
      requires Success?
    {
      value
    }
  }
}
